=== FILE: README.md ===
# usta_bot loyalty core in Dafny

This project models the core of usta_bot, a Telegram bot that runs a loyalty-points scheme, and proves properties of that model. Users earn points when an administrator credits a purchase or rewards a photo. They ask for rewards from a catalogue, and an administrator answers a request by granting the reward, which charges no points. The points-spending claim of the reward service (`claimReward`) is modelled as well, although no button the bot shows leads to it (see "## Left out"). The model covers three parts:

- **the points ledger**: `updateUserPoints`, `adminChangePoints` and the photo credit;
- **reward fulfilment**: `claimReward`, `grantReward`, `adminGrantRewardToUser` and `removeUserReward`;
- **the pure logic around them**: statistics and leaderboards, the message helpers, the admission middlewares, the controllers' decisions, and the session-driven flows of `bot.js` and `adminHandlers.js`.

The MongoDB database is modelled as an immutable `Store` value (`Models.Store`):

- users, rewards, user rewards (claims), points history and channels are sequences;
- a document's `_id` is its position;
- a deleted reward or channel leaves an empty slot, so ids stay stable.

Each service call is a pure function from a store to a new store plus a result. A Mongo transaction is one all-or-nothing step of that function.

Inputs that come from outside the program are parameters:

- the clock: `now`;
- whether a Telegram send went through: `delivered`, `notified`;
- what `getChatMember` reports: `lookup`;
- the `ADMIN_IDS` variable: `env`;
- whether a write inside a transaction fails for reasons the schemas do not explain: `writesSucceed`.

The two invariants the ledger operations keep are defined in `Models`:

- `Models.Ledgered`: every balance is non-negative and equals the sum of that user's history amounts;
- `Models.SchemaValid`: every record satisfies its Mongoose schema, and Telegram ids are unique.

Module layout follows the source tree:

| module | source file |
|---|---|
| `Wrappers`, `Sequences`, `Strings`, `Collections` | generic support: Option/Result, sequence facts, JavaScript string and number parsing, filtering, counting and stable sorting |
| `Models` | `src/models/*.js` |
| `UserService`, `RewardService`, `AdminService`, `StatisticsService`, `ChannelService` | `src/services/*.js` |
| `Helpers` | `src/utils/helpers.js` |
| `Middlewares` | `src/middlewares/authMiddleware.js`, `adminMiddleware.js`, `channelMiddleware.js` |
| `Sessions` | the `ctx.session` fields the flows use |
| `UserController`, `AdminController` | `src/controllers/userController.js`, `adminController.js` |
| `Bot` | `src/bot.js` |
| `AdminHandlers` | `src/admin/adminHandlers.js` |

Where the source contradicts its own evident intent, the model keeps the code as written. It also proves a corrected version next to it; see "## Findings". Two such places differ from what the surrounding documentation says:

- the private-channel branch of `parseChannelLink`;
- the `claim_reward_` button of the reward card.

## Model

| member | source | states |
|---|---|---|
| `Models.NewUser` | src/models/User.js:19-31 | a freshly built user document has no phone and 0 points, and keeps the Telegram id, name and admin flag it was built with |
| `Models.NewClaim` | src/models/UserReward.js:16-28 | a freshly created user reward has status `claimed`, is claimed at creation time and is not yet delivered |
| `Models.CastIdText` | src/models/UserReward.js:5-15 | an id written out as its 24-digit hex text casts back to the same id |
| `Models.NoNumberIsAnObjectId` | src/models/PointsHistory.js:19-22 | no JavaScript number, as `String(n)` writes it, is a 24-digit hex string, so none casts to the `ObjectId` that `adminId` requires |
| `Models.TotalPointsIsHistoryTotal` | src/services/userService.js:36-57 | when every balance equals its history sum, the points held by all users equal the net total of every history amount |
| `Models.LedgerStep` | src/services/userService.js:36-57 | posting one history entry together with the matching balance change keeps every balance non-negative and equal to its history sum, as long as the changed balance stays non-negative |
| `Models.SchemaStep` | src/models/PointsHistory.js:5-27 | posting an entry that has a reason, with a balance that stays non-negative, keeps every record valid and the Telegram ids unique |
| `Models.AddUserStep` | src/models/User.js:5-31 | adding a user with 0 points under an unused Telegram id keeps both invariants, and looking up that Telegram id finds the new user |
| `Models.EmptyStoreIsConsistent` | src/models/User.js:23-27 | the empty database satisfies both invariants |
| `UserService.UpdateUserPoints` | src/services/userService.js:30-70 | an unknown user fails with "not found"; a change that would take the balance below 0 fails with "negative balance"; an empty reason fails the history schema. It succeeds exactly when none of these applies. Then it moves that one balance by `amount`, records exactly one history entry, and returns the saved user |
| `UserService.UpdatePreservesLedger` | src/services/userService.js:36-59 | a committed update keeps every balance non-negative and equal to its history sum, and every record valid |
| `UserService.UpdateThenUndo` | src/services/userService.js:36-57 | a committed change followed by the opposite change always commits and restores every balance; the history keeps both entries |
| `UserService.ReplayConserves` | src/services/userService.js:30-70 | over any series of updates to one user, the final balance is the starting balance plus the committed amounts. It never goes negative, one entry is recorded per committed update, both invariants hold throughout, and rewards and user rewards are untouched |
| `UserService.ToggleAdminStatus` | src/services/userService.js:75-93 | fails exactly for an unknown user; otherwise sets `isAdmin` to the requested value and changes nothing else about that user or any other record |
| `UserService.ToggleAdminPreservesLedger` | src/services/userService.js:77-85 | changing the admin flag keeps both invariants |
| `UserService.GetAllUsers` | src/services/userService.js:98-105 | returns every user that matches the filter, as often as it is stored, and no other; with no filter it returns all users in store order |
| `RewardService.GetActiveRewards` | src/services/rewardService.js:12-19 | lists every stored active reward exactly once, cheapest first, and no others |
| `RewardService.ActiveRewardsAreTheActiveOnes` | src/services/rewardService.js:14 | every stored active reward is listed under its own id, and everything listed is stored and active |
| `RewardService.ClaimReward` | src/services/rewardService.js:31-84 | the checks run in this order: reward missing or inactive, then out of stock, then user missing, then points short. A failed check changes nothing. After the checks, the debit commits in its own transaction. If a later write fails, the error is returned but the debit stays. On success, finite stock drops by one and one `claimed` user reward is added. The returned user is the one read before the debit |
| `RewardService.ClaimEffects` | src/services/rewardService.js:43-71 | a successful claim lowers the balance by exactly the cost, and the balance stays non-negative. It records one history entry and appends one `claimed` user reward. Finite stock drops by exactly one and stays non-negative; unlimited stock stays unlimited. A claim refused by a check changes nothing |
| `RewardService.ClaimReturnsStaleUser` | src/services/rewardService.js:48-76 | the user returned by a successful claim shows the balance from before the claim: the stored balance plus the cost |
| `RewardService.AbortedClaimKeepsDebit` | src/services/rewardService.js:58-80 | when a write after the debit fails, the claim reports an error and stock and user rewards are unchanged, but the balance stays debited and the debit's history entry stays |
| `RewardService.ClaimPreservesLedger` | src/services/rewardService.js:31-84 | on every path, including the aborted one, every balance stays non-negative and equal to its history sum, and every record stays valid |
| `RewardService.NoOverselling` | src/services/rewardService.js:43-64 | with one unit left, the first claim succeeds and leaves stock 0, and the next claim on that reward is refused as out of stock and changes nothing |
| `RewardService.GrantReward` | src/services/rewardService.js:103-122 | fails exactly when the reward does not exist. Otherwise it appends one `claimed` user reward and changes nothing else. It checks neither activity, stock nor the user |
| `RewardService.GrantPreservesLedger` | src/services/rewardService.js:110-114 | a grant leaves users, rewards and history as they were, and both invariants hold |
| `RewardService.RemoveUserReward` | src/services/rewardService.js:127-145 | fails exactly when the user reward does not exist. Otherwise it sets that record's status to `cancelled`, returns the updated record and changes nothing else |
| `RewardService.RemoveUserRewardIdempotent` | src/services/rewardService.js:129-133 | cancelling the same user reward a second time succeeds and changes nothing |
| `RewardService.RemoveReward` | src/services/rewardService.js:21-25 | fails exactly when the reward does not exist. Otherwise that reward is gone, every other reward is unchanged, and users, user rewards and history are untouched |
| `RewardService.CreateReward` | src/services/rewardService.js:150-165 | succeeds exactly when title and description are non-empty, the cost is at least 0 and the stock is at least -1. It then stores an active reward with those fields under the next id, which no reward held. Every earlier reward, every user, every user reward and every history entry stays as it was |
| `RewardService.CreatedRewardIsUnlimited` | src/services/rewardService.js:150 | a reward created without a stock is active, has unlimited stock and is never sold out |
| `AdminService.Broadcast` | src/services/adminService.js:13-28 | one send is attempted per user, in store order; the success and failure counts add up to the number of users, and the success count is the number of sends that went through |
| `AdminService.GetStatistics` | src/services/adminService.js:33-40 | `totalUsers` is the number of users; with no users, `totalPoints` is 0 |
| `AdminService.StatisticsMatchLedger` | src/services/adminService.js:35-36 | when the ledger holds, `totalPoints` equals the net total of the history and is not negative |
| `AdminService.AdminChangePoints` | src/services/adminService.js:45-77 | an unknown target fails with "not found" and leaves the store alone; every failure leaves the store alone; a success needs `adminId` to cast to an `ObjectId` |
| `AdminService.AdminChangePointsNeverCommits` | src/services/adminService.js:58-65 | as written, no call changes the store and every call reports failure (see Findings) |
| `AdminService.AdminChangePointsAsUser` | src/services/adminService.js:45-77 | with the acting admin passed as a user id: an unknown target fails with "not found", and every failure leaves the store alone |
| `AdminService.AdminChangeAgreesWithUpdate` | src/services/adminService.js:49-65 | for a stored target, the admin change succeeds exactly when `updateUserPoints` on that user would, and it leaves the same store |
| `AdminService.AdminChangePreservesLedger` | src/services/adminService.js:52-67 | an admin change, successful or not, keeps both invariants |
| `AdminService.AdminGrantRewardToUser` | src/services/adminService.js:82-110 | a reward id that is not an `ObjectId` fails with a cast error before anything else. It succeeds exactly when the target user is found and the reward exists, and then appends one `claimed` user reward for that user. Every failure leaves the store alone |
| `AdminService.AdminGrantIsServiceGrant` | src/services/adminService.js:86-98 | a successful admin grant leaves the same store as the reward service's grant to that user |
| `StatisticsService.GetGeneralStatistics` | src/services/statisticsService.js:11-42 | counts the users, the admins (never more than the users), the stored rewards that are active (each counted once) and the `claimed` user rewards (never more than all of them), and sums the points held |
| `StatisticsService.ClaimMovesStatistics` | src/services/statisticsService.js:20-29 | after a successful claim there is one more claimed reward and total points drop by the reward's cost; the user and admin counts stay the same |
| `StatisticsService.GetLeaderboard` | src/services/statisticsService.js:47-57 | shows the first `limit` users, or all of them if fewer or if `limit` is 0 (Mongoose reads `.limit(0)` as no limit), with points never increasing down the list; each row shows a stored user's current name and points, and no user appears twice |
| `StatisticsService.LeaderboardIsTop` | src/services/statisticsService.js:49-51 | nobody left off the leaderboard has more points than anyone on it |
| `StatisticsService.GetUserPointsHistory` | src/services/statisticsService.js:62-72 | returns `limit` of the user's own history entries, or all of them if fewer or if `limit` is 0, newest first, and each of the user's entries appears at most as often as it is stored |
| `StatisticsService.HistoryIsLatest` | src/services/statisticsService.js:64-66 | an entry of the user that is left out is no newer than any entry shown |
| `StatisticsService.ClaimedRewardIds` | src/services/statisticsService.js:79-84 | a reward is grouped exactly when some user reward for it has status `claimed` |
| `StatisticsService.GetTopRewards` | src/services/statisticsService.js:77-100 | returns one row for each claimed reward, up to `limit` rows. A `limit` of 0 gives no rows: MongoDB refuses `$limit: 0` and the catch returns the empty list |
| `StatisticsService.TopRewardsRows` | src/services/statisticsService.js:79-95 | each claimed reward appears at most once, with its true number of `claimed` records and its current document (absent if deleted); the most-claimed come first |
| `StatisticsService.TopRewardsAreTop` | src/services/statisticsService.js:79-84 | a claimed reward that is left out was claimed no more often than any reward listed |
| `ChannelService.AddChannel` | src/services/channelService.js:8-23 | an empty title, link or channel id fails validation; a taken channel id fails the unique index. Otherwise the channel is appended under the next id with the given `isRequired` flag, and nothing else changes |
| `ChannelService.AddChannelKeepsIdsUnique` | src/models/Channel.js:13-17 | adding a channel keeps channel ids unique |
| `ChannelService.RemoveChannel` | src/services/channelService.js:28-42 | text that is not an `ObjectId` fails with a cast error; a missing channel fails with "not found". Otherwise exactly that channel is removed and returned |
| `ChannelService.AddThenRemove` | src/services/channelService.js:8-42 | removing a channel right after adding it returns the added channel and leaves the other channels as before; removing it again fails with "not found" |
| `ChannelService.GetAllChannels` | src/services/channelService.js:47-54 | returns every stored channel exactly once, newest first |
| `ChannelService.GetRequiredChannels` | src/services/channelService.js:59-66 | returns exactly the stored channels marked required |
| `ChannelService.RequiredChannelsAreTheRequiredOnes` | src/services/channelService.js:61 | a stored channel is listed as required exactly when its flag is set |
| `ChannelService.AddedChannelIsRequired` | src/services/channelService.js:8-15 | a channel added without a flag is required by default and shows up among the required channels |
| `ChannelService.SubscriptionRule` | src/services/channelService.js:71-79 | a user counts as joined exactly for the statuses `member`, `administrator` and `creator`; `left`, `kicked`, `restricted` and a failed lookup do not count |
| `Helpers.FormatPhone` | src/utils/helpers.js:40-43 | a missing or empty phone shows as `N/A`; otherwise the result holds only digits and `+`, exactly as many of each as the input had |
| `Helpers.FormatPhoneKeepsOrder` | src/utils/helpers.js:42 | formatting works piecewise: the formatted concatenation is the concatenation of the formatted parts, so the kept characters stay in order |
| `Helpers.FormatPhoneIdempotent` | src/utils/helpers.js:42 | formatting a formatted phone changes nothing |
| `Helpers.FormatPhonePlaceholder` | src/utils/helpers.js:41-42 | the placeholder `N/A` is not a phone: formatting it again leaves nothing |
| `Helpers.NoAdminIds` | src/utils/helpers.js:68-79 | with `ADMIN_IDS` unset or empty there are no admin ids and nobody is an admin |
| `Helpers.AdminIdsRoundTrip` | src/utils/helpers.js:68-79 | a comma-separated list of ids parses back to those ids, and a Telegram id counts as an admin exactly when it is in the list |
| `Helpers.ChunkMessage` | src/utils/helpers.js:84-102 | the loop yields the packing of the text's lines into chunks, each chunk trimmed |
| `Helpers.ChunksKeepText` | src/utils/helpers.js:88-99 | before trimming, the chunks put back together are the text's lines, each followed by a newline: nothing is lost or reordered |
| `Helpers.ChunksMaximal` | src/utils/helpers.js:91-93 | a new chunk starts only when adding its first line to the previous chunk would exceed the limit |
| `Helpers.ChunksBounded` | src/utils/helpers.js:91-99 | when every line with its newline fits the limit, every chunk fits it |
| `Helpers.ChunksOfShortText` | src/utils/helpers.js:84-101 | a text that fits the limit with its newline comes back as one chunk, the trimmed text |
| `Middlewares.EnsureUser` | src/middlewares/authMiddleware.js:9-39 | a missing or zero sender id stops silently, and an unknown sender is marked for registration and stopped. A known sender passes with the admin flag `ADMIN_IDS` dictates; the store changes only when the flag actually changes |
| `Middlewares.EnsureUserSyncs` | src/middlewares/authMiddleware.js:26-34 | after the middleware, the stored user carries the flag `ADMIN_IDS` dictates. Running it again changes nothing, and both invariants hold |
| `Middlewares.GetOrCreateUser` | src/middlewares/authMiddleware.js:44-67 | a missing or zero sender id gives no user, and a known sender gets the stored user with nothing changed. A new sender is added with 0 points and no phone, the admin flag from `ADMIN_IDS`, the first name (or `Foydalanuvchi` when there is none) and the sender's username, kept only if non-empty |
| `Middlewares.GetOrCreateUserOnce` | src/middlewares/authMiddleware.js:49-62 | a second call for the same sender finds the user the first call created and changes nothing; both invariants hold |
| `Middlewares.IsAdmin` | src/middlewares/adminMiddleware.js:8-26 | lets through exactly a known user whose admin flag is set; otherwise it refuses with the "register first" or the "admins only" message |
| `Middlewares.AdminGateFollowsEnv` | src/middlewares/authMiddleware.js:26-34 | behind `ensureUser`, the admin gate admits a known sender exactly when `ADMIN_IDS` lists them, whatever the stored flag said |
| `Middlewares.UnsubscribedChannels` | src/middlewares/channelMiddleware.js:19-32 | lists exactly those required channels whose lookup returned a status other than member, administrator or creator |
| `Middlewares.CheckChannelSubscription` | src/middlewares/channelMiddleware.js:9-56 | with no user or no required channels the update passes. It is blocked exactly when some required channel was looked up and found unjoined and the reply went out, and the block lists exactly those channels |
| `Middlewares.GateAndServiceDisagreeOnErrors` | src/middlewares/channelMiddleware.js:28-31 | on a successful lookup the gate and `checkUserSubscription` agree; on a failed lookup the gate lets the channel pass while the service says "not joined" |
| `UserController.StockLabel` | src/controllers/userController.js:79 | shows the unlimited sign exactly for stock -1, and otherwise the number of units |
| `UserController.ShowRewards` | src/controllers/userController.js:54-146 | with no active rewards it says there are none. A page exists exactly for an index below the number of active rewards; it shows the reward at that index of the price-ordered list, its stock label and its page number out of the total |
| `UserController.PageButtonsStayInRange` | src/controllers/userController.js:87-98 | there is a "previous" button exactly after the first page and a "next" button exactly before the last. Each leads to an existing page one number lower or higher, whose opposite button leads back |
| `UserController.PageForEveryReward` | src/controllers/userController.js:58-72 | every stored active reward is shown on some page |
| `UserController.EveryPageIsActive` | src/controllers/userController.js:58-70 | every page shows a stored, active reward as it is stored |
| `UserController.ShowClaimReward` | src/controllers/userController.js:183-220 | with no active rewards it says so. When nothing is affordable it shows the balance and the cheapest price, which is below no active reward's price. Otherwise it offers, cheapest first, exactly the active rewards whose price is within the balance |
| `UserController.ClaimMenuIsTheAffordableOnes` | src/controllers/userController.js:194-197 | an active reward is offered exactly when its price is within the user's balance; stock plays no part |
| `UserController.ConfirmClaimReward` | src/controllers/userController.js:225-266 | a reward id that is not an `ObjectId` ends in the error reply. A confirmation asks about the reward named, and a "not enough" reply shows a balance below the price |
| `UserController.ConfirmFollowsClaimOrder` | src/controllers/userController.js:232-250 | the confirmation refuses for "not available", "sold out" and "not enough points" in exactly the cases where `claimReward`'s checks would, and asks for confirmation exactly when they would all pass |
| `UserController.ClaimFailureOf` | src/controllers/userController.js:294-300 | the "not enough points" reply is given exactly for that error and the "sold out" reply exactly for that error; everything else gets the generic message |
| `UserController.ExecuteClaimReward` | src/controllers/userController.js:271-304 | leaves the store the claim leaves. A refusal is answered with the reply for its error; a success congratulates with the reward's title and the balance carried by the returned user |
| `UserController.CongratulationShowsStaleBalance` | src/controllers/userController.js:275-282 | the congratulation shows the balance from before the claim, which is the new balance plus the cost |
| `UserController.ClaimRefusalsMatchTheChecks` | src/controllers/userController.js:294-300 | the user sees "sold out" exactly when the reward exists, is active and is sold out. They see "not enough points" exactly when it exists, is active, is not sold out and costs more than their balance |
| `UserController.ExecuteClaimPreservesLedger` | src/controllers/userController.js:275 | a claim through `executeClaimReward` keeps both invariants on every path |
| `AdminController.PointsForPurchase` | src/controllers/adminController.js:139 | the points are the number of whole 20 000 units in the purchase sum; they are positive exactly from 20 000 up |
| `AdminController.PurchaseThreshold` | src/controllers/adminController.js:138-146 | a purchase earns points exactly from 20 000 up, and one million earns 50 points, as the code comment promises |
| `AdminController.ExecuteAddPoints` | src/controllers/adminController.js:128-164 | an unknown target gets "not found" and a sum below 20 000 gets "too small"; neither changes the store. Otherwise the credit is `updateUserPoints` with the purchase points, recorded with the acting admin, and the reply shows the target's name, the points and the new balance |
| `AdminController.ExecuteRemovePoints` | src/controllers/adminController.js:403-436 | an unknown target gets "not found"; a balance below the amount gets "not enough", showing the balance. Otherwise the amount is debited through `updateUserPoints` and the reply shows the new balance. Only a removal changes the store |
| `AdminController.RemoveGuardIsServiceGuard` | src/controllers/adminController.js:413-421 | for a found target, the controller removes points exactly when `updateUserPoints` would accept the debit, so its own balance check never hides a service error |
| `AdminController.PointChangesPreserveLedger` | src/controllers/adminController.js:128-164 | adding and removing points keep both invariants on every path |
| `AdminController.AddPointsPreservesLedger` | src/controllers/adminController.js:143-148 | adding purchase points keeps both invariants on every path |
| `AdminController.RemovePointsPreservesLedger` | src/controllers/adminController.js:413-421 | removing points keeps both invariants on every path |
| `AdminController.SegmentFilter` | src/controllers/adminController.js:524-530 | the segment `admins` selects admins, `users` selects non-admins, and any other segment selects everyone |
| `AdminController.ExecuteBroadcast` | src/controllers/adminController.js:522-570 | one send is attempted to each user of the segment; the success and failure counts add up to the number of recipients, and the success count is the number of sends that went through |
| `AdminController.SendToEach` | src/controllers/adminController.js:538-555 | the send loop counts every recipient once, as a success exactly when the send went through |
| `AdminController.SegmentRecipients` | src/controllers/adminController.js:524-532 | the `admins` broadcast reaches exactly the stored admins, the `users` broadcast exactly the stored non-admins, and any other segment every user |
| `AdminController.StartAddPoints` | src/controllers/adminController.js:102-108 | the next text is read as a purchase sum for the chosen target |
| `AdminController.StartRemovePoints` | src/controllers/adminController.js:170-176 | the next text is read as an amount to remove from the chosen target |
| `AdminController.SelectBroadcastSegment` | src/controllers/adminController.js:494-500 | the next text is broadcast to the chosen segment |
| `AdminController.StartAddChannel` | src/controllers/adminController.js:575-580 | the next text is read as a new channel's title |
| `AdminController.StartAddReward` | src/controllers/adminController.js:195-199 | the next text is read as a new reward's name |
| `AdminController.HandleRewardName` | src/controllers/adminController.js:201-205 | the name is kept for the draft and the flow asks for the description |
| `AdminController.HandleRewardDesc` | src/controllers/adminController.js:207-215 | `/skip` stores an empty description and any other text is stored as the description; then the flow asks for the cost |
| `AdminController.HandleRewardCost` | src/controllers/adminController.js:217-233 | a cost that is not a number or is negative is refused and changes nothing; otherwise the cost is stored and the flow asks for the image |
| `AdminController.DraftReward` | src/controllers/adminController.js:325-331 | once a cost is set, the draft carries the session's name and description, the stock (or unlimited when none is set) and the image, and is active |
| `AdminController.SaveReward` | src/controllers/adminController.js:323-351 | saves exactly when the draft passes the reward schema, under a fresh id, and then clears the session; otherwise store and session are unchanged |
| `AdminController.HandleRewardImage` | src/controllers/adminController.js:258-321 | a photo saves the reward with that photo, and a post link that parses saves it with the forwarded photo; a text that is not a link, or no image at all, changes nothing |
| `AdminController.RewardChain` | src/controllers/adminController.js:195-233 | once `handleRewardImage` receives a photo (as written, `bot.js` never routes one there; see Findings), name, description, a valid cost and that photo in turn store a reward with exactly those fields, unlimited stock and that image, exactly when name and description are non-empty (`/skip` counts as empty) |
| `AdminController.SkipDescriptionNeverSaves` | src/controllers/adminController.js:207-209 | as written, a reward whose description was skipped is never saved, whether the image comes as a photo or through a post link, and the flow stays at the image step (see Findings) |
| `AdminController.SaveRewardOptionalDescription` | src/controllers/adminController.js:323-331 | with the description optional, the draft is saved exactly when name, cost and stock are valid |
| `AdminController.SkipDescriptionSaves` | src/controllers/adminController.js:207-209 | with the description optional, skipping it saves the reward with an empty description |
| `AdminController.ParseChannelLink` | src/controllers/adminController.js:236-256 | wherever the public pattern matches, its match is the result |
| `AdminController.PrivateBranchUnreachable` | src/controllers/adminController.js:238-249 | as written, the result is always the public pattern's match: the `-100` branch is never taken, and a private link reads as channel `c` whose post is the channel number (see Findings) |
| `AdminController.PrivatePostLinkMisread` | src/controllers/adminController.js:236-256 | the link `t.me/c/123/45` reads as channel `c`, post 123 |
| `AdminController.ParseChannelLinkPrivateFirst` | src/controllers/adminController.js:241-247 | with the private pattern tried first, a private link yields the `-100` channel id and the post number; any other link reads as before |
| `AdminController.PrivateFirstReadsPrivateLinks` | src/controllers/adminController.js:241-247 | with the private pattern tried first, `t.me/c/<channel>/<post>` yields `-100<channel>` and the post number |
| `Bot.NotifyAdmins` | src/bot.js:98-112 | the map keeps every earlier entry; a new key is the message id of a send to one of the admins and maps to the photo's sender. When every send goes through, each admin's copy is in the map |
| `Bot.OnPhoto` | src/bot.js:91-113 | a photo from an unregistered sender changes nothing, and the map never loses an entry; every new entry maps to the sender |
| `Bot.ImageStepPhotoBecomesCredit` | src/bot.js:91-113 | as written, an admin's photo at the reward's image step saves no reward and leaves the step waiting; the photo goes to every admin as a photo to credit (see Findings) |
| `Bot.PhotoEventWithImageStep` | src/bot.js:91-113 | the corrected photo handler treats every photo outside an admin's image step as before, and at that step queues nothing for credit |
| `Bot.PhotoCompletesRewardChain` | src/controllers/adminController.js:195-233 | with the photo routed to the image step, name, description, a valid cost and a photo store the reward with that photo exactly when name and description are non-empty |
| `Bot.PhotoReachesEveryAdmin` | src/bot.js:96-111 | when every send goes through, the copy sent to each admin is mapped to the photo's sender |
| `Bot.CreditPhoto` | src/bot.js:123-151 | a reply from someone who is not an admin, or that is not a number, changes nothing. The credit happens exactly when the photo's sender still exists and the new balance passes the schema. It raises that one balance by the amount, and the pending entry is dropped only if the notification went through |
| `Bot.PhotoCreditSkipsHistory` | src/bot.js:136-140 | the photo credit writes no history entry, so the credited balance exceeds its history sum by the amount, and a non-zero credit breaks the ledger |
| `Bot.PhotoReplyCreditsTwice` | src/bot.js:139-149 | as written, when the notification fails, a second reply to the same photo credits again: the balance rises by twice the amount (see Findings) |
| `Bot.CreditPhotoOnce` | src/bot.js:123-151 | with the entry dropped before notifying, a credit always removes exactly the replied-to entry, and a refusal keeps the map |
| `Bot.CreditPhotoOnceIsOneShot` | src/bot.js:139-149 | the corrected credit moves the same balance and gives the same reply as the code; once credited, another reply to that photo is no longer routed to the credit |
| `Bot.RouteText` | src/bot.js:119-305 | a reply to a pending photo goes to the credit; otherwise the name step goes to registration, then a waiting admin flow goes to admin input; a plain text with nothing pending gets the hint |
| `Bot.TypedPhoneIsIgnored` | src/bot.js:157-172 | at the phone step, a typed phone number is never handled: it gets the hint or nothing |
| `Bot.RouteTextWithPhone` | src/bot.js:157-172 | with a phone branch added, a typed text at the phone step goes to registration unless it replies to a pending photo; every other text is routed as before |
| `Bot.TypedPhoneRegisters` | src/bot.js:351-382 | with the phone branch, a typed number at the phone step registers the user with that phone and clears the session |
| `Bot.OnStart` | src/bot.js:51-71 | an unregistered sender is put at the name step; a registered sender's session is left as it was |
| `Bot.OnRegistrationName` | src/bot.js:159-171 | at the name step the text is kept as the name and the flow asks for the phone |
| `Bot.OnContact` | src/bot.js:351-382 | outside the phone step nothing happens. A user is created exactly when a name was given and the Telegram id is new: it has the session's name and the shared phone, is not an admin and has no points, and the session is cleared. Otherwise store and session are unchanged |
| `Bot.RegistrationFlow` | src/bot.js:51-71 | `/start`, a name and a shared contact register a new sender with that name and phone. The new user is found by Telegram id, both invariants hold, and a later `/start` leaves the session alone |
| `Bot.PositiveAmount` | src/bot.js:207-211 | an amount is accepted exactly when `parseInt` reads a positive number, and it is that number |
| `Bot.OnAdminText` | src/bot.js:175-291 | a sender who is not an admin is refused and nothing changes; only the image, points and channel-id steps can change the store |
| `Bot.AdminTextPreservesLedger` | src/bot.js:175-291 | whatever admin flow step a text hits, both invariants hold afterwards |
| `Bot.BadAmountKeepsWaiting` | src/bot.js:206-221 | at the points steps, an amount that is not a positive number is refused and the flow stays where it was |
| `Bot.PointInputClears` | src/bot.js:206-224 | a positive amount at the points steps is handed to the add or remove controller for the stored target, with the sender as acting admin, and the session is cleared |
| `Bot.ChannelChain` | src/bot.js:231-287 | title, link and id in turn add a required channel with those fields exactly when the channel service accepts it; the session is cleared either way, and a refusal changes nothing |
| `Bot.ChannelTextStep` | src/bot.js:231-241 | the title step keeps the title and asks for the link; the link step keeps the link and asks for the id; neither touches the store |
| `Bot.ChannelIdStep` | src/bot.js:268-287 | the id step hands the kept title and link to the channel service with the channel required. It clears the session whether the service accepts or refuses, and reports which |
| `Bot.RewardImageKeepsSchemas` | src/bot.js:201-203 | a text at the image step, whatever it holds, keeps both invariants |
| `Bot.ViewReward` | src/bot.js:490-520 | the handler fails exactly for an id that is not an `ObjectId` or a missing reward. A card is shown exactly when the reward and the sender exist. It carries a claim button exactly when the balance covers the price, and the button carries the reward id and the sender's Telegram id |
| `Bot.GoneRewardAnswersWithError` | src/bot.js:490-493 | as written, a well-formed id of a missing reward gets the generic error reply, because building the not-found reply throws (see Findings) |
| `Bot.ViewRewardWithBackButton` | src/bot.js:490-493 | with the back button imported: the generic error exactly for an id that is not an `ObjectId`, and the not-found reply exactly for a missing reward |
| `Bot.BackButtonChangesOnlyGoneReward` | src/bot.js:490-520 | the corrected handler differs from the handler as written exactly for a missing reward. There it answers not-found where the handler as written fails |
| `Bot.RequestFor` | src/bot.js:524-546 | a request goes to every admin exactly when the reward and the user exist and the balance covers the price, and its approval button names the reward and the user |
| `Bot.MenuButtonResolves` | src/bot.js:524-546 | as written, a claim menu button (`claim_reward_<id>`, from `getRewardsListKeyboard`) asks for its own reward: a registered user whose balance covers a stored reward sends the request to every admin |
| `Bot.ClaimButtonNeverResolves` | src/bot.js:504-526 | as written, the data of the reward card's claim button never resolves to a reward, so every press of that button fails (see Findings) |
| `Bot.ClaimRewardId` | src/bot.js:524-525 | the reward id is the part of the data before the first `_`, and stops exactly there |
| `Bot.ClaimRequest` | src/bot.js:524-546 | the corrected handler, which reads the reward id up to the first `_`: the card's button and a claim menu button each ask for their own reward, and data with no `_` after the prefix is read as the handler as written reads it |
| `Bot.ClaimRewardIdOfButtons` | src/bot.js:504 | from a claim button's data the corrected reading recovers exactly the reward id, and a bare id is read unchanged |
| `Bot.CardLeadsToRequest` | src/bot.js:490-546 | for an affordable reward, the card's button leads with the corrected reading to a request to every admin, while the handler as written fails |
| `Bot.GrantSeparator` | src/bot.js:627-629 | the greedy pattern splits at the last `_` that leaves both parts non-empty |
| `Bot.GrantDataParts` | src/bot.js:539 | the approval button's data splits back into the reward id and the user's Telegram id |
| `Bot.TelegramLookup` | src/bot.js:634 | a user found by the text has a Telegram id that reads exactly as that text |
| `Bot.TelegramLookupShowInt` | src/bot.js:634 | looking a user up by the Telegram id written out as text finds the same user as looking them up by number |
| `Bot.AdminGrant` | src/bot.js:627-645 | a sender who is not an admin is refused. A grant happens only for a stored user and an existing reward; it then appends one `claimed` user reward and reports the user and the reward title. Every other outcome changes nothing |
| `Bot.ApprovalGrants` | src/bot.js:627-645 | an admin pressing the approval button of a request grants exactly that reward to exactly that user, as the reward service's grant does; balances, rewards and history stay untouched |
| `AdminHandlers.AdminTextFlow` | src/admin/adminHandlers.js:37-72 | with no action it says so. A broadcast reports the delivered and failed counts over all users and ends the action. A point change is handled as typed. Reward selection has no branch here |
| `AdminHandlers.TypedPointChange` | src/admin/adminHandlers.js:53-71 | fewer than two words, or a word that `Number` reads as NaN, is refused and keeps the action. Otherwise `adminChangePoints` runs with the sender as actor and the action ends |
| `AdminHandlers.TypedChangeSplitsAtAnySpace` | src/admin/adminHandlers.js:54-66 | two numbers separated by any one JavaScript whitespace character, the no-break space included, reach `adminChangePoints` with those numbers, and the action ends |
| `AdminHandlers.TypedPointChangeNeverCommits` | src/admin/adminHandlers.js:65-66 | as written, no text ever changes the store, and a well-formed change is answered with a failure (see Findings) |
| `AdminHandlers.AdminHandleGrantReward` | src/admin/adminHandlers.js:89-108 | outside the reward-selection action it refuses, and with fewer than two words it keeps the action. Otherwise the grant runs with the trimmed reward id and the action ends |
| `AdminHandlers.TypedGrantGrants` | src/admin/adminHandlers.js:96-107 | typing a stored user's Telegram id and an existing reward's id grants that reward to that user and ends the action |

## Left out

- Database failures: the store is a total value, so the `try/catch` fallbacks that return `[]` or `null` when MongoDB itself fails are not reachable in the model. These are the fallbacks in `getActiveRewards`, `getAllUsers`, the statistics and channel queries, and `getOrCreateUser`.
- Logging (`logger`), bot start-up and the database connection are left out: they carry no decision.
- Keyboards and exact reply texts are left out: a reply is a datatype constructor carrying the values the message shows. The exceptions are the two refusal messages of `isAdmin`.
- `searchUser` is left out: it matches the query as a case-insensitive regular expression against names and usernames, and the model has no regular-expression engine.
- `updateUserPhone`, `getUserRewards` (a `populate` join), the channel helpers in `adminService.js` and `rewardController.js` are left out: no flow in the bot uses them.
- Several routes in `bot.js` are left out because they are shadowed, broken or never reached:
  - `/^confirm_grant_(.+)_(.+)$/` and its duplicate `/^confirm_grant_(.+)$/`;
  - `admin_grant_rwd_`, which `admin_grant_` matches first;
  - `grant_reward_confirm_`;
  - `admin_confirm_rwd_` and `admin_cancel_rwd_`;
  - the `admin_cancel_` button, which no handler matches;
  - `userClaimRewardHandler`.
- The `!targetUser.telegramId` check of the `send_message_to_user` step is not modelled: it is dead because `telegramId` is required.
- `handleSearchUser` is not modelled beyond clearing the session after the search step.
- The claim request's message to every admin is modelled only by its recipients and its approval button. The copy of a photo sent to each admin is modelled only by the message id it returns.
- Telegram message ids are unique only within one chat. The photo handler keys `pendingRewards` by message id across all admin chats, so two copies can share a key and the later one wins. The model keeps a single map and does not model which chat a reply came from.
- `confirmClaimReward` is modelled as written, but no route of `bot.js` calls it.
- No button the bot shows emits `confirm_claim_` data: only `getRewardConfirmKeyboard` builds it, and only the unrouted `confirmClaimReward` uses that keyboard. `executeClaimReward`, and with it the debit of `claimReward`, is modelled as written, although the reward path the bot actually offers is a request followed by an admin's grant (`Bot.ApprovalGrants`).
- No keyboard or message of the bot emits `view_reward_` data. The reward card (`Bot.ViewReward`), its `claim_reward_<id>_<telegram id>` button and its not-found reply are modelled as written, although only a callback the bot never builds reaches them.
- `ensureUser`, `getOrCreateUser`, `isAdmin` and the `adminHandlers.js` flows are modelled as written, although `bot.js` does not register them.
- `AdminService.GetStatistics`: `activeUsers7d` is not computed, because it depends on the clock and on `updatedAt` timestamps the model does not keep.
- `AdminController.PointsForPurchase`: `purchaseAmount * 0.05 / 1000` is read as exact division by 20 000 rounded down. Floating-point rounding near multiples of 20 000 is not modelled.
- `Strings.ParseNumber`: JavaScript `Number` is modelled for integer literals only (optional sign and digits, with empty text read as 0). Fractions, exponents, hexadecimal and `Infinity` read as NaN.
- `Strings.ParseInt`: `parseInt` is modelled in base 10 only.
- `Helpers.ChunkMessage`: lengths are counted in characters, not in the UTF-16 code units JavaScript counts.
- `Models.CastId`: the cast to `ObjectId` follows the rule of bson 6 and later, where only 24 hexadecimal digits cast. Under bson 5 and earlier any 12-character string also casts (its characters are read as the 12 bytes). The source does not pin a version.
- `Models.IdText`: an `ObjectId` is a 24-digit hex text whose value is the document's position. Timestamps and machine parts of real ids are not modelled.
- `AdminService.Broadcast`: the concurrent sends of `Promise.all` are modelled one after another. The counts do not depend on the order.
- `AdminController.ExecuteBroadcast`: the 50 ms pause between sends is not modelled.
- `UserController.ClaimFailureOf`: the substring tests on the error message are modelled as a match on the error kind each message belongs to.
- Sort ties: MongoDB leaves the order of equal sort keys unspecified. The model breaks ties by store order (a stable sort).
- User `telegramId` is a string field in `User.js`. The model keeps it as a number and makes the text lookup of `admin_grant_` explicit (`Bot.TelegramLookup`).
- Mongoose `timestamps` (`createdAt` and `updatedAt` on every document) are not modelled, except `Channel.createdAt`, which orders the channel list.

## Findings

| source | as written | input that shows it | evidently intended | confidence | as-written member | corrected member |
|---|---|---|---|---|---|---|
| src/services/adminService.js:58-65 | `adminId` goes into `PointsHistory.adminId`, an `ObjectId` field, but the only caller (src/admin/adminHandlers.js:65-66) passes the sender's Telegram number | an admin types `<telegramId> 10` for a stored user: saving the history entry fails its cast, the transaction aborts, and the reply is a failure | record the acting admin's user `_id`, as the controllers do with `ctx.user._id` | high; not executed | `AdminService.AdminChangePointsNeverCommits`, `AdminHandlers.TypedPointChangeNeverCommits` | `AdminService.AdminChangePointsAsUser`, proved equal to `updateUserPoints` in `AdminService.AdminChangeAgreesWithUpdate` |
| src/bot.js:504-526 | the card's button data is `claim_reward_<rewardId>_<telegramId>`, and the handler's `(.+)` takes the whole suffix as the reward id | pressing "🎁 Mukofotni olish" on the card of an affordable reward: `Reward.findById('<id>_<telegramId>')` fails its cast, and no request reaches the admins from that card. The card is shown only for `view_reward_` data, which no keyboard of the bot emits; the claim menu's own `claim_reward_<id>` buttons resolve (`Bot.MenuButtonResolves`) | read the reward id up to the `_` separator | medium; not executed | `Bot.ClaimButtonNeverResolves` | `Bot.ClaimRequest`, with `Bot.ClaimRewardIdOfButtons` and `Bot.CardLeadsToRequest` |
| src/controllers/adminController.js:207-209 | `/skip` stores an empty description, which the required `description` of `Reward.js` rejects | name "Kofe", `/skip`, cost 10, then a link to a channel post with a photo (a photo sent directly never reaches this step; see the last row): the save fails, and the flow stays at the image step | the description is optional, as the prompt "(yoki /skip bosing)" offers | high; not executed | `AdminController.SkipDescriptionNeverSaves` | `AdminController.SaveRewardOptionalDescription`, with `AdminController.SkipDescriptionSaves` |
| src/controllers/adminController.js:238-249 | the public pattern `t\.me\/([a-zA-Z0-9_]+)\/(\d+)` also matches every private link, so the `-100` branch is dead | `t.me/c/123/45` reads as channel `c`, post 123 | try the private pattern first, giving channel `-100123`, post 45 | high; not executed | `AdminController.PrivateBranchUnreachable`, `AdminController.PrivatePostLinkMisread` | `AdminController.ParseChannelLinkPrivateFirst`, with `AdminController.PrivateFirstReadsPrivateLinks` |
| src/bot.js:139-149 | the balance is saved before the user is notified, and the pending entry is deleted only after the notification | the photo's sender has blocked the bot and an admin replies `10` twice: the sender gains 20 | credit each photo once | medium; not executed | `Bot.PhotoReplyCreditsTwice` | `Bot.CreditPhotoOnce`, with `Bot.CreditPhotoOnceIsOneShot` |
| src/bot.js:157-172 | the phone prompt says the number may be typed, but the text handler has no branch for the phone step | at the phone step, typing `+998901234567` gets the general hint and registers nobody | a typed number registers like a shared contact | medium; not executed | `Bot.TypedPhoneIsIgnored` | `Bot.RouteTextWithPhone`, with `Bot.TypedPhoneRegisters` |
| src/bot.js:493 | the not-found reply for a missing reward builds its keyboard with `getBackButton`, which src/bot.js never imports (line 6 imports only `getBackToAdminButton`) | `view_reward_<id>` data for a reward that an admin has since deleted: the reference to `getBackButton` throws, and `asyncHandler` answers with the generic error. No keyboard of the bot emits `view_reward_` data, so the route is reached only by such a callback | reply '❌ Mukofot topilmadi.' with a back button, by importing `getBackButton` from the user keyboards as the user controller does | medium; not executed | `Bot.ViewReward`, with `Bot.GoneRewardAnswersWithError` | `Bot.ViewRewardWithBackButton`, with `Bot.BackButtonChangesOnlyGoneReward` |
| src/bot.js:91-113 | `bot.on('photo')` takes every photo and never looks at `waitingFor`; `handleRewardImage` is reached only from the text handler (src/bot.js:201-202) | an admin at the image step sends a photo, as the prompt at src/controllers/adminController.js:228-230 offers: no reward is saved, and the photo goes out to every admin as a photo to credit | route a photo at the image step to `handleRewardImage` | high; not executed | `Bot.ImageStepPhotoBecomesCredit` | `Bot.PhotoEventWithImageStep`, with `Bot.PhotoCompletesRewardChain` |

=== FILE: AdminController.dfy ===
/**
 * The admin controller (src/controllers/adminController.js): crediting a
 * purchase, debiting points, the segmented broadcast, the reward-creation
 * chain and the channel-post link parser.
 */
module AdminController {
  import opened Wrappers
  import opened Strings
  import opened Sequences
  import opened Models
  import opened Collections
  import opened UserService
  import opened Sessions

  // ------------------------------------------------------------------ points

  /**
   * `Math.floor(purchaseAmount * 0.05 / 1000)` read as exact arithmetic: one
   * point per 20 000 so'm of purchase, rounded down.
   */
  function PointsForPurchase(purchaseAmount: int): (p: int)
    ensures p * 20000 <= purchaseAmount < (p + 1) * 20000
    ensures p > 0 <==> purchaseAmount >= 20000
  {
    purchaseAmount / 20000
  }

  /** A purchase earns points exactly from 20 000 so'm on; 1 000 000 so'm earns 50. */
  lemma PurchaseThreshold(purchaseAmount: int)
    ensures PointsForPurchase(purchaseAmount) > 0 <==> purchaseAmount >= 20000
    ensures PointsForPurchase(1000000) == 50
  {
  }

  /** The controller's replies after a point change. */
  datatype PointsReply =
    | TargetNotFound                                   // 'Foydalanuvchi topilmadi.'
    | TooSmall                                         // 'Kiritilgan summa juda kichik...'
    | NotEnoughPoints(balance: int)                    // 'Foydalanuvchida yetarli ball yo'q!'
    | Added(name: string, added: int, newBalance: int)
    | Removed(name: string, removed: int, newBalance: int)
    | ChangeFailed                                     // the catch: '... xatolik yuz berdi.'

  /** The history reason of an admin's debit. */
  function RemoveReason(): (r: string)
    ensures r != []
  {
    "Admin tomonidan ayirildi"
  }

  /** The history reason of a credited purchase. */
  function PurchaseReason(purchaseAmount: int): (r: string)
    ensures r != []
  {
    "Admin tomonidan " + ShowInt(purchaseAmount) + " so‘mlik xarid uchun qo‘shildi"
  }

  /** The user `User.findById(target)` finds: `None` for no id, a missing user, or text that is not an ObjectId. */
  function FindTarget(s: Store, target: Option<string>): (r: Option<UserId>)
    ensures r.Some? ==> target.Some? && CastId(target.value) == Some(r.value) && s.HasUser(r.value)
  {
    if target.None? then None
    else match CastId(target.value)
      case None => None
      case Some(id) => if s.HasUser(id) then Some(id) else None
  }

  /**
   * `executeAddPoints(ctx, userId, purchaseAmount)`: credits the points a
   * purchase earns through `updateUserPoints`, recording the acting admin.
   * Text that is not an ObjectId makes the lookup throw, which the catch
   * answers with the generic failure.
   */
  function ExecuteAddPoints(s: Store, target: Option<string>, purchaseAmount: int, admin: UserId,
                            now: Time): (r: (Store, PointsReply))
    ensures target.None? ==> r == (s, TargetNotFound)
    ensures target.Some? && CastId(target.value).None? ==> r == (s, ChangeFailed)
    ensures !r.1.Added? ==> r.0 == s
    ensures r.1.Added? ==> FindTarget(s, target).Some? && purchaseAmount >= 20000
    ensures FindTarget(s, target).Some? && purchaseAmount >= 20000 && s.users[FindTarget(s, target).value].points >= 0 ==>
      r.1.Added?
    ensures FindTarget(s, target).Some? && purchaseAmount < 20000 ==> r == (s, TooSmall)
    ensures r.1.Added? ==>
      var id := FindTarget(s, target).value;
      var u := UpdateUserPoints(s, id, PointsForPurchase(purchaseAmount), PurchaseReason(purchaseAmount), now, Some(admin));
      && u.Ok?
      && r.0 == u.value.0
      && r.1 == Added(s.users[id].name, PointsForPurchase(purchaseAmount), u.value.1.points)
  {
    if target.None? then (s, TargetNotFound)
    else match CastId(target.value)
      case None => (s, ChangeFailed)
      case Some(id) =>
        if !s.HasUser(id) then (s, TargetNotFound)
        else
          var pointsToAdd := PointsForPurchase(purchaseAmount);
          if pointsToAdd <= 0 then (s, TooSmall)
          else match UpdateUserPoints(s, id, pointsToAdd, PurchaseReason(purchaseAmount), now, Some(admin))
            case Ok((t, _)) => (t, Added(s.users[id].name, pointsToAdd, s.users[id].points + pointsToAdd))
            case Err(_) => (s, ChangeFailed)
  }

  /**
   * `executeRemovePoints(ctx, userId, amount)`: refuses when the balance is
   * below `amount`, otherwise debits exactly `amount`.
   */
  function ExecuteRemovePoints(s: Store, target: Option<string>, amount: int, admin: UserId,
                               now: Time): (r: (Store, PointsReply))
    ensures target.None? ==> r == (s, TargetNotFound)
    ensures !r.1.Removed? ==> r.0 == s
    ensures FindTarget(s, target).Some? && s.users[FindTarget(s, target).value].points < amount ==>
      r == (s, NotEnoughPoints(s.users[FindTarget(s, target).value].points))
    ensures r.1.Removed? <==> FindTarget(s, target).Some? && s.users[FindTarget(s, target).value].points >= amount
    ensures r.1.Removed? ==>
      var id := FindTarget(s, target).value;
      && r.0 == UpdateUserPoints(s, id, -amount, RemoveReason(), now, Some(admin)).value.0
      && r.0.users[id].points == s.users[id].points - amount
      && r.1 == Removed(s.users[id].name, amount, s.users[id].points - amount)
  {
    if target.None? then (s, TargetNotFound)
    else match CastId(target.value)
      case None => (s, ChangeFailed)
      case Some(id) =>
        if !s.HasUser(id) then (s, TargetNotFound)
        else if s.users[id].points < amount then (s, NotEnoughPoints(s.users[id].points))
        else match UpdateUserPoints(s, id, -amount, RemoveReason(), now, Some(admin))
          case Ok((t, _)) => (t, Removed(s.users[id].name, amount, s.users[id].points - amount))
          case Err(_) => (s, ChangeFailed)
  }

  /**
   * The controller's balance check is the service's own: for a found user the
   * debit goes through exactly when `updateUserPoints` would accept it, so the
   * controller never asks for a debit the service refuses.
   */
  lemma RemoveGuardIsServiceGuard(s: Store, target: Option<string>, amount: int, admin: UserId, now: Time)
    requires FindTarget(s, target).Some?
    ensures var id := FindTarget(s, target).value;
      ExecuteRemovePoints(s, target, amount, admin, now).1.Removed? <==>
        UpdateUserPoints(s, id, -amount, RemoveReason(), now, Some(admin)).Ok?
  {
  }

  /** Both point changes keep the ledger invariant and the schemas. */
  lemma PointChangesPreserveLedger(s: Store, target: Option<string>, amount: int, admin: UserId, now: Time)
    requires Ledgered(s) && SchemaValid(s)
    ensures Ledgered(ExecuteAddPoints(s, target, amount, admin, now).0)
    ensures SchemaValid(ExecuteAddPoints(s, target, amount, admin, now).0)
    ensures Ledgered(ExecuteRemovePoints(s, target, amount, admin, now).0)
    ensures SchemaValid(ExecuteRemovePoints(s, target, amount, admin, now).0)
  {
    AddPointsPreservesLedger(s, target, amount, admin, now);
    RemovePointsPreservesLedger(s, target, amount, admin, now);
  }

  lemma AddPointsPreservesLedger(s: Store, target: Option<string>, amount: int, admin: UserId, now: Time)
    requires Ledgered(s) && SchemaValid(s)
    ensures Ledgered(ExecuteAddPoints(s, target, amount, admin, now).0)
    ensures SchemaValid(ExecuteAddPoints(s, target, amount, admin, now).0)
  {
    var r := ExecuteAddPoints(s, target, amount, admin, now);
    if r.1.Added? {
      var id := FindTarget(s, target).value;
      UpdatePreservesLedger(s, id, PointsForPurchase(amount), PurchaseReason(amount), now, Some(admin));
      assert r.0 == UpdateUserPoints(s, id, PointsForPurchase(amount), PurchaseReason(amount), now, Some(admin)).value.0;
    } else {
      assert r.0 == s;
    }
  }

  lemma RemovePointsPreservesLedger(s: Store, target: Option<string>, amount: int, admin: UserId, now: Time)
    requires Ledgered(s) && SchemaValid(s)
    ensures Ledgered(ExecuteRemovePoints(s, target, amount, admin, now).0)
    ensures SchemaValid(ExecuteRemovePoints(s, target, amount, admin, now).0)
  {
    var r := ExecuteRemovePoints(s, target, amount, admin, now);
    if r.1.Removed? {
      var id := FindTarget(s, target).value;
      UpdatePreservesLedger(s, id, -amount, RemoveReason(), now, Some(admin));
      assert r.0 == UpdateUserPoints(s, id, -amount, RemoveReason(), now, Some(admin)).value.0;
    } else {
      assert r.0 == s;
    }
  }

  // ------------------------------------------------------------------ broadcast

  /** The `getAllUsers` filter a segment selects: admins, non-admins, or (anything else) everyone. */
  function SegmentFilter(segment: Option<string>): (f: Option<bool>)
    ensures f == Some(true) <==> segment == Some("admins")
    ensures f == Some(false) <==> segment == Some("users")
    ensures f == None <==> segment != Some("admins") && segment != Some("users")
  {
    if segment == Some("admins") then Some(true)
    else if segment == Some("users") then Some(false)
    else None
  }

  /** Whether the send to a user's chat succeeded. */
  function Reached(delivered: int -> bool): User -> bool {
    (u: User) => delivered(u.telegramId)
  }

  /**
   * `executeBroadcast(ctx, segment, message)`: one send per selected user, in
   * order; `delivered(chat)` says whether the send to that chat succeeded. A
   * failed send is counted and the loop goes on.
   */
  method ExecuteBroadcast(s: Store, segment: Option<string>, delivered: int -> bool)
    returns (recipients: seq<User>, successCount: nat, failCount: nat)
    ensures recipients == GetAllUsers(s, SegmentFilter(segment))
    ensures successCount + failCount == |recipients|
    ensures successCount == Count(recipients, Reached(delivered))
  {
    recipients := GetAllUsers(s, SegmentFilter(segment));
    successCount, failCount := SendToEach(recipients, delivered);
  }

  /** The send loop: one attempt per user, counting successes and failures. */
  method SendToEach(users: seq<User>, delivered: int -> bool) returns (successCount: nat, failCount: nat)
    ensures successCount + failCount == |users|
    ensures successCount == Count(users, Reached(delivered))
  {
    successCount, failCount := 0, 0;
    for i := 0 to |users|
      invariant successCount + failCount == i
      invariant successCount == Count(users[..i], Reached(delivered))
    {
      CountAppend(users[..i], users[i], Reached(delivered));
      assert users[..i + 1] == users[..i] + [users[i]];
      if delivered(users[i].telegramId) {
        successCount := successCount + 1;
      } else {
        failCount := failCount + 1;
      }
    }
    assert users[..|users|] == users;
  }

  /** Who a segment reaches: `admins` the admins, `users` the others, anything else everyone. */
  lemma SegmentRecipients(s: Store, segment: Option<string>, u: User)
    ensures segment == Some("admins") ==> (u in GetAllUsers(s, SegmentFilter(segment)) <==> u in s.users && u.isAdmin)
    ensures segment == Some("users") ==> (u in GetAllUsers(s, SegmentFilter(segment)) <==> u in s.users && !u.isAdmin)
    ensures segment != Some("admins") && segment != Some("users") ==> GetAllUsers(s, SegmentFilter(segment)) == s.users
  {
    var r := GetAllUsers(s, SegmentFilter(segment));
    assert u in r <==> u in multiset(r);
    assert u in s.users <==> u in multiset(s.users);
  }

  // ------------------------------------------------------------------ starting a step

  /** `startAddPoints(ctx, userId)`: the next text is a purchase amount for `userId`. */
  function StartAddPoints(sess: Session, userId: Option<string>): (r: Session)
    ensures r.waitingFor == Some(AddPoints) && r.targetUserId == userId
  {
    sess.(waitingFor := Some(AddPoints), targetUserId := userId)
  }

  /** `startRemovePoints(ctx, userId)`: the next text is an amount to take from `userId`. */
  function StartRemovePoints(sess: Session, userId: Option<string>): (r: Session)
    ensures r.waitingFor == Some(RemovePoints) && r.targetUserId == userId
  {
    sess.(waitingFor := Some(RemovePoints), targetUserId := userId)
  }

  /** `selectBroadcastSegment(ctx, segment)`: the next text is the message for `segment`. */
  function SelectBroadcastSegment(sess: Session, segment: string): (r: Session)
    ensures r.waitingFor == Some(BroadcastMessage) && r.broadcastSegment == Some(segment)
  {
    sess.(waitingFor := Some(BroadcastMessage), broadcastSegment := Some(segment))
  }

  /** `startAddChannel(ctx)`: the next text is the channel's title. */
  function StartAddChannel(sess: Session): (r: Session)
    ensures r.waitingFor == Some(AddChannelTitle)
  {
    sess.(waitingFor := Some(AddChannelTitle))
  }

  // ------------------------------------------------------------------ the reward chain

  /** `startAddReward`: the next text is the reward's name. */
  function StartAddReward(sess: Session): (r: Session)
    ensures r.waitingFor == Some(RewardName)
  {
    sess.(waitingFor := Some(RewardName))
  }

  /** `handleRewardName`: keep the name, ask for the description. */
  function HandleRewardName(sess: Session, text: string): (r: Session)
    ensures r.rewardName == Some(text) && r.waitingFor == Some(RewardDesc)
    ensures r.rewardStock == sess.rewardStock
  {
    sess.(rewardName := Some(text), waitingFor := Some(RewardDesc))
  }

  /** `handleRewardDesc`: `/skip` stands for an empty description. */
  function HandleRewardDesc(sess: Session, text: string): (r: Session)
    ensures r.rewardDesc == Some(if text == "/skip" then "" else text) && r.waitingFor == Some(RewardCost)
    ensures r.rewardStock == sess.rewardStock
  {
    sess.(rewardDesc := Some(if text == "/skip" then "" else text), waitingFor := Some(RewardCost))
  }

  /**
   * `handleRewardCost`: `Number(text)`; `NaN` or a negative number is refused
   * and the chain stays at the cost step (`accepted` false).
   */
  function HandleRewardCost(sess: Session, text: string): (r: (Session, bool))
    ensures !r.1 <==> ParseNumber(text).None? || ParseNumber(text).value < 0
    ensures !r.1 ==> r.0 == sess
    ensures r.1 ==> r.0 == sess.(rewardCost := ParseNumber(text), waitingFor := Some(RewardImage))
  {
    var cost := ParseNumber(text);
    if cost.None? || cost.value < 0 then (sess, false)
    else (sess.(rewardCost := cost, waitingFor := Some(RewardImage)), true)
  }

  /** The document `saveReward` hands to `Reward.create`; an unset name or cost is a missing required field. */
  function DraftReward(sess: Session, fileId: string): (r: Option<Reward>)
    ensures r.Some? <==> sess.rewardCost.Some?
    ensures r.Some? ==>
      && r.value.title == sess.rewardName.GetOr("")
      && r.value.description == sess.rewardDesc.GetOr("")
      && r.value.stock == sess.rewardStock.GetOr(Unlimited)
      && r.value.imageFileId == Some(fileId) && r.value.isActive
  {
    if sess.rewardCost.None? then None
    else Some(Reward(sess.rewardName.GetOr(""), sess.rewardDesc.GetOr(""), sess.rewardCost.value,
                     sess.rewardStock.GetOr(Unlimited), Some(fileId), true))
  }

  /**
   * `saveReward(ctx, fileId)`: `Reward.create` of the draft; on success the
   * session is cleared, on a rejected document it is kept as it was.
   */
  function SaveReward(s: Store, sess: Session, fileId: string): (r: (Store, Session, Option<RewardId>))
    ensures r.2.None? ==> r.0 == s && r.1 == sess
    ensures r.2.Some? <==> DraftReward(sess, fileId).Some? && ValidReward(DraftReward(sess, fileId).value)
    ensures r.2.Some? ==>
      && r.1 == Cleared
      && r.2.value == |s.rewards|
      && r.0.FindReward(r.2.value) == DraftReward(sess, fileId)
      && r.0 == s.(rewards := s.rewards + [DraftReward(sess, fileId)])
  {
    match DraftReward(sess, fileId)
    case None => (s, sess, None)
    case Some(reward) =>
      if ValidReward(reward) then (s.(rewards := s.rewards + [Some(reward)]), Cleared, Some(|s.rewards|))
      else (s, sess, None)
  }

  /** What the admin sends at the image step. */
  datatype ImageInput = Photo(fileId: string) | LinkText(text: string) | NoImage

  /**
   * `handleRewardImage(ctx)`. A photo is saved directly. A text must parse as a
   * channel-post link; the post is then forwarded, and `forwarded` is the file
   * id of its largest photo (`None` when the post has no photo or the forward
   * fails). Anything else is refused; a refusal leaves store and session alone.
   */
  function HandleRewardImage(s: Store, sess: Session, input: ImageInput,
                             forwarded: Option<string>): (r: (Store, Session, Option<RewardId>))
    ensures input.NoImage? ==> r == (s, sess, None)
    ensures input.LinkText? && ParseChannelLink(input.text).None? ==> r == (s, sess, None)
    ensures input.Photo? ==> r == SaveReward(s, sess, input.fileId)
    ensures input.LinkText? && ParseChannelLink(input.text).Some? && forwarded.Some? ==>
      r == SaveReward(s, sess, forwarded.value)
  {
    match input
    case Photo(f) => SaveReward(s, sess, f)
    case LinkText(t) =>
      if ParseChannelLink(t).None? || forwarded.None? then (s, sess, None)
      else SaveReward(s, sess, forwarded.value)
    case NoImage => (s, sess, None)
  }

  /**
   * The whole chain from the name to a photo: the reward is created exactly
   * when the name and the description are non-empty, and then it is active,
   * unlimited, priced at the accepted cost, and the session is cleared. No
   * step sets the stock, so the draft's stock is the one the session started with.
   */
  lemma RewardChain(s: Store, sess: Session, name: string, desc: string, costText: string, fileId: string)
    requires sess.rewardStock.None?
    requires HandleRewardCost(HandleRewardDesc(HandleRewardName(StartAddReward(sess), name), desc), costText).1
    ensures var c := HandleRewardCost(HandleRewardDesc(HandleRewardName(StartAddReward(sess), name), desc), costText).0;
      var d := if desc == "/skip" then "" else desc;
      var r := HandleRewardImage(s, c, Photo(fileId), None);
      && c.rewardStock.None?
      && (r.2.Some? <==> name != [] && d != [])
      && (r.2.Some? ==>
            && r.0.FindReward(r.2.value) == Some(Reward(name, d, ParseNumber(costText).value, Unlimited, Some(fileId), true))
            && r.1 == Cleared)
  {
  }

  /**
   * As written, skipping the description makes the chain fail at the last
   * step, every time: the schema requires a non-empty description.
   */
  lemma SkipDescriptionNeverSaves(s: Store, sess: Session, name: string, costText: string, fileId: string)
    requires sess.rewardStock.None?
    requires HandleRewardCost(HandleRewardDesc(HandleRewardName(StartAddReward(sess), name), "/skip"), costText).1
    ensures var c := HandleRewardCost(HandleRewardDesc(HandleRewardName(StartAddReward(sess), name), "/skip"), costText).0;
      var r := HandleRewardImage(s, c, Photo(fileId), None);
      r.2.None? && r.0 == s && r.1.waitingFor == Some(RewardImage)
    ensures var c := HandleRewardCost(HandleRewardDesc(HandleRewardName(StartAddReward(sess), name), "/skip"), costText).0;
      forall link :: HandleRewardImage(s, c, LinkText(link), Some(fileId)) == (s, c, None)
  {
    RewardChain(s, sess, name, "/skip", costText, fileId);
  }

  /**
   * The rule the skip prompt and the confirmation (`description || 'Mavjud
   * emas'`) take for granted: a reward may have no description.
   */
  predicate ValidRewardOptionalDescription(r: Reward) {
    r.title != [] && r.costPoints >= 0 && r.stock >= Unlimited
  }

  /** `saveReward` under that rule. */
  function SaveRewardOptionalDescription(s: Store, sess: Session, fileId: string): (r: (Store, Session, Option<RewardId>))
    ensures r.2.None? ==> r.0 == s && r.1 == sess
    ensures r.2.Some? <==>
      DraftReward(sess, fileId).Some? && ValidRewardOptionalDescription(DraftReward(sess, fileId).value)
    ensures r.2.Some? ==> r.1 == Cleared && r.0.FindReward(r.2.value) == DraftReward(sess, fileId)
  {
    match DraftReward(sess, fileId)
    case None => (s, sess, None)
    case Some(reward) =>
      if ValidRewardOptionalDescription(reward) then (s.(rewards := s.rewards + [Some(reward)]), Cleared, Some(|s.rewards|))
      else (s, sess, None)
  }

  /** Under that rule a skipped description gives a reward with an empty description. */
  lemma SkipDescriptionSaves(s: Store, sess: Session, name: string, costText: string, fileId: string)
    requires sess.rewardStock.None? && name != []
    requires HandleRewardCost(HandleRewardDesc(HandleRewardName(StartAddReward(sess), name), "/skip"), costText).1
    ensures var c := HandleRewardCost(HandleRewardDesc(HandleRewardName(StartAddReward(sess), name), "/skip"), costText).0;
      var r := SaveRewardOptionalDescription(s, c, fileId);
      && r.2.Some? && r.1 == Cleared
      && r.0.FindReward(r.2.value) == Some(Reward(name, "", ParseNumber(costText).value, Unlimited, Some(fileId), true))
  {
  }

  // ------------------------------------------------------------------ parseChannelLink

  /** `{ username, messageId }`. */
  datatype LinkData = LinkData(username: string, messageId: nat)

  predicate IsWordChar(c: char) {
    'a' <= c <= 'z' || 'A' <= c <= 'Z' || IsDigit(c) || c == '_'
  }

  /**
   * `/t\.me\/([a-zA-Z0-9_]+)\/(\d+)/` matched at position `i` of `t`: "t.me/",
   * the longest run of word characters (non-empty), '/', the longest run of
   * digits (non-empty).
   */
  function PublicAt(t: string, i: nat): (r: Option<LinkData>)
    requires i <= |t|
  {
    var rest := t[i..];
    if |rest| < 5 || rest[..5] != "t.me/" then None
    else
      var w := RunLength(rest[5..], IsWordChar);
      if w == 0 || 5 + w >= |rest| || rest[5 + w] != '/' then None
      else
        var digits := rest[6 + w..];
        var d := RunLength(digits, IsDigit);
        if d == 0 then None
        else Some(LinkData(rest[5..5 + w], DigitsValue(digits[..d])))
  }

  /**
   * `/t\.me\/c\/(\d+)\/(\d+)/` matched at position `i`; the username is the
   * first digit run as written.
   */
  function PrivateAt(t: string, i: nat): (r: Option<LinkData>)
    requires i <= |t|
  {
    var rest := t[i..];
    if |rest| < 7 || rest[..7] != "t.me/c/" then None
    else
      var d1 := RunLength(rest[7..], IsDigit);
      if d1 == 0 || 7 + d1 >= |rest| || rest[7 + d1] != '/' then None
      else
        var digits := rest[8 + d1..];
        var d2 := RunLength(digits, IsDigit);
        if d2 == 0 then None
        else Some(LinkData(rest[7..7 + d1], DigitsValue(digits[..d2])))
  }

  /** `link.match(publicPattern)`: the leftmost match, scanning from `i`. */
  function ScanPublic(t: string, i: nat): (r: Option<LinkData>)
    requires i <= |t|
    decreases |t| - i
  {
    if PublicAt(t, i).Some? then PublicAt(t, i)
    else if i == |t| then None
    else ScanPublic(t, i + 1)
  }

  /** `link.match(privatePattern)`: the leftmost match, scanning from `i`. */
  function ScanPrivate(t: string, i: nat): (r: Option<LinkData>)
    requires i <= |t|
    decreases |t| - i
  {
    if PrivateAt(t, i).Some? then PrivateAt(t, i)
    else if i == |t| then None
    else ScanPrivate(t, i + 1)
  }

  /**
   * `parseChannelLink(link)` as written: the public pattern first; only when
   * it fails, the private one, whose id gets the `-100` prefix.
   */
  function ParseChannelLink(t: string): (r: Option<LinkData>)
    ensures ScanPublic(t, 0).Some? ==> r == ScanPublic(t, 0)
  {
    match ScanPublic(t, 0)
    case Some(m) => Some(m)
    case None =>
      match ScanPrivate(t, 0)
      case Some(m) => Some(LinkData("-100" + m.username, m.messageId))
      case None => None
  }

  /**
   * Wherever the private pattern matches, the public one matches too, with
   * username `c` and, as message id, the channel number.
   */
  lemma PrivateAtIsPublicAt(t: string, i: nat)
    requires i <= |t| && PrivateAt(t, i).Some?
    ensures AllDigits(PrivateAt(t, i).value.username)
    ensures PublicAt(t, i) == Some(LinkData("c", DigitsValue(PrivateAt(t, i).value.username)))
  {
    var rest := t[i..];
    assert rest[..5] == "t.me/" by {
      assert rest[..5] == rest[..7][..5];
    }
    assert rest[5] == 'c' && rest[6] == '/' by {
      assert rest[5] == rest[..7][5] && rest[6] == rest[..7][6];
    }
    assert rest[5..][1..] == rest[6..];
    assert RunLength(rest[5..], IsWordChar) == 1;
    assert rest[5..6] == "c";
    assert rest[6 + 1..] == rest[7..];
    var d1 := RunLength(rest[7..], IsDigit);
    assert rest[7..][..d1] == rest[7..7 + d1];
    assert PrivateAt(t, i).value.username == rest[7..7 + d1];
  }

  lemma {:induction false} ScanPrivateImpliesPublic(t: string, i: nat)
    requires i <= |t| && ScanPrivate(t, i).Some?
    ensures ScanPublic(t, i).Some?
    decreases |t| - i
  {
    if PrivateAt(t, i).Some? {
      PrivateAtIsPublicAt(t, i);
    } else if PublicAt(t, i).None? {
      ScanPrivateImpliesPublic(t, i + 1);
    }
  }

  /**
   * The private branch is dead code: every private-channel link is taken by
   * the public pattern, so `parseChannelLink` never yields a `-100` id. A link
   * `t.me/c/<id>/<post>` reads as the public channel `c` whose message id is
   * the channel number `<id>`.
   */
  lemma PrivateBranchUnreachable(t: string)
    ensures ParseChannelLink(t) == ScanPublic(t, 0)
    ensures ScanPrivate(t, 0).Some? ==> ParseChannelLink(t).Some? && ParseChannelLink(t).value.username != "-100" + ScanPrivate(t, 0).value.username
    ensures PrivateAt(t, 0).Some? ==>
      AllDigits(PrivateAt(t, 0).value.username) &&
      ParseChannelLink(t) == Some(LinkData("c", DigitsValue(PrivateAt(t, 0).value.username)))
  {
    if ScanPrivate(t, 0).Some? {
      ScanPrivateImpliesPublic(t, 0);
      PublicUsernameHasNoDash(t, 0);
    }
    if PrivateAt(t, 0).Some? {
      PrivateAtIsPublicAt(t, 0);
    }
  }

  /** The link of a private channel's post 45, as the parser reads it. */
  lemma PrivatePostLinkMisread()
    ensures ParseChannelLink("t.me/c/123/45") == Some(LinkData("c", 123))
  {
    var t := "t.me/c/123/45";
    PrivatePostLinkMatches();
    PrivateBranchUnreachable(t);
    assert DigitsValue("123") == 123 by {
      assert "123"[..2] == "12" && "12"[..1] == "1" && "1"[..0] == "";
    }
  }

  /** The private pattern on a link `t.me/c/<channel>/<post>` of two digit runs. */
  lemma PrivateAtLink(a: string, b: string)
    requires a != [] && b != [] && AllDigits(a) && AllDigits(b)
    ensures PrivateAt("t.me/c/" + a + "/" + b, 0) == Some(LinkData(a, DigitsValue(b)))
  {
    var t := "t.me/c/" + a + "/" + b;
    var tail := a + ['/'] + b;
    assert t[0..] == t;
    PrefixParts("t.me/c/", a, '/', b);
    AroundParts(a, '/', b);
    RunLengthExact(tail, IsDigit, |a|);
    RunLengthAll(b);
    assert t[7..7 + |a|] == tail[..|a|];
    assert t[7 + |a|] == tail[|a|];
    assert t[8 + |a|..] == tail[|a| + 1..];
    assert b[..|b|] == b;
  }

  lemma PrivatePostLinkMatches()
    ensures PrivateAt("t.me/c/123/45", 0).Some?
    ensures PrivateAt("t.me/c/123/45", 0).value.username == "123"
  {
    assert "t.me/c/" + "123" + "/" + "45" == "t.me/c/123/45";
    PrivateAtLink("123", "45");
  }

  lemma {:induction false} PublicUsernameHasNoDash(t: string, i: nat)
    requires i <= |t| && ScanPublic(t, i).Some?
    ensures ScanPublic(t, i).value.username != [] && IsWordChar(ScanPublic(t, i).value.username[0])
    decreases |t| - i
  {
    if PublicAt(t, i).None? {
      PublicUsernameHasNoDash(t, i + 1);
    }
  }

  /** The parser with the private pattern tried first, as its comment intends. */
  function ParseChannelLinkPrivateFirst(t: string): (r: Option<LinkData>)
    ensures ScanPrivate(t, 0).Some? ==>
      r == Some(LinkData("-100" + ScanPrivate(t, 0).value.username, ScanPrivate(t, 0).value.messageId))
    ensures ScanPrivate(t, 0).None? ==> r == ParseChannelLink(t)
  {
    match ScanPrivate(t, 0)
    case Some(m) => Some(LinkData("-100" + m.username, m.messageId))
    case None => ScanPublic(t, 0)
  }

  /**
   * With the private pattern first, a private channel's post link yields the
   * channel's `-100` id and the post number.
   */
  lemma PrivateFirstReadsPrivateLinks(a: string, b: string)
    requires a != [] && b != [] && AllDigits(a) && AllDigits(b)
    ensures ParseChannelLinkPrivateFirst("t.me/c/" + a + "/" + b) == Some(LinkData("-100" + a, DigitsValue(b)))
  {
    PrivateAtLink(a, b);
  }
}

=== FILE: AdminHandlers.dfy ===
/**
 * The admin text flows of src/admin/adminHandlers.js, keyed on
 * `session.adminAction`: a broadcast, a point change typed as
 * `<telegramId> <amount>`, and a reward grant typed as
 * `<telegramId> <rewardId>`. They go through the admin service and report
 * its `{ success, message }` outcome.
 */
module AdminHandlers {
  import opened Wrappers
  import opened Strings
  import opened Models
  import opened Collections
  import opened UserService
  import opened AdminService
  import opened Sessions

  /** What a flow replied. */
  datatype FlowReply =
    | NoActionInProgress                             // 'No admin action in progress.'
    | BroadcastFinished(successCount: nat, failCount: nat)
    | InvalidFormat                                  // fewer than two words
    | InvalidNumbers                                 // a word that `Number` reads as NaN
    | PointsUpdated
    | ChangeFailed(error: Error)
    | NoBranch                                       // an action `adminTextFlow` has no branch for
    | NoGrantInProgress                              // 'No reward grant in progress.'
    | RewardGranted
    | GrantFailed(error: Error)

  /** The history reason of a typed point change: `Admin <adminId> change`. */
  function ChangeReason(adminId: int): (r: string)
    ensures r != []
  {
    "Admin " + ShowInt(adminId) + " change"
  }

  /** 'Points updated.' or 'Failed: <message>'. */
  function OutcomeReply(outcome: AdminOutcome): FlowReply {
    if outcome.Succeeded? then PointsUpdated else ChangeFailed(outcome.error)
  }

  /**
   * `adminTextFlow(ctx)`. A broadcast reports its counts (`delivered(chat)`
   * says whether a send went through); a point change is `TypedPointChange`.
   * A finished flow unsets `adminAction`.
   */
  function AdminTextFlow(s: Store, sess: Session, from: int, text: string, now: Time,
                         delivered: int -> bool): (r: (Store, Session, FlowReply))
    ensures sess.adminAction.None? ==> r == (s, sess, NoActionInProgress)
    ensures sess.adminAction == Some(SelectRewardToGrant) ==> r == (s, sess, NoBranch)
    ensures sess.adminAction == Some(BroadcastAction) ==>
      && r.0 == s && r.1 == sess.(adminAction := None)
      && r.2 == BroadcastFinished(Count(Recipients(s.users), delivered), |s.users| - Count(Recipients(s.users), delivered))
    ensures sess.adminAction == Some(GrantPoints) ==> r == TypedPointChange(s, sess, from, text, now)
  {
    match sess.adminAction
    case None => (s, sess, NoActionInProgress)
    case Some(BroadcastAction) =>
      var reached := Count(Recipients(s.users), delivered);
      (s, sess.(adminAction := None), BroadcastFinished(reached, |s.users| - reached))
    case Some(GrantPoints) => TypedPointChange(s, sess, from, text, now)
    case Some(SelectRewardToGrant) => (s, sess, NoBranch)
  }

  /**
   * The `grant_points` branch: two words that `Number` reads, handed to
   * `adminChangePoints` with the sender's Telegram id as the actor. A text of
   * fewer than two words, or with a word read as NaN, keeps `adminAction`, so
   * the next text is tried again.
   */
  function TypedPointChange(s: Store, sess: Session, from: int, text: string, now: Time): (r: (Store, Session, FlowReply))
    ensures var parts := SplitSpaces(text);
      && (|parts| < 2 ==> r == (s, sess, InvalidFormat))
      && (|parts| >= 2 && (ParseNumber(parts[0]).None? || ParseNumber(parts[1]).None?) ==> r == (s, sess, InvalidNumbers))
      && (|parts| >= 2 && ParseNumber(parts[0]).Some? && ParseNumber(parts[1]).Some? ==>
            var o := AdminChangePoints(s, ParseNumber(parts[0]).value, ParseNumber(parts[1]).value,
                                       ChangeReason(from), from, now);
            r == (o.0, sess.(adminAction := None), OutcomeReply(o.1)))
  {
    var parts := SplitSpaces(text);
    if |parts| < 2 then (s, sess, InvalidFormat)
    else
      var targetId := ParseNumber(parts[0]);
      var amount := ParseNumber(parts[1]);
      if targetId.None? || amount.None? then (s, sess, InvalidNumbers)
      else
        var o := AdminChangePoints(s, targetId.value, amount.value, ChangeReason(from), from, now);
        (o.0, sess.(adminAction := None), OutcomeReply(o.1))
  }

  /**
   * `<telegramId> <amount>` separated by any one whitespace character, the
   * no-break space U+00A0 included, reaches `adminChangePoints` with those two
   * numbers and ends the action.
   */
  lemma TypedChangeSplitsAtAnySpace(s: Store, sess: Session, from: int, telegramId: int, amount: int,
                                    c: char, now: Time)
    requires IsSpace(c)
    ensures var o := AdminChangePoints(s, telegramId, amount, ChangeReason(from), from, now);
      TypedPointChange(s, sess, from, ShowInt(telegramId) + [c] + ShowInt(amount), now)
        == (o.0, sess.(adminAction := None), OutcomeReply(o.1))
  {
    var a := ShowInt(telegramId);
    var b := ShowInt(amount);
    forall i | 0 <= i < |a| ensures !IsSpace(a[i]) {
      assert IsDigit(a[i]) || a[i] == '-';
    }
    forall i | 0 <= i < |b| ensures !IsSpace(b[i]) {
      assert IsDigit(b[i]) || b[i] == '-';
    }
    SplitSpacesAt(a, c, b);
    ParseNumberShowInt(telegramId);
    ParseNumberShowInt(amount);
  }

  /**
   * The typed point change never changes a balance: whatever the text, the
   * store is left as it was, and a well-formed change for a stored user is
   * answered with a failure.
   */
  lemma TypedPointChangeNeverCommits(s: Store, sess: Session, from: int, text: string, now: Time,
                                     delivered: int -> bool)
    ensures AdminTextFlow(s, sess, from, text, now, delivered).0 == s
    ensures var parts := SplitSpaces(text);
      sess.adminAction == Some(GrantPoints) && |parts| >= 2 &&
      ParseNumber(parts[0]).Some? && ParseNumber(parts[1]).Some? ==>
        AdminTextFlow(s, sess, from, text, now, delivered).2.ChangeFailed?
  {
    var parts := SplitSpaces(text);
    if sess.adminAction == Some(GrantPoints) && |parts| >= 2 &&
       ParseNumber(parts[0]).Some? && ParseNumber(parts[1]).Some? {
      AdminChangePointsNeverCommits(s, ParseNumber(parts[0]).value, ParseNumber(parts[1]).value,
                                    ChangeReason(from), from, now);
    }
  }

  /**
   * `adminHandleGrantReward(ctx)`: `<telegramId> <rewardId>`; the first word
   * goes through `Number`, the second is trimmed and handed over as the
   * reward's id text. A finished grant unsets `adminAction`; a text of fewer
   * than two words keeps it.
   */
  function AdminHandleGrantReward(s: Store, sess: Session, text: string, now: Time): (r: (Store, Session, FlowReply))
    ensures sess.adminAction != Some(SelectRewardToGrant) ==> r == (s, sess, NoGrantInProgress)
    ensures sess.adminAction == Some(SelectRewardToGrant) && |SplitSpaces(text)| < 2 ==> r == (s, sess, InvalidFormat)
    ensures sess.adminAction == Some(SelectRewardToGrant) && |SplitSpaces(text)| >= 2 ==>
      var parts := SplitSpaces(text);
      var (t, outcome) := AdminGrantRewardToUser(s, ParseNumber(parts[0]), Trim(parts[1]), now);
      && r.0 == t && r.1 == sess.(adminAction := None)
      && r.2 == (if outcome.Succeeded? then RewardGranted else GrantFailed(outcome.error))
  {
    if sess.adminAction != Some(SelectRewardToGrant) then (s, sess, NoGrantInProgress)
    else
      var parts := SplitSpaces(text);
      if |parts| < 2 then (s, sess, InvalidFormat)
      else
        var (t, outcome) := AdminGrantRewardToUser(s, ParseNumber(parts[0]), Trim(parts[1]), now);
        (t, sess.(adminAction := None), if outcome.Succeeded? then RewardGranted else GrantFailed(outcome.error))
  }

  /**
   * A grant typed as the user's Telegram id and the reward's id records one
   * claimed reward for that user, and ends the flow; no balance or stock moves.
   */
  lemma TypedGrantGrants(s: Store, sess: Session, telegramId: int, rid: RewardId, now: Time)
    requires sess.adminAction == Some(SelectRewardToGrant)
    requires rid < IdSpace && s.HasReward(rid) && s.FindByTelegram(telegramId).Some?
    ensures var (t, after, reply) := AdminHandleGrantReward(s, sess, ShowInt(telegramId) + " " + IdText(rid), now);
      && reply == RewardGranted && after == sess.(adminAction := None)
      && t == s.(claims := s.claims + [NewClaim(s.FindByTelegram(telegramId).value, rid, now)])
  {
    var a := ShowInt(telegramId);
    var b := IdText(rid);
    forall i | 0 <= i < |a| ensures !IsSpace(a[i]) {
      assert IsDigit(a[i]) || a[i] == '-';
    }
    forall i | 0 <= i < |b| ensures !IsSpace(b[i]) {
      assert IsHexDigit(b[i]);
    }
    SplitSpacesTwo(a, b);
    ParseNumberShowInt(telegramId);
    TrimFixed(b);
    CastIdText(rid);
  }
}

=== FILE: AdminService.dfy ===
/**
 * The admin service (src/services/adminService.js): broadcast counting, the
 * short statistics, and the admin's point change and reward grant, which
 * report failure as `{ success: false, message }` instead of throwing.
 */
module AdminService {
  import opened Wrappers
  import opened Strings
  import opened Models
  import opened Collections
  import opened UserService
  import opened RewardService

  /** `{ success: true }` or `{ success: false, message }`. */
  datatype AdminOutcome = Succeeded | Failed(error: Error)

  /** The Telegram ids `broadcast` sends to, one per user, in store order. */
  function Recipients(users: seq<User>): (r: seq<int>)
    ensures |r| == |users|
    ensures forall i :: 0 <= i < |r| ==> r[i] == users[i].telegramId
  {
    if users == [] then [] else Recipients(users[..|users| - 1]) + [users[|users| - 1].telegramId]
  }

  /**
   * `broadcast(text, telegram)`: one send attempt per user; `delivered(chat)`
   * says whether Telegram accepted the send to that chat. A failed send is
   * counted and the others still go out.
   */
  method Broadcast(s: Store, delivered: int -> bool) returns (successCount: nat, failCount: nat, attempted: seq<int>)
    ensures attempted == Recipients(s.users)
    ensures successCount + failCount == |s.users|
    ensures successCount == Count(attempted, delivered)
  {
    successCount, failCount, attempted := 0, 0, [];
    for i := 0 to |s.users|
      invariant attempted == Recipients(s.users[..i])
      invariant successCount + failCount == i
      invariant successCount == Count(attempted, delivered)
    {
      var chat := s.users[i].telegramId;
      CountAppend(attempted, chat, delivered);
      assert s.users[..i + 1][..i] == s.users[..i];
      attempted := attempted + [chat];
      if delivered(chat) {
        successCount := successCount + 1;
      } else {
        failCount := failCount + 1;
      }
    }
    assert s.users[..|s.users|] == s.users;
  }

  /** `getStatistics()` without `activeUsers7d`. */
  datatype ShortStatistics = ShortStatistics(totalUsers: nat, totalPoints: int)

  function GetStatistics(s: Store): (r: ShortStatistics)
    ensures r.totalUsers == |s.users|
    ensures s.users == [] ==> r.totalPoints == 0
  {
    ShortStatistics(|s.users|, TotalPoints(s.users))
  }

  /** On a ledgered store the points total is non-negative and equals the history's net total. */
  lemma StatisticsMatchLedger(s: Store)
    requires Ledgered(s)
    ensures GetStatistics(s).totalPoints == HistoryTotal(s.history)
    ensures GetStatistics(s).totalPoints >= 0
  {
    TotalPointsIsHistoryTotal(s);
    TotalPointsNonNegative(s.users);
  }

  lemma {:induction false} TotalPointsNonNegative(users: seq<User>)
    requires forall i :: 0 <= i < |users| ==> users[i].points >= 0
    ensures TotalPoints(users) >= 0
    decreases |users|
  {
    if users != [] {
      TotalPointsNonNegative(users[..|users| - 1]);
    }
  }

  // ------------------------------------------------------------------ point changes

  /**
   * `adminChangePoints(telegramTargetId, delta, reason, adminId)` as written:
   * `adminId` is the caller's Telegram number and lands in the history's
   * ObjectId field. The user save comes first, then the history save, in one
   * transaction; any failure aborts both.
   */
  function AdminChangePoints(s: Store, telegramTargetId: int, delta: int, reason: string,
                             adminId: int, now: Time): (r: (Store, AdminOutcome))
    ensures s.FindByTelegram(telegramTargetId).None? ==> r == (s, Failed(UserNotFound))
    ensures r.1.Failed? ==> r.0 == s
    ensures r.1.Succeeded? ==> NumberToObjectId(adminId).Some?
  {
    match s.FindByTelegram(telegramTargetId)
    case None => (s, Failed(UserNotFound))
    case Some(id) =>
      var u := s.users[id].(points := s.users[id].points + delta);
      if u.points < 0 then (s, Failed(InsufficientBalance))
      else if !ValidUser(u) || reason == [] then (s, Failed(ValidationFailed))
      else match NumberToObjectId(adminId)
        case None => (s, Failed(ValidationFailed))
        case Some(admin) => (Posted(s, HistoryEntry(id, delta, reason, Some(admin), now)), Succeeded)
  }

  /** As written, the call never commits: no Telegram number casts to the history's ObjectId `adminId`. */
  lemma AdminChangePointsNeverCommits(s: Store, telegramTargetId: int, delta: int, reason: string,
                                      adminId: int, now: Time)
    ensures AdminChangePoints(s, telegramTargetId, delta, reason, adminId, now).0 == s
    ensures AdminChangePoints(s, telegramTargetId, delta, reason, adminId, now).1.Failed?
  {
    NoNumberIsAnObjectId(adminId);
  }

  /**
   * The point change with the actor recorded as the admin's user `_id`, as the
   * controllers pass `ctx.user._id` to `updateUserPoints`.
   */
  function AdminChangePointsAsUser(s: Store, telegramTargetId: int, delta: int, reason: string,
                                   adminUser: UserId, now: Time): (r: (Store, AdminOutcome))
    ensures s.FindByTelegram(telegramTargetId).None? ==> r == (s, Failed(UserNotFound))
    ensures r.1.Failed? ==> r.0 == s
  {
    match s.FindByTelegram(telegramTargetId)
    case None => (s, Failed(UserNotFound))
    case Some(id) =>
      var u := s.users[id].(points := s.users[id].points + delta);
      if u.points < 0 then (s, Failed(InsufficientBalance))
      else if !ValidUser(u) || reason == [] then (s, Failed(ValidationFailed))
      else (Posted(s, HistoryEntry(id, delta, reason, Some(adminUser), now)), Succeeded)
  }

  /**
   * With the actor recorded as a user id, a change on a valid store commits
   * exactly when `updateUserPoints` on the user found by Telegram id would,
   * and leaves the same store behind.
   */
  lemma AdminChangeAgreesWithUpdate(s: Store, telegramTargetId: int, delta: int, reason: string,
                                    adminUser: UserId, now: Time)
    requires SchemaValid(s)
    requires s.FindByTelegram(telegramTargetId).Some?
    ensures var id := s.FindByTelegram(telegramTargetId).value;
      var r := AdminChangePointsAsUser(s, telegramTargetId, delta, reason, adminUser, now);
      var u := UpdateUserPoints(s, id, delta, reason, now, Some(adminUser));
      && (r.1.Succeeded? <==> u.Ok?)
      && (u.Ok? ==> r.0 == u.value.0)
  {
  }

  /** A committed change keeps the ledger invariant and the schemas. */
  lemma AdminChangePreservesLedger(s: Store, telegramTargetId: int, delta: int, reason: string,
                                   adminUser: UserId, now: Time)
    requires Ledgered(s) && SchemaValid(s)
    ensures Ledgered(AdminChangePointsAsUser(s, telegramTargetId, delta, reason, adminUser, now).0)
    ensures SchemaValid(AdminChangePointsAsUser(s, telegramTargetId, delta, reason, adminUser, now).0)
  {
    var r := AdminChangePointsAsUser(s, telegramTargetId, delta, reason, adminUser, now);
    if r.1.Succeeded? {
      var id := s.FindByTelegram(telegramTargetId).value;
      var e := HistoryEntry(id, delta, reason, Some(adminUser), now);
      LedgerStep(s, e);
      SchemaStep(s, e);
      assert r.0 == Posted(s, e);
    } else {
      assert r.0 == s;
    }
  }

  // ------------------------------------------------------------------ reward grants

  /**
   * `adminGrantRewardToUser(telegramTargetId, rewardId, adminId)`.
   * `telegramTargetId` is `None` for `NaN`, which matches no user; `rewardText`
   * is cast to an ObjectId by the reward lookup, which throws before the
   * user check when the text is not one. No points and no stock move.
   */
  function AdminGrantRewardToUser(s: Store, telegramTargetId: Option<int>, rewardText: string,
                                  now: Time): (r: (Store, AdminOutcome))
    ensures CastId(rewardText).None? ==> r == (s, Failed(CastFailed))
    ensures r.1.Failed? ==> r.0 == s
    ensures r.1.Succeeded? <==>
      && CastId(rewardText).Some? && telegramTargetId.Some?
      && s.FindByTelegram(telegramTargetId.value).Some? && s.HasReward(CastId(rewardText).value)
    ensures r.1.Succeeded? ==>
      r.0 == s.(claims := s.claims + [NewClaim(s.FindByTelegram(telegramTargetId.value).value,
                                               CastId(rewardText).value, now)])
  {
    var user := if telegramTargetId.Some? then s.FindByTelegram(telegramTargetId.value) else None;
    match CastId(rewardText)
    case None => (s, Failed(CastFailed))
    case Some(rewardId) =>
      if user.None? then (s, Failed(UserNotFound))
      else if !s.HasReward(rewardId) then (s, Failed(RewardNotFound))
      else (s.(claims := s.claims + [NewClaim(user.value, rewardId, now)]), Succeeded)
  }

  /**
   * A successful admin grant is the reward service's grant for the user found
   * by Telegram id; unlike that grant, it also refuses an unknown user.
   */
  lemma AdminGrantIsServiceGrant(s: Store, telegramTargetId: Option<int>, rewardText: string, now: Time)
    requires AdminGrantRewardToUser(s, telegramTargetId, rewardText, now).1.Succeeded?
    ensures var uid := s.FindByTelegram(telegramTargetId.value).value;
      var g := GrantReward(s, uid, CastId(rewardText).value, now);
      g.Ok? && g.value.0 == AdminGrantRewardToUser(s, telegramTargetId, rewardText, now).0
  {
  }
}

=== FILE: Bot.dfy ===
/**
 * The bot's own handlers (src/bot.js): the photo-for-points flow with its
 * in-memory map of forwarded photos, the routing of a text message, the
 * registration by contact, the admin's multi-step text inputs, and the
 * reward-request buttons that go from a user to the admins and back.
 *
 * A handler wrapped in `asyncHandler` answers a thrown error with a generic
 * reply and leaves the session as the throw found it; the unwrapped ones end
 * in the global `bot.catch`, with the same visible effect. Both are
 * `...Failed` replies here.
 */
module Bot {
  import opened Wrappers
  import opened Sequences
  import opened Strings
  import opened Models
  import opened Collections
  import opened UserService
  import opened RewardService
  import opened ChannelService
  import opened Sessions
  import opened AdminController
  import opened Middlewares

  /** `User.findOne({ telegramId: ctx.from.id })` finds a user whose admin flag is set. */
  predicate IsAdminSender(s: Store, from: int) {
    s.FindByTelegram(from).Some? && s.users[s.FindByTelegram(from).value].isAdmin
  }

  // ------------------------------------------------------------------ photos for points

  /** `pendingRewards`: the message id of each photo copy sent to an admin, mapped to the photo's sender. */
  type Pending = map<int, UserId>

  /**
   * The loop of the photo handler: one `sendPhoto` per admin, in order;
   * `sent(chat)` is the message id Telegram returns, or `None` when the send
   * throws, which ends the handler (the loop has no catch).
   */
  function NotifyAdmins(pending: Pending, admins: seq<User>, userId: UserId, sent: int -> Option<int>): (r: Pending)
    ensures forall k :: k in pending ==> k in r
    ensures forall k :: k in r ==> r[k] == userId || (k in pending && r[k] == pending[k])
    ensures forall k :: k in r && k !in pending ==> exists i :: 0 <= i < |admins| && sent(admins[i].telegramId) == Some(k)
    ensures (forall i :: 0 <= i < |admins| ==> sent(admins[i].telegramId).Some?) ==>
      forall i :: 0 <= i < |admins| ==> sent(admins[i].telegramId).value in r && r[sent(admins[i].telegramId).value] == userId
    decreases |admins|
  {
    if admins == [] then pending
    else match sent(admins[0].telegramId)
      case None => pending
      case Some(m) =>
        var r := NotifyAdmins(pending[m := userId], admins[1..], userId, sent);
        assert forall i :: 1 <= i < |admins| ==> admins[i] == admins[1..][i - 1];
        r
  }

  /**
   * `bot.on('photo')`: a photo from a registered user goes to every admin,
   * and each copy's message id is remembered with the sender's id. A photo
   * from anyone else is dropped.
   */
  function OnPhoto(s: Store, pending: Pending, from: int, sent: int -> Option<int>): (r: Pending)
    ensures s.FindByTelegram(from).None? ==> r == pending
    ensures forall k :: k in pending ==> k in r
    ensures s.FindByTelegram(from).Some? ==>
      forall k :: k in r ==> r[k] == s.FindByTelegram(from).value || (k in pending && r[k] == pending[k])
  {
    match s.FindByTelegram(from)
    case None => pending
    case Some(id) => NotifyAdmins(pending, GetAllUsers(s, Some(true)), id, sent)
  }

  /**
   * When every send goes through, each admin's copy of a registered user's
   * photo is answerable: a reply to it is routed to that user's credit.
   */
  lemma PhotoReachesEveryAdmin(s: Store, pending: Pending, from: int, sent: int -> Option<int>, admin: UserId)
    requires s.FindByTelegram(from).Some?
    requires forall i :: 0 <= i < |s.users| ==> sent(s.users[i].telegramId).Some?
    requires admin < |s.users| && s.users[admin].isAdmin
    ensures var m := sent(s.users[admin].telegramId).value;
      var r := OnPhoto(s, pending, from, sent);
      m in r && r[m] == s.FindByTelegram(from).value
  {
    var admins := GetAllUsers(s, Some(true));
    var a := s.users[admin];
    assert multiset(s.users)[a] > 0;
    assert a in multiset(admins);
    var i :| 0 <= i < |admins| && admins[i] == a;
    forall j | 0 <= j < |admins|
      ensures sent(admins[j].telegramId).Some?
    {
      assert admins[j] in multiset(admins);
      assert admins[j] in multiset(s.users);
      var k :| 0 <= k < |s.users| && s.users[k] == admins[j];
    }
  }

  /**
   * A photo message as the bot handles it: only `bot.on('photo')` sees it, so
   * the store and the session stay as they were, whatever step the session is
   * waiting for, and the copies sent to the admins become pending credits.
   */
  function PhotoEvent(s: Store, sess: Session, pending: Pending, from: int, sent: int -> Option<int>): (r: (Store, Session, Pending))
  {
    (s, sess, OnPhoto(s, pending, from, sent))
  }

  /**
   * As written, an admin who sends a photo at the reward's image step, as the
   * prompt invites, saves no reward: the step keeps waiting, and the photo
   * goes out to every admin as a photo to credit, answerable by a reply.
   */
  lemma ImageStepPhotoBecomesCredit(s: Store, sess: Session, pending: Pending, from: int,
                                    sent: int -> Option<int>, admin: UserId)
    requires sess.waitingFor == Some(RewardImage) && IsAdminSender(s, from)
    requires forall i :: 0 <= i < |s.users| ==> sent(s.users[i].telegramId).Some?
    requires admin < |s.users| && s.users[admin].isAdmin
    ensures var (t, after, p) := PhotoEvent(s, sess, pending, from, sent);
      var m := sent(s.users[admin].telegramId).value;
      && t.rewards == s.rewards && after.waitingFor == Some(RewardImage)
      && m in p && p[m] == s.FindByTelegram(from).value
  {
    PhotoReachesEveryAdmin(s, pending, from, sent, admin);
  }

  /**
   * A photo handler that first hands an admin's photo at the image step to
   * `handleRewardImage`, and otherwise forwards the photo for credit as before.
   */
  function PhotoEventWithImageStep(s: Store, sess: Session, pending: Pending, from: int, fileId: string,
                                   sent: int -> Option<int>): (r: (Store, Session, Pending))
    ensures !(IsAdminSender(s, from) && sess.waitingFor == Some(RewardImage)) ==>
      r == PhotoEvent(s, sess, pending, from, sent)
    ensures IsAdminSender(s, from) && sess.waitingFor == Some(RewardImage) ==> r.2 == pending
  {
    if IsAdminSender(s, from) && sess.waitingFor == Some(RewardImage) then
      var (t, after, _) := HandleRewardImage(s, sess, Photo(fileId), None);
      (t, after, pending)
    else PhotoEvent(s, sess, pending, from, sent)
  }

  /**
   * With the photo routed to the image step, an admin's name, description,
   * valid cost and photo store the reward exactly when name and description
   * are non-empty, with the photo as its image, and nothing is queued for
   * credit.
   */
  lemma PhotoCompletesRewardChain(s: Store, sess: Session, pending: Pending, from: int, name: string,
                                  desc: string, costText: string, fileId: string, sent: int -> Option<int>)
    requires IsAdminSender(s, from) && sess.rewardStock.None?
    requires HandleRewardCost(HandleRewardDesc(HandleRewardName(StartAddReward(sess), name), desc), costText).1
    ensures var c := HandleRewardCost(HandleRewardDesc(HandleRewardName(StartAddReward(sess), name), desc), costText).0;
      var d := if desc == "/skip" then "" else desc;
      var (t, after, p) := PhotoEventWithImageStep(s, c, pending, from, fileId, sent);
      && p == pending
      && (|t.rewards| > |s.rewards| <==> name != [] && d != [])
      && (name != [] && d != [] ==>
            t.FindReward(|s.rewards|) == Some(Reward(name, d, ParseNumber(costText).value, Unlimited, Some(fileId), true))
            && after == Cleared)
  {
    var c := HandleRewardCost(HandleRewardDesc(HandleRewardName(StartAddReward(sess), name), desc), costText).0;
    assert c.waitingFor == Some(RewardImage);
    RewardChain(s, sess, name, desc, costText, fileId);
  }

  /** What the reply to a photo copy produced. */
  datatype CreditReply =
    | NotFromAdmin               // ignored without a word
    | NotANumber                 // 'Iltimos, faqat raqam kiriting'
    | PhotoOwnerGone             // the sender's account is gone: ignored
    | CreditRejected             // `save()` refused a negative balance; the error ends the handler
    | Credited(amount: int, balance: int)

  /**
   * The branch of the text handler for a reply to a photo copy in
   * `pendingRewards`: an admin's `parseInt` of the text is added to the
   * sender's balance (`user.points += amount; save()`, no history entry).
   * Then the user and the admin are told, and only after both sends
   * (`notified`) is the entry deleted.
   */
  function CreditPhoto(s: Store, pending: Pending, repliedTo: int, from: int, text: string,
                       notified: bool): (r: (Store, Pending, CreditReply))
    requires repliedTo in pending
    ensures !IsAdminSender(s, from) ==> r == (s, pending, NotFromAdmin)
    ensures IsAdminSender(s, from) && ParseInt(text).None? ==> r == (s, pending, NotANumber)
    ensures !r.2.Credited? ==> r.0 == s && r.1 == pending
    ensures r.2.Credited? <==>
      var id := pending[repliedTo];
      && IsAdminSender(s, from) && ParseInt(text).Some? && s.HasUser(id)
      && ValidUser(s.users[id].(points := s.users[id].points + ParseInt(text).value))
    ensures r.2.Credited? ==>
      var id := pending[repliedTo];
      && s.HasUser(id) && r.2.amount == ParseInt(text).value
      && r.2.balance == s.users[id].points + r.2.amount
      && r.0 == s.WithUser(id, s.users[id].(points := r.2.balance))
      && (repliedTo in r.1 <==> !notified)
      && r.1 - {repliedTo} == pending - {repliedTo}
  {
    if !IsAdminSender(s, from) then (s, pending, NotFromAdmin)
    else match ParseInt(text)
      case None => (s, pending, NotANumber)
      case Some(amount) =>
        var id := pending[repliedTo];
        if !s.HasUser(id) then (s, pending, PhotoOwnerGone)
        else
          var u := s.users[id].(points := s.users[id].points + amount);
          if !ValidUser(u) then (s, pending, CreditRejected)
          else (s.WithUser(id, u), if notified then pending - {repliedTo} else pending, Credited(amount, u.points))
  }

  /**
   * The credit bypasses the points history: on a store where every balance
   * is its history's sum, a non-zero credit leaves the credited balance off
   * its history.
   */
  lemma PhotoCreditSkipsHistory(s: Store, pending: Pending, repliedTo: int, from: int, text: string, notified: bool)
    requires Ledgered(s) && repliedTo in pending
    requires CreditPhoto(s, pending, repliedTo, from, text, notified).2.Credited?
    ensures var (t, _, reply) := CreditPhoto(s, pending, repliedTo, from, text, notified);
      var id := pending[repliedTo];
      && t.history == s.history
      && t.users[id].points - Balance(t.history, id) == reply.amount
      && (reply.amount != 0 ==> !Ledgered(t))
  {
  }

  /**
   * As written: when the notification fails after the save (the user has
   * blocked the bot, say), the entry stays, and the admin's retry credits the
   * same photo a second time.
   */
  lemma PhotoReplyCreditsTwice(s: Store, pending: Pending, repliedTo: int, from: int, text: string)
    requires repliedTo in pending && IsAdminSender(s, from)
    requires ParseInt(text).Some? && ParseInt(text).value >= 0
    requires s.HasUser(pending[repliedTo]) && ValidUser(s.users[pending[repliedTo]])
    ensures var id := pending[repliedTo];
      var (t, p, first) := CreditPhoto(s, pending, repliedTo, from, text, false);
      && first.Credited? && repliedTo in p
      && CreditPhoto(t, p, repliedTo, from, text, true).2.Credited?
      && CreditPhoto(t, p, repliedTo, from, text, true).0.users[id].points == s.users[id].points + 2 * ParseInt(text).value
  {
    var id := pending[repliedTo];
    var t := CreditPhoto(s, pending, repliedTo, from, text, false).0;
    SameTelegramIds(s, t, from);
    assert t.users[s.FindByTelegram(from).value].isAdmin;
  }

  /** The credit with the entry deleted as soon as the balance is saved, whether or not the notifications go out. */
  function CreditPhotoOnce(s: Store, pending: Pending, repliedTo: int, from: int, text: string,
                           notified: bool): (r: (Store, Pending, CreditReply))
    requires repliedTo in pending
    ensures r.2.Credited? ==> repliedTo !in r.1 && r.1 == pending - {repliedTo}
    ensures !r.2.Credited? ==> r.1 == pending
  {
    var (t, _, reply) := CreditPhoto(s, pending, repliedTo, from, text, notified);
    (t, if reply.Credited? then pending - {repliedTo} else pending, reply)
  }

  /**
   * The one-shot credit agrees with the handler whenever the notifications go
   * out, and after it the photo copy is no longer pending: a second reply to
   * it is not routed to a credit.
   */
  lemma CreditPhotoOnceIsOneShot(s: Store, pending: Pending, repliedTo: int, from: int, text: string,
                                 notified: bool, sess: Session)
    requires repliedTo in pending
    ensures var once := CreditPhotoOnce(s, pending, repliedTo, from, text, notified);
      var asWritten := CreditPhoto(s, pending, repliedTo, from, text, notified);
      && once.0 == asWritten.0 && once.2 == asWritten.2
      && (notified ==> once == asWritten)
      && (once.2.Credited? ==> RouteText(once.1, sess, Some(repliedTo)) != PhotoCredit)
  {
  }

  // ------------------------------------------------------------------ routing a text message

  /** Which branch of `bot.on('text')` a message takes. */
  datatype TextRoute = PhotoCredit | RegistrationName | AdminInput | Hint | Ignored

  /**
   * The order of the text handler: a reply to a pending photo copy, then the
   * name step of the registration, then a pending admin input; a plain
   * message (not a reply) with none of these gets the hint, anything else
   * nothing. The phone step has no text branch.
   */
  function RouteText(pending: Pending, sess: Session, replyTo: Option<int>): (r: TextRoute)
    ensures r == PhotoCredit <==> replyTo.Some? && replyTo.value in pending
    ensures r == RegistrationName <==>
      !(replyTo.Some? && replyTo.value in pending) && sess.registrationStep == Some(NameStep)
    ensures r == AdminInput <==>
      !(replyTo.Some? && replyTo.value in pending) && sess.registrationStep != Some(NameStep) && sess.waitingFor.Some?
    ensures r == Hint <==> replyTo.None? && sess.registrationStep != Some(NameStep) && sess.waitingFor.None?
  {
    if replyTo.Some? && replyTo.value in pending then PhotoCredit
    else if sess.registrationStep == Some(NameStep) then RegistrationName
    else if sess.waitingFor.Some? then AdminInput
    else if replyTo.None? then Hint
    else Ignored
  }

  /**
   * As written: at the phone step, the prompt invites typing the number, but
   * a typed number is never read: the message gets the hint (or nothing) and
   * the registration stays at the phone step.
   */
  lemma TypedPhoneIsIgnored(pending: Pending, sess: Session, replyTo: Option<int>)
    requires sess.registrationStep == Some(PhoneStep) && sess.waitingFor.None?
    requires replyTo.None? || replyTo.value !in pending
    ensures RouteText(pending, sess, replyTo) == Hint || RouteText(pending, sess, replyTo) == Ignored
  {
  }

  /** Routing with a branch for a number typed at the phone step, taken before the admin inputs. */
  datatype PhoneRoute = Routed(route: TextRoute) | TypedPhone

  function RouteTextWithPhone(pending: Pending, sess: Session, replyTo: Option<int>): (r: PhoneRoute)
    ensures r == TypedPhone <==>
      !(replyTo.Some? && replyTo.value in pending) && sess.registrationStep == Some(PhoneStep)
    ensures r.Routed? ==> r.route == RouteText(pending, sess, replyTo)
  {
    if !(replyTo.Some? && replyTo.value in pending) && sess.registrationStep == Some(PhoneStep) then TypedPhone
    else Routed(RouteText(pending, sess, replyTo))
  }

  /**
   * With that branch, a number typed at the phone step registers the user
   * exactly as the shared contact would.
   */
  lemma TypedPhoneRegisters(s: Store, pending: Pending, sess: Session, from: Sender, text: string)
    requires sess.registrationStep == Some(PhoneStep) && sess.userName.Some? && sess.userName.value != []
    requires s.FindByTelegram(from.id).None?
    ensures RouteTextWithPhone(pending, sess, None) == TypedPhone
    ensures var (t, after, id) := OnContact(s, sess, from, text);
      && id == Some(|s.users|) && after == Cleared
      && t.users[|s.users|].phone == Some(text)
  {
  }

  // ------------------------------------------------------------------ registration

  /** `/start`: an unknown sender is asked for a name; a known one gets the main menu, the session untouched. */
  function OnStart(s: Store, sess: Session, from: int): (r: Session)
    ensures s.FindByTelegram(from).Some? ==> r == sess
    ensures s.FindByTelegram(from).None? ==> r.registrationStep == Some(NameStep)
  {
    if s.FindByTelegram(from).None? then sess.(registrationStep := Some(NameStep)) else sess
  }

  /** The name step: keep the text as the name and wait for the phone. */
  function OnRegistrationName(sess: Session, text: string): (r: Session)
    ensures r.userName == Some(text) && r.registrationStep == Some(PhoneStep)
  {
    sess.(userName := Some(text), registrationStep := Some(PhoneStep))
  }

  /** The document `User.create` receives at the contact step. */
  function Registrant(sess: Session, from: Sender, phone: string): User {
    User(from.id, from.username, sess.userName.GetOr(""), Some(phone), 0, false)
  }

  /**
   * `bot.on('contact')` at the phone step: the user is created with the
   * session's name and the shared phone, not an admin, with no points, and
   * the session is cleared. An unset name fails the schema and a Telegram id
   * already stored fails the unique index; either error leaves store and
   * session as they were. Outside the phone step nothing happens.
   */
  function OnContact(s: Store, sess: Session, from: Sender, phone: string): (r: (Store, Session, Option<UserId>))
    ensures sess.registrationStep != Some(PhoneStep) ==> r == (s, sess, None)
    ensures r.2.None? ==> r.0 == s && r.1 == sess
    ensures r.2.Some? <==>
      && sess.registrationStep == Some(PhoneStep) && sess.userName.Some? && sess.userName.value != []
      && s.FindByTelegram(from.id).None?
    ensures r.2.Some? ==>
      && r.1 == Cleared && r.2.value == |s.users|
      && r.0 == s.(users := s.users + [User(from.id, from.username, sess.userName.value, Some(phone), 0, false)])
  {
    if sess.registrationStep != Some(PhoneStep) then (s, sess, None)
    else
      var u := Registrant(sess, from, phone);
      if !ValidUser(u) || s.FindByTelegram(from.id).Some? then (s, sess, None)
      else (s.(users := s.users + [u]), Cleared, Some(|s.users|))
  }

  /**
   * The whole registration of a newcomer: `/start`, a name, a contact. The
   * user is stored under the next id with that name and phone, no points and
   * no admin flag; the ledger and the schemas still hold; the lookup by
   * Telegram id now finds the user, so a later `/start` leaves the session alone.
   */
  lemma RegistrationFlow(s: Store, sess: Session, from: Sender, name: string, phone: string)
    requires Ledgered(s) && SchemaValid(s)
    requires s.FindByTelegram(from.id).None? && name != []
    ensures var (t, after, id) := OnContact(s, OnRegistrationName(OnStart(s, sess, from.id), name), from, phone);
      && id == Some(|s.users|) && after == Cleared
      && t.users == s.users + [User(from.id, from.username, name, Some(phone), 0, false)]
      && t.FindByTelegram(from.id) == Some(|s.users|)
      && Ledgered(t) && SchemaValid(t)
      && OnStart(t, Cleared, from.id) == Cleared
  {
    AddUserStep(s, User(from.id, from.username, name, Some(phone), 0, false));
  }

  // ------------------------------------------------------------------ the admin's text inputs

  /** What an admin's text input produced. */
  datatype StepReply =
    | NoPermission                     // 'Ruxsat yo'q!'
    | Searched                         // the search results
    | RewardStep(saved: Option<RewardId>)
    | BadAmount                        // 'Iltimos to'g'ri raqam kiriting!'
    | PointsChanged(reply: PointsReply)
    | BroadcastSent(successCount: nat, failCount: nat)
    | AskChannelLink
    | AskChannelId
    | ChannelSaved(key: ChannelKey)
    | ChannelRefused(error: Error)
    | TargetGone                       // 'Foydalanuvchi topilmadi.'
    | MessageDelivered(chat: int)
    | StepFailed                       // a thrown error, answered by `asyncHandler`

  /** The amount `parseInt` reads for a point change, when it is a positive number. */
  function PositiveAmount(text: string): (r: Option<int>)
    ensures r.Some? <==> ParseInt(text).Some? && ParseInt(text).value > 0
    ensures r.Some? ==> r.value == ParseInt(text).value
  {
    if ParseInt(text).Some? && ParseInt(text).value > 0 then ParseInt(text) else None
  }

  /**
   * The `waitingFor` branch of the text handler. Only a stored admin gets
   * past the gate. `forwarded` is the photo of a forwarded channel post at the
   * image step, `delivered(chat)` whether a send to `chat` goes through.
   */
  function OnAdminText(s: Store, sess: Session, from: int, text: string, now: Time,
                       forwarded: Option<string>, delivered: int -> bool): (r: (Store, Session, StepReply))
    requires sess.waitingFor.Some?
    ensures !IsAdminSender(s, from) ==> r == (s, sess, NoPermission)
    ensures sess.waitingFor.value !in {RewardImage, AddPoints, RemovePoints, AddChannelId} ==> r.0 == s
  {
    if !IsAdminSender(s, from) then (s, sess, NoPermission)
    else
      var admin := s.FindByTelegram(from).value;
      match sess.waitingFor.value
      case SearchUser => (s, Cleared, Searched)
      case RewardName => (s, HandleRewardName(sess, text), RewardStep(None))
      case RewardDesc => (s, HandleRewardDesc(sess, text), RewardStep(None))
      case RewardCost => (s, HandleRewardCost(sess, text).0, RewardStep(None))
      case RewardImage =>
        var (t, after, saved) := HandleRewardImage(s, sess, LinkText(text), forwarded);
        (t, after, RewardStep(saved))
      case AddPoints =>
        if PositiveAmount(text).None? then (s, sess, BadAmount)
        else
          var (t, reply) := ExecuteAddPoints(s, sess.targetUserId, PositiveAmount(text).value, admin, now);
          (t, Cleared, PointsChanged(reply))
      case RemovePoints =>
        if PositiveAmount(text).None? then (s, sess, BadAmount)
        else
          var (t, reply) := ExecuteRemovePoints(s, sess.targetUserId, PositiveAmount(text).value, admin, now);
          (t, Cleared, PointsChanged(reply))
      case BroadcastMessage =>
        var recipients := GetAllUsers(s, SegmentFilter(sess.broadcastSegment));
        var reached := Count(recipients, Reached(delivered));
        (s, Cleared, BroadcastSent(reached, |recipients| - reached))
      case AddChannelTitle => (s, sess.(channelTitle := Some(text), waitingFor := Some(AddChannelLink)), AskChannelLink)
      case AddChannelLink => (s, sess.(channelLink := Some(text), waitingFor := Some(AddChannelId)), AskChannelId)
      case AddChannelId =>
        var added := AddChannel(s, sess.channelTitle.GetOr(""), sess.channelLink.GetOr(""), text, now, true);
        if added.Ok? then (added.value.0, Cleared, ChannelSaved(added.value.1))
        else (s, Cleared, ChannelRefused(added.error))
      case SendMessageToUser =>
        var id := if sess.targetUserId.None? then None else CastId(sess.targetUserId.value);
        if sess.targetUserId.None? then (s, Cleared, TargetGone)
        else if id.None? then (s, sess, StepFailed)
        else if !s.HasUser(id.value) then (s, Cleared, TargetGone)
        else if !delivered(s.users[id.value].telegramId) then (s, sess, StepFailed)
        else (s, Cleared, MessageDelivered(s.users[id.value].telegramId))
  }

  /** Every admin input keeps the ledger invariant and the schemas. */
  lemma AdminTextPreservesLedger(s: Store, sess: Session, from: int, text: string, now: Time,
                                 forwarded: Option<string>, delivered: int -> bool)
    requires sess.waitingFor.Some? && Ledgered(s) && SchemaValid(s)
    ensures var t := OnAdminText(s, sess, from, text, now, forwarded, delivered).0;
      Ledgered(t) && SchemaValid(t)
  {
    var t := OnAdminText(s, sess, from, text, now, forwarded, delivered).0;
    var w := sess.waitingFor.value;
    if !IsAdminSender(s, from) || w !in {RewardImage, AddPoints, RemovePoints, AddChannelId} {
      assert t == s;
    } else {
      var admin := s.FindByTelegram(from).value;
      var amount := PositiveAmount(text);
      if amount.None? && (w == AddPoints || w == RemovePoints) {
        assert t == s;
      } else if w == AddPoints {
        AddPointsPreservesLedger(s, sess.targetUserId, amount.value, admin, now);
        assert t == ExecuteAddPoints(s, sess.targetUserId, amount.value, admin, now).0;
      } else if w == RemovePoints {
        RemovePointsPreservesLedger(s, sess.targetUserId, amount.value, admin, now);
        assert t == ExecuteRemovePoints(s, sess.targetUserId, amount.value, admin, now).0;
      } else if w == RewardImage {
        RewardImageKeepsSchemas(s, sess, text, forwarded);
        assert t == HandleRewardImage(s, sess, LinkText(text), forwarded).0;
      } else {
        SameRecords(s, t);
      }
    }
  }

  lemma RewardImageKeepsSchemas(s: Store, sess: Session, text: string, forwarded: Option<string>)
    requires Ledgered(s) && SchemaValid(s)
    ensures var t := HandleRewardImage(s, sess, LinkText(text), forwarded).0;
      Ledgered(t) && SchemaValid(t)
  {
    var (t, _, saved) := HandleRewardImage(s, sess, LinkText(text), forwarded);
    if saved.Some? {
      assert t.users == s.users && t.history == s.history;
      assert forall i :: 0 <= i < |s.rewards| ==> t.rewards[i] == s.rewards[i];
    }
  }

  /**
   * A point amount that `parseInt` cannot read, or that is not positive,
   * changes nothing: the admin is asked again and the step stays.
   */
  lemma BadAmountKeepsWaiting(s: Store, sess: Session, from: int, text: string, now: Time,
                              forwarded: Option<string>, delivered: int -> bool)
    requires sess.waitingFor == Some(AddPoints) || sess.waitingFor == Some(RemovePoints)
    requires IsAdminSender(s, from)
    requires ParseInt(text).None? || ParseInt(text).value <= 0
    ensures OnAdminText(s, sess, from, text, now, forwarded, delivered) == (s, sess, BadAmount)
  {
  }

  /**
   * The channel chain: title, link, id. The channel is stored as required
   * with exactly the three texts when the schema and the unique index accept
   * it, and the session is cleared either way.
   */
  lemma ChannelChain(s: Store, sess: Session, from: int, title: string, link: string, id: string, now: Time,
                     forwarded: Option<string>, delivered: int -> bool)
    requires IsAdminSender(s, from)
    ensures var s1 := OnAdminText(s, StartAddChannel(sess), from, title, now, forwarded, delivered).1;
      var s2 := OnAdminText(s, s1, from, link, now, forwarded, delivered).1;
      var (t, after, reply) := OnAdminText(s, s2, from, id, now, forwarded, delivered);
      && after == Cleared
      && (reply.ChannelSaved? <==> AddChannel(s, title, link, id, now).Ok?)
      && (reply.ChannelSaved? ==>
            && Registered(reply.key, Channel(title, link, id, true, now)) in GetRequiredChannels(t)
            && t == AddChannel(s, title, link, id, now).value.0)
      && (!reply.ChannelSaved? ==> t == s)
  {
    var s0 := StartAddChannel(sess);
    ChannelTextStep(s, s0, from, title, now, forwarded, delivered);
    var s1 := s0.(channelTitle := Some(title), waitingFor := Some(AddChannelLink));
    ChannelTextStep(s, s1, from, link, now, forwarded, delivered);
    var s2 := s1.(channelLink := Some(link), waitingFor := Some(AddChannelId));
    ChannelIdStep(s, s2, from, id, now, forwarded, delivered);
    if AddChannel(s, title, link, id, now).Ok? {
      AddedChannelIsRequired(s, title, link, id, now);
    }
  }

  lemma ChannelTextStep(s: Store, sess: Session, from: int, text: string, now: Time,
                        forwarded: Option<string>, delivered: int -> bool)
    requires IsAdminSender(s, from)
    requires sess.waitingFor == Some(AddChannelTitle) || sess.waitingFor == Some(AddChannelLink)
    ensures sess.waitingFor == Some(AddChannelTitle) ==>
      OnAdminText(s, sess, from, text, now, forwarded, delivered) ==
        (s, sess.(channelTitle := Some(text), waitingFor := Some(AddChannelLink)), AskChannelLink)
    ensures sess.waitingFor == Some(AddChannelLink) ==>
      OnAdminText(s, sess, from, text, now, forwarded, delivered) ==
        (s, sess.(channelLink := Some(text), waitingFor := Some(AddChannelId)), AskChannelId)
  {
  }

  lemma ChannelIdStep(s: Store, sess: Session, from: int, text: string, now: Time,
                      forwarded: Option<string>, delivered: int -> bool)
    requires IsAdminSender(s, from) && sess.waitingFor == Some(AddChannelId)
    requires sess.channelTitle.Some? && sess.channelLink.Some?
    ensures var added := AddChannel(s, sess.channelTitle.value, sess.channelLink.value, text, now, true);
      OnAdminText(s, sess, from, text, now, forwarded, delivered) ==
        if added.Ok? then (added.value.0, Cleared, ChannelSaved(added.value.1))
        else (s, Cleared, ChannelRefused(added.error))
  {
  }

  /**
   * Credit and debit by text: a positive amount for a target found by its
   * id text reaches the controller, and the session is cleared afterwards.
   */
  lemma PointInputClears(s: Store, sess: Session, from: int, text: string, now: Time,
                         forwarded: Option<string>, delivered: int -> bool)
    requires sess.waitingFor == Some(AddPoints) || sess.waitingFor == Some(RemovePoints)
    requires IsAdminSender(s, from) && PositiveAmount(text).Some?
    ensures var (t, after, reply) := OnAdminText(s, sess, from, text, now, forwarded, delivered);
      var admin := s.FindByTelegram(from).value;
      var amount := ParseInt(text).value;
      && after == Cleared && reply.PointsChanged?
      && (sess.waitingFor == Some(AddPoints) ==>
            (t, reply.reply) == ExecuteAddPoints(s, sess.targetUserId, amount, admin, now))
      && (sess.waitingFor == Some(RemovePoints) ==>
            (t, reply.reply) == ExecuteRemovePoints(s, sess.targetUserId, amount, admin, now))
  {
  }

  // ------------------------------------------------------------------ the reward card and the request

  /** The card's claim button: `claim_reward_<reward id>_<telegram id>`. */
  function ClaimButtonData(rid: RewardId, telegramId: int): (d: string)
    requires rid < IdSpace
  {
    "claim_reward_" + IdText(rid) + "_" + ShowInt(telegramId)
  }

  /** What `view_reward_<id>` shows. */
  datatype RewardCard =
    | CardFailed                      // a thrown error, answered by `asyncHandler`'s generic reply
    | CardRewardGone                  // 'Mukofot topilmadi.'
    | CardIgnored                     // the sender is not registered
    | Card(reward: Reward, claimButton: Option<string>)

  /**
   * `view_reward_(.+)`: the reward's card, with the claim button exactly when
   * the balance covers the cost. Neither the active flag nor the stock is
   * looked at. For a missing reward the reply's keyboard comes from
   * `getBackButton`, which src/bot.js never imports: evaluating it throws, so
   * the sender gets the generic error reply instead of 'Mukofot topilmadi.'.
   */
  function ViewReward(s: Store, idText: string, from: int): (r: RewardCard)
    ensures r == CardFailed <==> CastId(idText).None? || !s.HasReward(CastId(idText).value)
    ensures r.Card? <==> CastId(idText).Some? && s.HasReward(CastId(idText).value) && s.FindByTelegram(from).Some?
    ensures r.Card? ==>
      && r.reward == s.RewardAt(CastId(idText).value)
      && (r.claimButton.Some? <==> s.users[s.FindByTelegram(from).value].points >= r.reward.costPoints)
      && (r.claimButton.Some? ==> r.claimButton.value == ClaimButtonData(CastId(idText).value, from))
  {
    match CastId(idText)
    case None => CardFailed
    case Some(rid) =>
      if !s.HasReward(rid) then CardFailed
      else CardOf(s, rid, from)
  }

  /** The card of a stored reward: ignored for an unregistered sender. */
  function CardOf(s: Store, rid: RewardId, from: int): RewardCard
    requires rid < IdSpace && s.HasReward(rid)
  {
    match s.FindByTelegram(from)
    case None => CardIgnored
    case Some(uid) =>
      var reward := s.RewardAt(rid);
      var user := s.users[uid];
      Card(reward, if user.points >= reward.costPoints then Some(ClaimButtonData(rid, user.telegramId)) else None)
  }

  /** As written, a well-formed id of a deleted reward is answered with the generic error, not the not-found reply. */
  lemma GoneRewardAnswersWithError(s: Store, rid: RewardId, from: int)
    requires rid < IdSpace && !s.HasReward(rid)
    ensures ViewReward(s, IdText(rid), from) == CardFailed
  {
    CastIdText(rid);
  }

  /** `view_reward_(.+)` with the back button imported: a missing reward gets 'Mukofot topilmadi.'. */
  function ViewRewardWithBackButton(s: Store, idText: string, from: int): (r: RewardCard)
    ensures r == CardFailed <==> CastId(idText).None?
    ensures r == CardRewardGone <==> CastId(idText).Some? && !s.HasReward(CastId(idText).value)
  {
    match CastId(idText)
    case None => CardFailed
    case Some(rid) =>
      if !s.HasReward(rid) then CardRewardGone
      else CardOf(s, rid, from)
  }

  /**
   * Importing the back button changes the reply exactly for a well-formed id
   * of a missing reward, which then gets the not-found reply; every other card
   * is the one the handler shows as written.
   */
  lemma BackButtonChangesOnlyGoneReward(s: Store, idText: string, from: int)
    ensures ViewRewardWithBackButton(s, idText, from) != ViewReward(s, idText, from)
        <==> CastId(idText).Some? && !s.HasReward(CastId(idText).value)
    ensures CastId(idText).Some? && !s.HasReward(CastId(idText).value) ==>
      ViewReward(s, idText, from) == CardFailed && ViewRewardWithBackButton(s, idText, from) == CardRewardGone
  {
  }

  /** The admins' approval button: `admin_grant_<reward id>_<telegram id>`. */
  function AdminGrantData(rid: RewardId, telegramId: int): (d: string)
    requires rid < IdSpace
  {
    "admin_grant_" + IdText(rid) + "_" + ShowInt(telegramId)
  }

  /** What a claim request produced. */
  datatype RequestReply =
    | RequestFailed                                  // a thrown error, answered by `bot.catch`
    | RequestRewardGone                              // 'Mukofot topilmadi'
    | RequestShort                                   // 'Ball yetarli emas'
    | RequestSent(admins: seq<User>, grantButton: string)

  /**
   * The request for the reward whose id text is `ridText`: the reward must be
   * stored and the sender's balance must cover it; then every admin gets the
   * request with an approval button. An unregistered sender makes
   * `user.points` throw.
   */
  function RequestFor(s: Store, ridText: string, from: int): (r: RequestReply)
    ensures CastId(ridText).None? ==> r == RequestFailed
    ensures r.RequestSent? <==>
      && CastId(ridText).Some? && s.HasReward(CastId(ridText).value) && s.FindByTelegram(from).Some?
      && s.users[s.FindByTelegram(from).value].points >= s.RewardAt(CastId(ridText).value).costPoints
    ensures r.RequestSent? ==>
      r.admins == GetAllUsers(s, Some(true)) && r.grantButton == AdminGrantData(CastId(ridText).value, from)
  {
    match CastId(ridText)
    case None => RequestFailed
    case Some(rid) =>
      if !s.HasReward(rid) then RequestRewardGone
      else match s.FindByTelegram(from)
        case None => RequestFailed
        case Some(uid) =>
          if s.users[uid].points < s.RewardAt(rid).costPoints then RequestShort
          else RequestSent(GetAllUsers(s, Some(true)), AdminGrantData(rid, s.users[uid].telegramId))
  }

  /** The callback data `claim_reward_(.+)` matches. */
  predicate IsClaimData(data: string) {
    |data| > 13 && data[..13] == "claim_reward_"
  }

  /** `claim_reward_(.+)` as written: the whole rest of the data is taken as the reward id. */
  function ClaimRequestAsWritten(s: Store, data: string, from: int): RequestReply
    requires IsClaimData(data)
  {
    RequestFor(s, data[13..], from)
  }

  /** The data of a claim menu button, `getRewardsListKeyboard(rewards, 'claim_reward')`: `claim_reward_<reward id>`. */
  function MenuButtonData(rid: RewardId): (d: string)
    requires rid < IdSpace
  {
    "claim_reward_" + IdText(rid)
  }

  /**
   * As written, a button of the claim menu does get through: its data is the
   * prefix and the bare reward id, so a registered user whose balance covers
   * a stored reward sends the request to every admin.
   */
  lemma MenuButtonResolves(s: Store, rid: RewardId, from: int)
    requires rid < IdSpace
    ensures IsClaimData(MenuButtonData(rid))
    ensures ClaimRequestAsWritten(s, MenuButtonData(rid), from) == RequestFor(s, IdText(rid), from)
    ensures s.HasReward(rid) && s.FindByTelegram(from).Some? &&
            s.users[s.FindByTelegram(from).value].points >= s.RewardAt(rid).costPoints ==>
      ClaimRequestAsWritten(s, MenuButtonData(rid), from) == RequestSent(GetAllUsers(s, Some(true)), AdminGrantData(rid, from))
  {
    var d := MenuButtonData(rid);
    assert d[13..] == IdText(rid);
    CastIdText(rid);
  }

  /**
   * As written, the card's own claim button never gets through: its data
   * carries the Telegram id after the reward id, and the 26 or more
   * characters after the prefix are no ObjectId.
   */
  lemma ClaimButtonNeverResolves(s: Store, rid: RewardId, telegramId: int, from: int)
    requires rid < IdSpace
    ensures IsClaimData(ClaimButtonData(rid, telegramId))
    ensures ClaimRequestAsWritten(s, ClaimButtonData(rid, telegramId), from) == RequestFailed
  {
    var d := ClaimButtonData(rid, telegramId);
    assert d[13..] == IdText(rid) + "_" + ShowInt(telegramId);
  }

  /** The reward id of claim data: the text up to the first `_`, or all of it. */
  function ClaimRewardId(suffix: string): (t: string)
    ensures t <= suffix && '_' !in t
    ensures |t| < |suffix| ==> suffix[|t|] == '_'
  {
    suffix[..IndexOf(suffix, '_')]
  }

  /**
   * The corrected handler, which reads the reward id up to the first `_`:
   * both the card's button and a menu button ask for their own reward, and
   * data without a `_` after the prefix is read as before.
   */
  function ClaimRequest(s: Store, data: string, from: int): (r: RequestReply)
    requires IsClaimData(data)
    ensures forall rid: RewardId, tg: int :: rid < IdSpace && data == ClaimButtonData(rid, tg) ==>
      r == RequestFor(s, IdText(rid), from)
    ensures forall rid: RewardId :: rid < IdSpace && data == MenuButtonData(rid) ==>
      r == RequestFor(s, IdText(rid), from)
    ensures '_' !in data[13..] ==> r == ClaimRequestAsWritten(s, data, from)
  {
    ClaimDataIds(data);
    RequestFor(s, ClaimRewardId(data[13..]), from)
  }

  /** What the corrected reading takes from each kind of claim data. */
  lemma ClaimDataIds(data: string)
    requires IsClaimData(data)
    ensures forall rid: RewardId, tg: int :: rid < IdSpace && data == ClaimButtonData(rid, tg) ==>
      ClaimRewardId(data[13..]) == IdText(rid)
    ensures forall rid: RewardId :: rid < IdSpace && data == MenuButtonData(rid) ==>
      ClaimRewardId(data[13..]) == IdText(rid)
    ensures '_' !in data[13..] ==> ClaimRewardId(data[13..]) == data[13..]
  {
    forall rid: RewardId, tg: int | rid < IdSpace && data == ClaimButtonData(rid, tg)
      ensures ClaimRewardId(data[13..]) == IdText(rid)
    {
      ClaimRewardIdOfButtons(rid, tg);
    }
    forall rid: RewardId | rid < IdSpace && data == MenuButtonData(rid)
      ensures ClaimRewardId(data[13..]) == IdText(rid)
    {
      ClaimRewardIdOfButtons(rid, 0);
      assert data[13..] == IdText(rid);
    }
  }

  /** Both button forms carry the reward id back: `claim_reward_<id>_<telegram id>` and `claim_reward_<id>`. */
  lemma ClaimRewardIdOfButtons(rid: RewardId, telegramId: int)
    requires rid < IdSpace
    ensures ClaimRewardId(ClaimButtonData(rid, telegramId)[13..]) == IdText(rid)
    ensures ClaimRewardId(IdText(rid)) == IdText(rid)
  {
    assert '_' !in IdText(rid);
    assert ClaimButtonData(rid, telegramId)[13..] == IdText(rid) + ['_'] + ShowInt(telegramId);
    IndexOfPrefix(IdText(rid), '_', ShowInt(telegramId));
    IndexOfPrefix(IdText(rid), '_', []);
    assert IdText(rid) + ['_'] + [] == IdText(rid) + ['_'];
    assert IndexOf(IdText(rid), '_') == |IdText(rid)|;
  }

  /**
   * With the reward id read up to the first `_`, a registered user whose
   * balance covers a stored reward gets a card with a claim button, and that
   * button sends the request to every admin with the approval button for
   * this reward and this user.
   */
  lemma CardLeadsToRequest(s: Store, rid: RewardId, from: int)
    requires rid < IdSpace && s.HasReward(rid) && s.FindByTelegram(from).Some?
    requires s.users[s.FindByTelegram(from).value].points >= s.RewardAt(rid).costPoints
    ensures var card := ViewReward(s, IdText(rid), from);
      && card.Card? && card.claimButton == Some(ClaimButtonData(rid, from))
      && ClaimRequest(s, ClaimButtonData(rid, from), from) ==
           RequestSent(GetAllUsers(s, Some(true)), AdminGrantData(rid, from))
      && ClaimRequestAsWritten(s, ClaimButtonData(rid, from), from) == RequestFailed
  {
    CastIdText(rid);
    ClaimRewardIdOfButtons(rid, from);
    ClaimButtonNeverResolves(s, rid, from, from);
  }

  // ------------------------------------------------------------------ the admin's approval

  /** The last `_` among `t[1..j]`. */
  function LastSep(t: string, j: nat): (r: Option<nat>)
    requires j <= |t|
    ensures r.Some? ==> 1 <= r.value < j && t[r.value] == '_'
    ensures r.Some? ==> forall m :: r.value < m < j ==> t[m] != '_'
    ensures r.None? ==> forall m :: 1 <= m < j ==> t[m] != '_'
  {
    if j <= 1 then None
    else if t[j - 1] == '_' then Some(j - 1)
    else LastSep(t, j - 1)
  }

  /**
   * Where `^admin_grant_(.+)_(.+)$` splits the text after the prefix: the
   * greedy first group ends at the last `_` that leaves both groups non-empty.
   */
  function GrantSeparator(rest: string): (k: Option<nat>)
    ensures k.Some? ==> 1 <= k.value && k.value + 2 <= |rest| && rest[k.value] == '_'
    ensures k.Some? ==> forall m :: k.value < m < |rest| - 1 ==> rest[m] != '_'
    ensures k.None? ==> forall m :: 1 <= m < |rest| - 1 ==> rest[m] != '_'
  {
    if |rest| < 3 then None else LastSep(rest, |rest| - 1)
  }

  /** Two non-empty groups with no `_` in the second are split back apart. */
  lemma GrantSeparatorOf(a: string, b: string)
    requires a != [] && b != [] && '_' !in b
    ensures GrantSeparator(a + "_" + b) == Some(|a|)
  {
    var rest := a + "_" + b;
    assert rest[|a|] == '_';
    assert forall m :: |a| < m < |rest| ==> rest[m] == b[m - |a| - 1];
  }

  /** The callback data `^admin_grant_(.+)_(.+)$` matches. */
  predicate IsGrantData(data: string) {
    |data| >= 12 && data[..12] == "admin_grant_" && GrantSeparator(data[12..]).Some?
  }

  /**
   * `User.findOne({ telegramId: text })`: `telegramId` is a string field, so
   * the text matches the user whose id reads exactly as that text.
   */
  function TelegramLookup(s: Store, text: string): (r: Option<UserId>)
    ensures r.Some? ==> r.value < |s.users| && ShowInt(s.users[r.value].telegramId) == text
  {
    match ParseNumber(text)
    case None => None
    case Some(n) => if ShowInt(n) == text then s.FindByTelegram(n) else None
  }

  /** A Telegram id written out finds the user the number finds. */
  lemma TelegramLookupShowInt(s: Store, telegramId: int)
    ensures TelegramLookup(s, ShowInt(telegramId)) == s.FindByTelegram(telegramId)
  {
    ParseNumberShowInt(telegramId);
  }

  /** What the approval produced. */
  datatype GrantReply =
    | GrantRefused                    // 'Ruxsat yo'q'
    | GrantFailed                     // the reward id text is not an ObjectId
    | GrantMissing                    // 'Xatolik': no such user or reward
    | Granted(claimId: ClaimId, notify: int, title: string)

  /**
   * `admin_grant_(.+)_(.+)`: a stored admin approves; the user is looked up by
   * the second group, the reward by the first, and `grantReward` records the
   * claim. The user is then told at their Telegram id.
   */
  function AdminGrant(s: Store, data: string, from: int, now: Time): (r: (Store, GrantReply))
    requires IsGrantData(data)
    ensures !IsAdminSender(s, from) ==> r == (s, GrantRefused)
    ensures !r.1.Granted? ==> r.0 == s
    ensures r.1.Granted? ==>
      var rest := data[12..];
      var k := GrantSeparator(rest).value;
      var uid := TelegramLookup(s, rest[k + 1..]);
      var rid := CastId(rest[..k]);
      && IsAdminSender(s, from) && uid.Some? && rid.Some? && s.HasReward(rid.value)
      && r.0 == s.(claims := s.claims + [NewClaim(uid.value, rid.value, now)])
      && r.1 == Granted(|s.claims|, s.users[uid.value].telegramId, s.RewardAt(rid.value).title)
  {
    var rest := data[12..];
    var k := GrantSeparator(rest).value;
    if !IsAdminSender(s, from) then (s, GrantRefused)
    else
      var target := TelegramLookup(s, rest[k + 1..]);
      match CastId(rest[..k])
      case None => (s, GrantFailed)
      case Some(rid) =>
        if target.None? || !s.HasReward(rid) then (s, GrantMissing)
        else match GrantReward(s, target.value, rid, now)
          case Ok((t, c)) => (t, Granted(c, s.users[target.value].telegramId, s.RewardAt(rid).title))
          case Err(_) => (s, GrantFailed)
  }

  /**
   * The approval button of a request grants the reward to the requester: one
   * claimed record for this user and this reward, and nothing else changes;
   * in particular the balance the request checked is not charged.
   */
  lemma ApprovalGrants(s: Store, rid: RewardId, telegramId: int, from: int, now: Time)
    requires rid < IdSpace && s.HasReward(rid) && IsAdminSender(s, from)
    requires s.FindByTelegram(telegramId).Some?
    ensures IsGrantData(AdminGrantData(rid, telegramId))
    ensures var (t, reply) := AdminGrant(s, AdminGrantData(rid, telegramId), from, now);
      var uid := s.FindByTelegram(telegramId).value;
      && reply == Granted(|s.claims|, telegramId, s.RewardAt(rid).title)
      && t == GrantReward(s, uid, rid, now).value.0
      && t.users == s.users && t.rewards == s.rewards && t.history == s.history
  {
    GrantDataParts(rid, telegramId);
    CastIdText(rid);
    TelegramLookupShowInt(s, telegramId);
  }

  /** The approval button's data matches the pattern, and its groups are the reward's id and the Telegram id. */
  lemma GrantDataParts(rid: RewardId, telegramId: int)
    requires rid < IdSpace
    ensures var rest := AdminGrantData(rid, telegramId)[12..];
      && IsGrantData(AdminGrantData(rid, telegramId))
      && GrantSeparator(rest) == Some(24)
      && rest[..24] == IdText(rid) && rest[25..] == ShowInt(telegramId)
  {
    var a, b := IdText(rid), ShowInt(telegramId);
    assert '_' !in b by {
      forall i | 0 <= i < |b| ensures b[i] != '_' {
        assert IsDigit(b[i]) || b[i] == '-';
      }
    }
    PrefixParts("admin_grant_", a, '_', b);
    AroundParts(a, '_', b);
    GrantSeparatorOf(a, b);
  }
}

=== FILE: ChannelService.dfy ===
/**
 * The channel service (src/services/channelService.js): the list of channels
 * a user must join, and the rule that reads a membership status.
 */
module ChannelService {
  import opened Wrappers
  import opened Models
  import opened Collections

  /** A stored channel together with its `_id`. */
  datatype Registered = Registered(key: ChannelKey, channel: Channel)

  /** Every stored channel, in store order. */
  function Registry(s: Store): (r: seq<Registered>)
    ensures forall i :: 0 <= i < |r| ==>
      r[i].key < |s.channels| && s.channels[r[i].key] == Some(r[i].channel)
    ensures forall k :: 0 <= k < |s.channels| && s.channels[k].Some? ==>
      Registered(k, s.channels[k].value) in r
  {
    RegistryFrom(s.channels, 0)
  }

  function RegistryFrom(channels: seq<Option<Channel>>, from: nat): (r: seq<Registered>)
    requires from <= |channels|
    ensures forall i :: 0 <= i < |r| ==>
      from <= r[i].key < |channels| && channels[r[i].key] == Some(r[i].channel)
    ensures forall k :: from <= k < |channels| && channels[k].Some? ==>
      Registered(k, channels[k].value) in r
    decreases |channels| - from
  {
    if from == |channels| then []
    else
      var rest := RegistryFrom(channels, from + 1);
      match channels[from]
      case None => rest
      case Some(c) => [Registered(from, c)] + rest
  }

  /** Whether a stored channel already uses `channelId` (the unique index). */
  predicate ChannelIdTaken(s: Store, channelId: string) {
    exists k :: 0 <= k < |s.channels| && s.channels[k].Some? && s.channels[k].value.channelId == channelId
  }

  /** The unique index holds: no two stored channels share a `channelId`. */
  predicate ChannelIdsUnique(s: Store) {
    forall i, j :: 0 <= i < j < |s.channels| && s.channels[i].Some? && s.channels[j].Some? ==>
      s.channels[i].value.channelId != s.channels[j].value.channelId
  }

  /**
   * `addChannel(title, link, channelId, isRequired = true)`: `Channel.create`,
   * which validates the document first and then meets the unique index on
   * `channelId`. The new channel gets the next id.
   */
  function AddChannel(s: Store, title: string, link: string, channelId: string, now: Time,
                      isRequired: bool := true): (r: Result<(Store, ChannelKey), Error>)
    ensures title == [] || link == [] || channelId == [] ==> r == Err(ValidationFailed)
    ensures r.Err? ==> r.error == ValidationFailed || r.error == DuplicateKey
    ensures r.Ok? <==> ValidChannel(Channel(title, link, channelId, isRequired, now)) && !ChannelIdTaken(s, channelId)
    ensures r.Ok? ==>
      && r.value.1 == |s.channels|
      && |r.value.0.channels| == |s.channels| + 1
      && r.value.0.channels[r.value.1] == Some(Channel(title, link, channelId, isRequired, now))
      && r.value.0.channels[..|s.channels|] == s.channels
      && r.value.0.users == s.users && r.value.0.rewards == s.rewards
      && r.value.0.claims == s.claims && r.value.0.history == s.history
  {
    var c := Channel(title, link, channelId, isRequired, now);
    if !ValidChannel(c) then Err(ValidationFailed)
    else if ChannelIdTaken(s, channelId) then Err(DuplicateKey)
    else Ok((s.(channels := s.channels + [Some(c)]), |s.channels|))
  }

  /** Adding a channel keeps the unique index. */
  lemma AddChannelKeepsIdsUnique(s: Store, title: string, link: string, channelId: string, now: Time,
                                 isRequired: bool)
    requires ChannelIdsUnique(s)
    ensures var r := AddChannel(s, title, link, channelId, now, isRequired);
      r.Ok? ==> ChannelIdsUnique(r.value.0)
  {
    var r := AddChannel(s, title, link, channelId, now, isRequired);
    if r.Ok? {
      var t := r.value.0;
      forall i, j | 0 <= i < j < |t.channels| && t.channels[i].Some? && t.channels[j].Some?
        ensures t.channels[i].value.channelId != t.channels[j].value.channelId
      {
        if j == |s.channels| {
          assert t.channels[i] == s.channels[i];
        } else {
          assert t.channels[i] == s.channels[i] && t.channels[j] == s.channels[j];
        }
      }
    }
  }

  /**
   * `removeChannel(channelId)`: `Channel.findByIdAndDelete`, which first casts
   * the id text to an ObjectId; a missing channel is `'Kanal topilmadi'`.
   * The removed channel is returned.
   */
  function RemoveChannel(s: Store, idText: string): (r: Result<(Store, Channel), Error>)
    ensures CastId(idText).None? ==> r == Err(CastFailed)
    ensures r.Ok? <==>
      CastId(idText).Some? && CastId(idText).value < |s.channels| && s.channels[CastId(idText).value].Some?
    ensures r.Err? && CastId(idText).Some? ==> r.error == ChannelNotFound
    ensures r.Ok? ==>
      && r.value.0 == s.(channels := s.channels[CastId(idText).value := None])
      && Some(r.value.1) == s.channels[CastId(idText).value]
  {
    match CastId(idText)
    case None => Err(CastFailed)
    case Some(k) =>
      if k < |s.channels| && s.channels[k].Some? then Ok((s.(channels := s.channels[k := None]), s.channels[k].value))
      else Err(ChannelNotFound)
  }

  /**
   * A channel added and then removed by its id text is gone: the channel list
   * is the old one plus an empty slot, and a second removal finds nothing.
   */
  lemma AddThenRemove(s: Store, title: string, link: string, channelId: string, now: Time, isRequired: bool)
    requires AddChannel(s, title, link, channelId, now, isRequired).Ok?
    requires |s.channels| < IdSpace
    ensures var (t, key) := AddChannel(s, title, link, channelId, now, isRequired).value;
      var r := RemoveChannel(t, IdText(key));
      && r.Ok?
      && r.value.1 == Channel(title, link, channelId, isRequired, now)
      && r.value.0.channels == s.channels + [None]
      && RemoveChannel(r.value.0, IdText(key)) == Err(ChannelNotFound)
  {
    var (t, key) := AddChannel(s, title, link, channelId, now, isRequired).value;
    CastIdText(key);
  }

  // ------------------------------------------------------------------ listings

  function CreatedAtDesc(c: Registered): int {
    -c.channel.createdAt
  }

  /** Ascending `CreatedAtDesc` is descending creation time. */
  lemma NewestFirst(r: seq<Registered>)
    requires SortedBy(r, CreatedAtDesc)
    ensures forall i, j :: 0 <= i < j < |r| ==> r[i].channel.createdAt >= r[j].channel.createdAt
  {
    forall i, j | 0 <= i < j < |r| ensures r[i].channel.createdAt >= r[j].channel.createdAt {
      assert CreatedAtDesc(r[i]) <= CreatedAtDesc(r[j]);
    }
  }

  /** `getAllChannels()`: every stored channel, newest first (ties in store order). */
  function GetAllChannels(s: Store): (r: seq<Registered>)
    ensures multiset(r) == multiset(Registry(s))
    ensures forall i, j :: 0 <= i < j < |r| ==> r[i].channel.createdAt >= r[j].channel.createdAt
  {
    NewestFirst(SortBy(Registry(s), CreatedAtDesc));
    SortBy(Registry(s), CreatedAtDesc)
  }

  function IsRequired(c: Registered): bool {
    c.channel.isRequired
  }

  /** `getRequiredChannels()`: `Channel.find({ isRequired: true })`, in store order. */
  function GetRequiredChannels(s: Store): (r: seq<Registered>)
    ensures forall i :: 0 <= i < |r| ==> r[i].channel.isRequired
    ensures forall c :: c in r <==> c in Registry(s) && c.channel.isRequired
  {
    var r := Filter(Registry(s), IsRequired);
    forall c ensures c in r <==> c in Registry(s) && c.channel.isRequired {
      FilterMembers(Registry(s), IsRequired, c);
    }
    r
  }

  /** A stored channel is required exactly when it shows up among the required ones. */
  lemma RequiredChannelsAreTheRequiredOnes(s: Store, k: ChannelKey)
    requires k < |s.channels| && s.channels[k].Some?
    ensures Registered(k, s.channels[k].value) in GetRequiredChannels(s) <==> s.channels[k].value.isRequired
  {
  }

  /** A channel added with the default flag is required. */
  lemma AddedChannelIsRequired(s: Store, title: string, link: string, channelId: string, now: Time)
    requires AddChannel(s, title, link, channelId, now).Ok?
    ensures var (t, key) := AddChannel(s, title, link, channelId, now).value;
      Registered(key, Channel(title, link, channelId, true, now)) in GetRequiredChannels(t)
  {
  }

  // ------------------------------------------------------------------ membership

  /** The statuses that count as joined. */
  const MemberStatuses: seq<string> := ["member", "administrator", "creator"]

  /**
   * `checkUserSubscription(bot, channelId, userId)` given what `getChatMember`
   * did: `Some(status)`, or `None` when the call threw.
   */
  predicate CheckUserSubscription(lookup: Option<string>) {
    lookup.Some? && lookup.value in MemberStatuses
  }

  /**
   * The rule spelled out: joined exactly for the three statuses; `left`,
   * `kicked`, `restricted` and a failed lookup all read as not joined.
   */
  lemma SubscriptionRule(lookup: Option<string>)
    ensures CheckUserSubscription(lookup) <==>
      lookup == Some("member") || lookup == Some("administrator") || lookup == Some("creator")
    ensures !CheckUserSubscription(None)
    ensures !CheckUserSubscription(Some("left")) && !CheckUserSubscription(Some("kicked"))
    ensures !CheckUserSubscription(Some("restricted"))
  {
  }
}

=== FILE: Collections.dfy ===
/**
 * The query shapes the services send to the store: `find(filter)`,
 * `.sort({ key: 1 | -1 })` and `.limit(n)`, as functions on sequences.
 */
module Collections {

  /** `find(filter)`: the elements satisfying `p`, in store order. */
  function Filter<T>(xs: seq<T>, p: T -> bool): (r: seq<T>)
    ensures |r| <= |xs|
    ensures forall i :: 0 <= i < |r| ==> p(r[i])
  {
    if xs == [] then []
    else
      var rest := Filter(xs[1..], p);
      if p(xs[0]) then [xs[0]] + rest else rest
  }

  /** `Filter` keeps every element satisfying `p` as often as it occurs, and drops the rest. */
  lemma {:induction false} FilterMultiset<T>(xs: seq<T>, p: T -> bool)
    ensures forall x :: multiset(Filter(xs, p))[x] == (if p(x) then multiset(xs)[x] else 0)
    decreases |xs|
  {
    if xs != [] {
      FilterMultiset(xs[1..], p);
      assert xs == [xs[0]] + xs[1..];
      assert multiset(xs) == multiset{xs[0]} + multiset(xs[1..]);
    }
  }

  /** What `Filter` keeps is in the input and satisfies `p`; what satisfies `p` in the input is kept. */
  lemma FilterMembers<T>(xs: seq<T>, p: T -> bool, x: T)
    ensures x in Filter(xs, p) <==> x in xs && p(x)
  {
    FilterMultiset(xs, p);
    assert x in Filter(xs, p) <==> x in multiset(Filter(xs, p));
    assert x in xs <==> x in multiset(xs);
  }

  /** Filtering a sequence with a known first element. */
  lemma FilterCons<T>(x: T, ys: seq<T>, p: T -> bool)
    ensures Filter([x] + ys, p) == if p(x) then [x] + Filter(ys, p) else Filter(ys, p)
  {
    assert ([x] + ys)[1..] == ys;
  }

  /** Filtering a concatenation filters each part: the kept elements keep their order. */
  lemma {:induction false} FilterAppend<T>(a: seq<T>, b: seq<T>, p: T -> bool)
    ensures Filter(a + b, p) == Filter(a, p) + Filter(b, p)
    decreases |a|
  {
    if a == [] {
      assert a + b == b;
    } else {
      var t := a[1..];
      assert a == [a[0]] + t;
      assert a + b == [a[0]] + (t + b);
      FilterAppend(t, b, p);
      FilterCons(a[0], t + b, p);
      FilterCons(a[0], t, p);
      var ft, fb := Filter(t, p), Filter(b, p);
      if p(a[0]) {
        assert [a[0]] + (ft + fb) == ([a[0]] + ft) + fb;
      }
    }
  }

  /** Filtering twice by the same predicate is filtering once. */
  lemma {:induction false} FilterIdempotent<T(!new)>(xs: seq<T>, p: T -> bool)
    ensures Filter(Filter(xs, p), p) == Filter(xs, p)
    decreases |xs|
  {
    if xs != [] {
      FilterIdempotent(xs[1..], p);
      var rest := Filter(xs[1..], p);
      if p(xs[0]) {
        assert ([xs[0]] + rest)[1..] == rest;
      }
    }
  }

  /** The number of elements satisfying `p`: `countDocuments(filter)`. */
  function Count<T(!new)>(xs: seq<T>, p: T -> bool): (n: nat)
    ensures n <= |xs|
    ensures n == |Filter(xs, p)|
  {
    if xs == [] then 0 else (if p(xs[0]) then 1 else 0) + Count(xs[1..], p)
  }

  /** Counting over a longer prefix adds one exactly when the new element satisfies `p`. */
  lemma {:induction false} CountAppend<T(!new)>(xs: seq<T>, x: T, p: T -> bool)
    ensures Count(xs + [x], p) == Count(xs, p) + (if p(x) then 1 else 0)
    decreases |xs|
  {
    if xs != [] {
      assert (xs + [x])[1..] == xs[1..] + [x];
      CountAppend(xs[1..], x, p);
    }
  }

  /** A count only shrinks when the predicate gets stronger. */
  lemma {:induction false} CountMonotone<T(!new)>(xs: seq<T>, p: T -> bool, q: T -> bool)
    requires forall x :: p(x) ==> q(x)
    ensures Count(xs, p) <= Count(xs, q)
  {
    if xs != [] {
      CountMonotone(xs[1..], p, q);
    }
  }

  /** No element occurs twice. */
  predicate NoDuplicates<T(==)>(xs: seq<T>) {
    forall i, j :: 0 <= i < j < |xs| ==> xs[i] != xs[j]
  }

  /** The distinct elements of `xs`, in order of first occurrence. */
  function Distinct<T(==,!new)>(xs: seq<T>): (r: seq<T>)
    ensures forall x :: x in r <==> x in xs
    ensures NoDuplicates(r)
  {
    if xs == [] then []
    else
      var d := Distinct(xs[..|xs| - 1]);
      assert forall x :: x in xs <==> x in xs[..|xs| - 1] || x == xs[|xs| - 1];
      if xs[|xs| - 1] in d then d else d + [xs[|xs| - 1]]
  }

  /** Having no duplicates is having every multiplicity at most one. */
  lemma {:induction false} NoDuplicatesMultiset<T(!new)>(xs: seq<T>)
    ensures NoDuplicates(xs) <==> forall x :: multiset(xs)[x] <= 1
    decreases |xs|
  {
    if xs != [] {
      var n := |xs| - 1;
      var init := xs[..n];
      NoDuplicatesMultiset(init);
      assert xs == init + [xs[n]];
      assert multiset(xs) == multiset(init) + multiset{xs[n]};
      if NoDuplicates(xs) {
        assert NoDuplicates(init);
        assert xs[n] !in init;
        assert multiset(init)[xs[n]] == 0;
      }
      if forall x :: multiset(xs)[x] <= 1 {
        assert forall x :: multiset(init)[x] <= multiset(xs)[x];
        assert multiset(init)[xs[n]] == 0;
        assert xs[n] !in init;
        forall i, j | 0 <= i < j < |xs| ensures xs[i] != xs[j] {
          if j == n {
            assert xs[i] in init;
          } else {
            assert init[i] == xs[i] && init[j] == xs[j];
          }
        }
      }
    }
  }

  /** A permutation of a duplicate-free sequence is duplicate-free, and so is any prefix of it. */
  lemma PermutationNoDuplicates<T(!new)>(xs: seq<T>, ys: seq<T>, n: nat)
    requires NoDuplicates(xs) && multiset(xs) == multiset(ys)
    ensures NoDuplicates(ys)
    ensures n <= |ys| ==> NoDuplicates(ys[..n])
  {
    NoDuplicatesMultiset(xs);
    NoDuplicatesMultiset(ys);
  }

  /** Ascending order of `key`. */
  predicate SortedBy<T>(xs: seq<T>, key: T -> int) {
    forall i, j :: 0 <= i < j < |xs| ==> key(xs[i]) <= key(xs[j])
  }

  /** Filtering a sorted sequence leaves it sorted. */
  lemma {:induction false} FilterSorted<T(!new)>(xs: seq<T>, p: T -> bool, key: T -> int)
    requires SortedBy(xs, key)
    ensures SortedBy(Filter(xs, p), key)
    decreases |xs|
  {
    if xs != [] {
      var rest := Filter(xs[1..], p);
      FilterSorted(xs[1..], p, key);
      if p(xs[0]) {
        forall y | y in rest ensures key(xs[0]) <= key(y) {
          FilterMembers(xs[1..], p, y);
        }
        SortedCons(xs[0], rest, key);
      }
    }
  }

  /** Putting an element no larger than any other in front keeps a sequence sorted. */
  lemma SortedCons<T>(x: T, xs: seq<T>, key: T -> int)
    requires SortedBy(xs, key)
    requires forall y :: y in xs ==> key(x) <= key(y)
    ensures SortedBy([x] + xs, key)
  {
    var r := [x] + xs;
    forall i, j | 0 <= i < j < |r| ensures key(r[i]) <= key(r[j]) {
      assert r[j] == xs[j - 1];
      if i > 0 { assert r[i] == xs[i - 1]; }
    }
  }

  /** Insert `x` before the first element whose key is not smaller. */
  function Insert<T>(x: T, xs: seq<T>, key: T -> int): (r: seq<T>)
    requires SortedBy(xs, key)
    ensures SortedBy(r, key)
    ensures multiset(r) == multiset(xs) + multiset{x}
    ensures |r| == |xs| + 1
  {
    if xs == [] then [x]
    else if key(x) <= key(xs[0]) then
      InsertFront(x, xs, key);
      [x] + xs
    else
      var rest := Insert(x, xs[1..], key);
      InsertBehind(x, xs, rest, key);
      [xs[0]] + rest
  }

  /** `x` goes in front of a sorted sequence whose first key is not smaller. */
  lemma InsertFront<T>(x: T, xs: seq<T>, key: T -> int)
    requires SortedBy(xs, key) && xs != [] && key(x) <= key(xs[0])
    ensures SortedBy([x] + xs, key)
  {
    forall y | y in xs ensures key(x) <= key(y) {
      var j :| 0 <= j < |xs| && xs[j] == y;
      assert key(xs[0]) <= key(xs[j]) || j == 0;
    }
    SortedCons(x, xs, key);
  }

  /** `x` goes behind the first element when that element's key is smaller. */
  lemma InsertBehind<T>(x: T, xs: seq<T>, rest: seq<T>, key: T -> int)
    requires SortedBy(xs, key) && xs != [] && key(xs[0]) < key(x)
    requires SortedBy(rest, key) && multiset(rest) == multiset(xs[1..]) + multiset{x}
    ensures SortedBy([xs[0]] + rest, key)
    ensures multiset([xs[0]] + rest) == multiset(xs) + multiset{x}
  {
    var tail := xs[1..];
    assert xs == [xs[0]] + tail;
    forall y | y in rest ensures key(xs[0]) <= key(y) {
      assert y in multiset(rest);
      if y != x {
        assert y in multiset(tail);
        var j :| 0 <= j < |tail| && tail[j] == y;
        assert xs[j + 1] == y;
      }
    }
    SortedCons(xs[0], rest, key);
  }

  /** `.sort({ key: 1 })`: an ascending permutation (insertion sort, so ties keep store order). */
  function SortBy<T>(xs: seq<T>, key: T -> int): (r: seq<T>)
    ensures SortedBy(r, key)
    ensures multiset(r) == multiset(xs)
    ensures |r| == |xs|
  {
    if xs == [] then []
    else
      assert xs == [xs[0]] + xs[1..];
      Insert(xs[0], SortBy(xs[1..], key), key)
  }

  /** The first `n` elements, or all of them when there are fewer. */
  function Take<T>(xs: seq<T>, n: nat): (r: seq<T>)
    ensures |r| <= n && |r| <= |xs|
    ensures |xs| > n ==> |r| == n
    ensures r == xs[..|r|]
    ensures |xs| <= n ==> r == xs
  {
    if |xs| <= n then xs else xs[..n]
  }

  /** `.sort(...)` then a cap of `n`: the first `n` of the sorted elements, each taken from the input, in key order. */
  lemma TopFacts<T(!new)>(xs: seq<T>, key: T -> int, n: nat)
    ensures var r := Take(SortBy(xs, key), n);
      && |r| == (if |xs| <= n then |xs| else n)
      && SortedBy(r, key)
      && (forall i :: 0 <= i < |r| ==> r[i] in xs)
      && (NoDuplicates(xs) ==> NoDuplicates(r))
  {
    var sorted := SortBy(xs, key);
    var r := Take(sorted, n);
    if NoDuplicates(xs) {
      PermutationNoDuplicates(xs, sorted, |r|);
    }
    forall i | 0 <= i < |r| ensures r[i] in xs {
      assert r[i] == sorted[i];
      assert sorted[i] in multiset(sorted);
    }
    forall i, j | 0 <= i < j < |r| ensures key(r[i]) <= key(r[j]) {
      assert r[i] == sorted[i] && r[j] == sorted[j];
    }
  }

  /** The first `n` elements are a sub-multiset of the whole. */
  lemma TakeSubMultiset<T>(xs: seq<T>, n: nat)
    ensures multiset(Take(xs, n)) <= multiset(xs)
  {
    var r := Take(xs, n);
    assert xs == r + xs[|r|..];
  }

  /** An element of the input that did not make the first `n` has a key no smaller than any that did. */
  lemma TopIsTop<T>(xs: seq<T>, key: T -> int, n: nat, y: T)
    requires y in xs && y !in Take(SortBy(xs, key), n)
    ensures var r := Take(SortBy(xs, key), n);
      forall i :: 0 <= i < |r| ==> key(r[i]) <= key(y)
  {
    var sorted := SortBy(xs, key);
    assert y in multiset(xs);
    assert y !in multiset(Take(sorted, n));
    TakeOfSortedIsTop(sorted, key, n, y);
  }

  /**
   * A limited prefix of a sorted sequence is a "top n": nothing left out has a
   * smaller key than anything kept.
   */
  lemma TakeOfSortedIsTop<T>(xs: seq<T>, key: T -> int, n: nat, y: T)
    requires SortedBy(xs, key)
    requires y in multiset(xs) - multiset(Take(xs, n))
    ensures forall i :: 0 <= i < |Take(xs, n)| ==> key(Take(xs, n)[i]) <= key(y)
  {
    var r := Take(xs, n);
    var rest := xs[|r|..];
    assert xs == r + rest;
    assert multiset(xs) == multiset(r) + multiset(rest);
    assert y in multiset(rest);
    var j :| 0 <= j < |rest| && rest[j] == y;
    assert xs[|r| + j] == y;
  }
}

=== FILE: Helpers.dfy ===
/**
 * The pure helpers of src/utils/helpers.js: phone formatting, the admin list
 * read from `ADMIN_IDS`, and the splitting of long messages into chunks.
 */
module Helpers {
  import opened Wrappers
  import opened Strings
  import opened Collections
  import opened Sequences

  // ---------------------------------------------------------------- formatPhone

  /** The characters `/[^\d+]/g` does not remove. */
  predicate IsPhoneChar(c: char) {
    IsDigit(c) || c == '+'
  }

  /**
   * `formatPhone(phone)`: 'N/A' for `null` or the empty string, otherwise the
   * digits and plus signs of `phone`.
   */
  function FormatPhone(phone: Option<string>): (r: string)
    ensures phone.None? || phone.value == [] ==> r == "N/A"
    ensures phone.Some? && phone.value != [] ==>
      && (forall i :: 0 <= i < |r| ==> IsPhoneChar(r[i]))
      && (forall c :: multiset(r)[c] == (if IsPhoneChar(c) then multiset(phone.value)[c] else 0))
  {
    if phone.None? || phone.value == [] then "N/A"
    else
      FilterMultiset(phone.value, IsPhoneChar);
      Filter(phone.value, IsPhoneChar)
  }

  /** The kept characters stay in their original order: formatting a concatenation formats each part. */
  lemma FormatPhoneKeepsOrder(a: string, b: string)
    requires a != [] && b != []
    ensures FormatPhone(Some(a + b)) == FormatPhone(Some(a)) + FormatPhone(Some(b))
  {
    FilterAppend(a, b, IsPhoneChar);
  }

  /**
   * Formatting a formatted number changes nothing, as long as there was a
   * number to format and something of it was left.
   */
  lemma FormatPhoneIdempotent(phone: string)
    requires phone != [] && FormatPhone(Some(phone)) != []
    ensures FormatPhone(Some(FormatPhone(Some(phone)))) == FormatPhone(Some(phone))
  {
    FilterIdempotent(phone, IsPhoneChar);
  }

  /** The placeholder itself is not a number: formatting 'N/A' leaves nothing. */
  lemma FormatPhonePlaceholder()
    ensures FormatPhone(None) == "N/A"
    ensures FormatPhone(Some(FormatPhone(None))) == []
  {
    assert "N/A"[1..] == "/A" && "/A"[1..] == "A" && "A"[1..] == [];
  }

  // ---------------------------------------------------------------- admin ids

  /** `parseInt` of every field, keeping the ones that are not `NaN`. */
  function ParsedFields(fields: seq<string>): (r: seq<int>)
    ensures |r| <= |fields|
  {
    if fields == [] then []
    else
      var head := ParseInt(Trim(fields[0]));
      (if head.Some? then [head.value] else []) + ParsedFields(fields[1..])
  }

  /**
   * `getAdminIds()`: `(process.env.ADMIN_IDS || '').split(',')`, each field
   * trimmed and read by `parseInt`, the unreadable ones dropped.
   */
  function GetAdminIds(env: Option<string>): (r: seq<int>)
    ensures |r| <= |Split(env.GetOr(""), ',')|
  {
    ParsedFields(Split(env.GetOr(""), ','))
  }

  /** An unset or empty `ADMIN_IDS` makes nobody an admin. */
  lemma NoAdminIds(env: Option<string>, telegramId: int)
    requires env.None? || env.value == []
    ensures GetAdminIds(env) == []
    ensures !IsUserAdmin(env, telegramId)
  {
    assert env.GetOr("") == [];
    assert IndexOf([], ',') == 0;
    assert Split([], ',') == [[]];
    assert ParseInt(Trim([])) == None;
    assert ParsedFields([[]]) == [] + ParsedFields([]);
  }

  /** `isUserAdmin(telegramId)`: membership in the configured list. */
  predicate IsUserAdmin(env: Option<string>, telegramId: int) {
    telegramId in GetAdminIds(env)
  }

  function ShowAll(ids: seq<nat>): (r: seq<string>)
    ensures |r| == |ids|
    ensures forall i :: 0 <= i < |r| ==> r[i] == ShowNat(ids[i])
  {
    if ids == [] then [] else [ShowNat(ids[0])] + ShowAll(ids[1..])
  }

  lemma {:induction false} ParsedFieldsShowAll(ids: seq<nat>)
    ensures ParsedFields(ShowAll(ids)) == ids
    decreases |ids|
  {
    if ids != [] {
      var fields := ShowAll(ids);
      assert fields[1..] == ShowAll(ids[1..]);
      ParseIntTrimShowNat(ids[0]);
      ParsedFieldsShowAll(ids[1..]);
      ParsedFieldsCons(fields, ids[0]);
      assert ids == [ids[0]] + ids[1..];
    }
  }

  /** One readable field at the head of the list. */
  lemma ParsedFieldsCons(fields: seq<string>, v: int)
    requires fields != [] && ParseInt(Trim(fields[0])) == Some(v)
    ensures ParsedFields(fields) == [v] + ParsedFields(fields[1..])
  {
  }

  /**
   * A list written as `ADMIN_IDS=id1,id2,...` reads back as exactly those ids,
   * in order, so `isUserAdmin` holds for exactly the listed ones.
   */
  lemma AdminIdsRoundTrip(ids: seq<nat>, telegramId: int)
    requires ids != []
    ensures GetAdminIds(Some(Join(ShowAll(ids), ','))) == ids
    ensures IsUserAdmin(Some(Join(ShowAll(ids), ',')), telegramId) <==> telegramId in ids
  {
    var fields := ShowAll(ids);
    forall i | 0 <= i < |fields| ensures ',' !in fields[i] {
      assert AllDigits(fields[i]);
      assert forall k :: 0 <= k < |fields[i]| ==> fields[i][k] != ',';
    }
    SplitJoin(fields, ',');
    ParsedFieldsShowAll(ids);
  }

  // ---------------------------------------------------------------- chunkMessage

  /** The text of `lines` with each line followed by a line break. */
  function LinesText(lines: seq<string>): string
  {
    if lines == [] then "" else lines[0] + "\n" + LinesText(lines[1..])
  }

  /** The pieces in order: `chunks.join('')`. */
  function Flatten(chunks: seq<string>): string
  {
    if chunks == [] then "" else chunks[0] + Flatten(chunks[1..])
  }

  /**
   * The untrimmed chunks the loop of `chunkMessage` produces from the current
   * chunk `cur` and the remaining `lines`: `line + '\n'` goes onto the current
   * chunk unless that would make it longer than `max`, in which case the
   * current chunk is closed (when non-empty) and the line starts the next one.
   */
  function Pack(cur: string, lines: seq<string>, max: nat): seq<string>
    decreases |lines|
  {
    if lines == [] then (if cur == "" then [] else [cur])
    else
      var piece := lines[0] + "\n";
      if |cur + piece| > max then (if cur == "" then [] else [cur]) + Pack(piece, lines[1..], max)
      else Pack(cur + piece, lines[1..], max)
  }

  function TrimAll(chunks: seq<string>): (r: seq<string>)
    ensures |r| == |chunks|
    ensures forall i :: 0 <= i < |r| ==> r[i] == Trim(chunks[i])
  {
    if chunks == [] then [] else [Trim(chunks[0])] + TrimAll(chunks[1..])
  }

  /** `chunkMessage(text, maxLength)` as a value: each packed chunk, trimmed. */
  function Chunks(text: string, maxLength: nat): seq<string>
  {
    TrimAll(Pack("", Split(text, '\n'), maxLength))
  }

  /** `chunkMessage(text, maxLength = 4096)`, with the loop of the source. */
  method ChunkMessage(text: string, maxLength: nat := 4096) returns (chunks: seq<string>)
    ensures chunks == Chunks(text, maxLength)
  {
    chunks := [];
    var current := "";
    var lines := Split(text, '\n');
    for i := 0 to |lines|
      invariant chunks + TrimAll(Pack(current, lines[i..], maxLength)) == TrimAll(Pack("", lines, maxLength))
    {
      ChunkStep(chunks, current, lines[i..], maxLength);
      assert lines[i..][1..] == lines[i + 1..];
      var piece := lines[i] + "\n";
      if |current + piece| > maxLength {
        if current != "" {
          chunks := chunks + [Trim(current)];
        }
        current := piece;
      } else {
        current := current + piece;
      }
    }
    if current != "" {
      chunks := chunks + [Trim(current)];
    }
  }

  /** One turn of the loop in `ChunkMessage` keeps the chunks still to come. */
  lemma ChunkStep(chunks: seq<string>, current: string, rest: seq<string>, max: nat)
    requires rest != []
    ensures var piece := rest[0] + "\n";
      if |current + piece| > max then
        (if current != "" then chunks + [Trim(current)] else chunks) + TrimAll(Pack(piece, rest[1..], max))
          == chunks + TrimAll(Pack(current, rest, max))
      else
        chunks + TrimAll(Pack(current + piece, rest[1..], max)) == chunks + TrimAll(Pack(current, rest, max))
  {
    var piece := rest[0] + "\n";
    PackStep(current, rest, max);
    if |current + piece| > max && current != "" {
      TrimAllAppend([current], Pack(piece, rest[1..], max));
    }
  }

  lemma PackStep(cur: string, lines: seq<string>, max: nat)
    requires lines != []
    ensures var piece := lines[0] + "\n";
      Pack(cur, lines, max) ==
        if |cur + piece| > max then (if cur == "" then [] else [cur]) + Pack(piece, lines[1..], max)
        else Pack(cur + piece, lines[1..], max)
  {
  }

  lemma {:induction false} TrimAllAppend(a: seq<string>, b: seq<string>)
    ensures TrimAll(a + b) == TrimAll(a) + TrimAll(b)
  {
  }

  lemma {:induction false} LinesTextSplit(s: string)
    ensures LinesText(Split(s, '\n')) == s + "\n"
    decreases |s|
  {
    var i := IndexOf(s, '\n');
    if i < |s| {
      var rest := s[i + 1..];
      LinesTextSplit(rest);
      LinesTextCons(s[..i], Split(rest, '\n'));
      SeqAround(s, i);
      AppendAssoc(s[..i] + "\n", rest, "\n");
    } else {
      LinesTextCons(s, []);
    }
  }

  lemma LinesTextCons(line: string, rest: seq<string>)
    ensures LinesText([line] + rest) == line + "\n" + LinesText(rest)
  {
    ConsParts(line, rest);
  }

  lemma FlattenCons(c: string, rest: seq<string>)
    ensures Flatten([c] + rest) == c + Flatten(rest)
  {
    assert ([c] + rest)[1..] == rest;
  }

  lemma {:induction false} FlattenPack(cur: string, lines: seq<string>, max: nat)
    ensures Flatten(Pack(cur, lines, max)) == cur + LinesText(lines)
    decreases |lines|
  {
    if lines != [] {
      var piece := lines[0] + "\n";
      assert LinesText(lines) == piece + LinesText(lines[1..]);
      PackStep(cur, lines, max);
      if |cur + piece| > max {
        FlattenPack(piece, lines[1..], max);
        if cur != "" {
          FlattenCons(cur, Pack(piece, lines[1..], max));
        } else {
          assert [] + Pack(piece, lines[1..], max) == Pack(piece, lines[1..], max);
        }
      } else {
        FlattenPack(cur + piece, lines[1..], max);
      }
    }
  }

  /**
   * Nothing is lost and nothing moves: the untrimmed chunks, put back together,
   * are the text with a line break after every line.
   */
  lemma ChunksKeepText(text: string, maxLength: nat)
    ensures Flatten(Pack("", Split(text, '\n'), maxLength)) == text + "\n"
    ensures Chunks(text, maxLength) == TrimAll(Pack("", Split(text, '\n'), maxLength))
  {
    FlattenPack("", Split(text, '\n'), maxLength);
    LinesTextSplit(text);
  }

  lemma {:induction false} PackStartsWith(cur: string, lines: seq<string>, max: nat)
    requires cur != ""
    ensures |Pack(cur, lines, max)| >= 1
    ensures |cur| <= |Pack(cur, lines, max)[0]| && Pack(cur, lines, max)[0][..|cur|] == cur
    decreases |lines|
  {
    if lines != [] {
      var piece := lines[0] + "\n";
      if |cur + piece| <= max {
        PackStartsWith(cur + piece, lines[1..], max);
        assert Pack(cur, lines, max)[0][..|cur + piece|][..|cur|] == cur;
      }
    }
  }

  /**
   * Each chunk after the first holds a line break, and each chunk followed by
   * the first line of the next chunk and its line break is longer than `max`.
   */
  predicate Maximal(r: seq<string>, max: nat) {
    forall k :: 1 <= k < |r| ==>
      IndexOf(r[k], '\n') < |r[k]| && |r[k - 1]| + IndexOf(r[k], '\n') + 1 > max
  }

  lemma MaximalCons(c: string, tail: seq<string>, max: nat)
    requires Maximal(tail, max)
    requires tail != [] ==> IndexOf(tail[0], '\n') < |tail[0]| && |c| + IndexOf(tail[0], '\n') + 1 > max
    ensures Maximal([c] + tail, max)
  {
    var r := [c] + tail;
    forall k | 1 <= k < |r| ensures IndexOf(r[k], '\n') < |r[k]| && |r[k - 1]| + IndexOf(r[k], '\n') + 1 > max {
      assert r[k] == tail[k - 1];
      if k > 1 {
        assert r[k - 1] == tail[k - 2];
      }
    }
  }

  /** A chunk opened by a line runs to that line's break before anything else. */
  lemma PackFirstLine(line: string, rest: seq<string>, max: nat)
    requires '\n' !in line
    ensures var t := Pack(line + "\n", rest, max);
      |t| >= 1 && IndexOf(t[0], '\n') == |line| && |line| < |t[0]|
  {
    var piece := line + "\n";
    PackStartsWith(piece, rest, max);
    var next := Pack(piece, rest, max)[0];
    assert next == line + "\n" + next[|piece|..] by {
      assert next[..|piece|] == piece;
    }
    IndexOfPrefix(line, '\n', next[|piece|..]);
  }

  /** A new chunk starts only when it has to. */
  lemma {:induction false} PackMaximal(cur: string, lines: seq<string>, max: nat)
    requires forall i :: 0 <= i < |lines| ==> '\n' !in lines[i]
    ensures Maximal(Pack(cur, lines, max), max)
    decreases |lines|
  {
    if lines != [] {
      var piece := lines[0] + "\n";
      PackStep(cur, lines, max);
      if |cur + piece| > max {
        var tail := Pack(piece, lines[1..], max);
        PackMaximal(piece, lines[1..], max);
        if cur != "" {
          PackFirstLine(lines[0], lines[1..], max);
          assert |cur + piece| == |cur| + |lines[0]| + 1;
          MaximalCons(cur, tail, max);
        } else {
          assert [] + tail == tail;
        }
      } else {
        PackMaximal(cur + piece, lines[1..], max);
      }
    }
  }

  /** The maximality of the chunks of a message. */
  lemma ChunksMaximal(text: string, maxLength: nat)
    ensures var r := Pack("", Split(text, '\n'), maxLength);
      forall k :: 1 <= k < |r| ==>
        IndexOf(r[k], '\n') < |r[k]| && |r[k - 1]| + IndexOf(r[k], '\n') + 1 > maxLength
  {
    PackMaximal("", Split(text, '\n'), maxLength);
  }

  lemma {:induction false} PackBounded(cur: string, lines: seq<string>, max: nat)
    requires |cur| <= max
    requires forall i :: 0 <= i < |lines| ==> |lines[i]| + 1 <= max
    ensures forall k :: 0 <= k < |Pack(cur, lines, max)| ==> |Pack(cur, lines, max)[k]| <= max
    decreases |lines|
  {
    if lines != [] {
      var piece := lines[0] + "\n";
      if |cur + piece| > max {
        PackBounded(piece, lines[1..], max);
      } else {
        PackBounded(cur + piece, lines[1..], max);
      }
    }
  }

  /** When every line and its break fit, every chunk fits. */
  lemma ChunksBounded(text: string, maxLength: nat)
    requires forall i :: 0 <= i < |Split(text, '\n')| ==> |Split(text, '\n')[i]| + 1 <= maxLength
    ensures forall k :: 0 <= k < |Chunks(text, maxLength)| ==> |Chunks(text, maxLength)[k]| <= maxLength
  {
    PackBounded("", Split(text, '\n'), maxLength);
  }

  lemma {:induction false} LinesTextLength(lines: seq<string>, i: nat)
    requires i < |lines|
    ensures |lines[i]| + 1 <= |LinesText(lines)|
    decreases |lines|
  {
    if i > 0 {
      LinesTextLength(lines[1..], i - 1);
    }
  }

  lemma {:induction false} PackAllFits(cur: string, lines: seq<string>, max: nat)
    requires |cur + LinesText(lines)| <= max
    ensures Pack(cur, lines, max) == if cur + LinesText(lines) == "" then [] else [cur + LinesText(lines)]
    decreases |lines|
  {
    if lines != [] {
      var piece := lines[0] + "\n";
      assert cur + LinesText(lines) == (cur + piece) + LinesText(lines[1..]);
      assert |cur + piece| <= max;
      PackStep(cur, lines, max);
      PackAllFits(cur + piece, lines[1..], max);
      assert cur + piece != "";
    } else {
      assert cur + LinesText(lines) == cur;
    }
  }

  /** A message that fits, with a break after it, is sent as one chunk: the trimmed text. */
  lemma ChunksOfShortText(text: string, maxLength: nat)
    requires |text| + 1 <= maxLength
    ensures Chunks(text, maxLength) == [Trim(text)]
  {
    LinesTextSplit(text);
    PackAllFits("", Split(text, '\n'), maxLength);
    assert "" + LinesText(Split(text, '\n')) == text + "\n";
    TrimDropsTrailingNewline(text);
  }
}

=== FILE: Middlewares.dfy ===
/**
 * The admission gates run before the handlers (src/middlewares/): the
 * account lookup that keeps the admin flag in step with `ADMIN_IDS`, the
 * admin-only gate, and the required-channel check.
 */
module Middlewares {
  import opened Wrappers
  import opened Models
  import opened Collections
  import opened Helpers
  import opened ChannelService
  import opened UserService

  /** `ctx.from`: the Telegram sender of an update. */
  datatype Sender = Sender(id: int, username: Option<string>, firstName: Option<string>)

  /** `ctx.from?.id`, with `None` for an update without a sender. */
  function SenderId(from: Option<Sender>): Option<int> {
    if from.None? then None else Some(from.value.id)
  }

  /** Where a middleware leaves the update: stopped, or passed to `next` with `ctx.user` (if any). */
  datatype Auth = Stop | NeedsRegistration | Next(user: User)

  // ------------------------------------------------------------------ ensureUser

  /**
   * `ensureUser(ctx, next)`. A missing (or zero) sender id stops silently; an
   * unknown sender is marked for registration and stopped; a known one has
   * its admin flag set from `ADMIN_IDS` (saved only when it changed) and is
   * passed on. A save the schema rejects is caught, and `next` still runs with
   * the flag changed in memory only.
   */
  function EnsureUser(s: Store, from: Option<int>, env: Option<string>): (r: (Store, Auth))
    ensures from.None? || from == Some(0) ==> r == (s, Stop)
    ensures from.Some? && from.value != 0 && s.FindByTelegram(from.value).None? ==> r == (s, NeedsRegistration)
    ensures from.Some? && from.value != 0 && s.FindByTelegram(from.value).Some? ==> r.1.Next?
    ensures r.1.Next? ==>
      var id := s.FindByTelegram(from.value).value;
      && r.1.user == s.users[id].(isAdmin := IsUserAdmin(env, from.value))
      && (r.0 == s || r.0 == s.WithUser(id, r.1.user))
      && (s.users[id].isAdmin == IsUserAdmin(env, from.value) ==> r.0 == s)
  {
    if from.None? || from.value == 0 then (s, Stop)
    else match s.FindByTelegram(from.value)
      case None => (s, NeedsRegistration)
      case Some(id) =>
        var shouldBeAdmin := IsUserAdmin(env, from.value);
        var u := s.users[id].(isAdmin := shouldBeAdmin);
        if s.users[id].isAdmin == shouldBeAdmin then (s, Next(u))
        else if ValidUser(u) then (s.WithUser(id, u), Next(u))
        else (s, Next(u))
  }

  /**
   * On a store whose records are valid, the sync sticks: afterwards the stored
   * flag is the configured one, a second pass changes nothing, and the ledger
   * and schemas still hold.
   */
  lemma EnsureUserSyncs(s: Store, telegramId: int, env: Option<string>)
    requires SchemaValid(s) && Ledgered(s)
    requires telegramId != 0 && s.FindByTelegram(telegramId).Some?
    ensures var (t, a) := EnsureUser(s, Some(telegramId), env);
      var id := s.FindByTelegram(telegramId).value;
      && t.FindByTelegram(telegramId) == Some(id)
      && t.users[id] == a.user
      && t.users[id].isAdmin == IsUserAdmin(env, telegramId)
      && EnsureUser(t, Some(telegramId), env) == (t, a)
      && SchemaValid(t) && Ledgered(t)
  {
    var id := s.FindByTelegram(telegramId).value;
    var shouldBeAdmin := IsUserAdmin(env, telegramId);
    var u := s.users[id].(isAdmin := shouldBeAdmin);
    if s.users[id].isAdmin != shouldBeAdmin {
      assert ValidUser(s.users[id]);
      FlagChangeKeepsStore(s, id, shouldBeAdmin);
    }
    var t := EnsureUser(s, Some(telegramId), env).0;
    assert t.users[id] == u;
  }

  /** Setting a user's admin flag keeps the invariants and the lookup by Telegram id. */
  lemma FlagChangeKeepsStore(s: Store, id: UserId, makeAdmin: bool)
    requires SchemaValid(s) && Ledgered(s) && id < |s.users|
    requires s.FindByTelegram(s.users[id].telegramId) == Some(id)
    ensures var t := s.WithUser(id, s.users[id].(isAdmin := makeAdmin));
      SchemaValid(t) && Ledgered(t) && t.FindByTelegram(s.users[id].telegramId) == Some(id)
  {
    ToggleAdminPreservesLedger(s, id, makeAdmin);
    var t := s.WithUser(id, s.users[id].(isAdmin := makeAdmin));
    assert forall j :: 0 <= j < id ==> t.users[j] == s.users[j];
    FindFirst(t, id, s.users[id].telegramId);
  }

  // ------------------------------------------------------------------ getOrCreateUser

  /**
   * `getOrCreateUser(ctx)`: `None` (null) without a sender id; the stored user
   * unchanged if there is one; otherwise a new user with the Telegram username
   * (an empty one counts as none), the first name or 'Foydalanuvchi', and the
   * admin flag from `ADMIN_IDS`.
   */
  function GetOrCreateUser(s: Store, from: Option<Sender>, env: Option<string>): (r: (Store, Option<User>))
    ensures from.None? || from.value.id == 0 ==> r == (s, None)
    ensures from.Some? && from.value.id != 0 && s.FindByTelegram(from.value.id).Some? ==>
      r == (s, Some(s.users[s.FindByTelegram(from.value.id).value]))
    ensures from.Some? && from.value.id != 0 && s.FindByTelegram(from.value.id).None? ==>
      && r.1.Some?
      && r.0 == s.(users := s.users + [r.1.value])
      && r.1.value.telegramId == from.value.id
      && r.1.value.points == 0 && r.1.value.phone == None
      && r.1.value.isAdmin == IsUserAdmin(env, from.value.id)
      && r.1.value.name == (if from.value.firstName.Some? && from.value.firstName.value != [] then from.value.firstName.value else "Foydalanuvchi")
      && (r.1.value.username.Some? <==> from.value.username.Some? && from.value.username.value != [])
      && (r.1.value.username.Some? ==> r.1.value.username == from.value.username)
  {
    if from.None? || from.value.id == 0 then (s, None)
    else match s.FindByTelegram(from.value.id)
      case Some(id) => (s, Some(s.users[id]))
      case None =>
        var f := from.value;
        var username := if f.username.Some? && f.username.value != [] then f.username else None;
        var name := if f.firstName.Some? && f.firstName.value != [] then f.firstName.value else "Foydalanuvchi";
        var u := NewUser(f.id, username, name, IsUserAdmin(env, f.id));
        (s.(users := s.users + [u]), Some(u))
  }

  /**
   * Creating the user keeps the ledger (the newcomer has 0 points and no
   * history) and the schemas, and a second call finds the same user and
   * changes nothing.
   */
  lemma GetOrCreateUserOnce(s: Store, from: Sender, env: Option<string>)
    requires SchemaValid(s) && Ledgered(s)
    requires from.id != 0
    ensures var (t, u) := GetOrCreateUser(s, Some(from), env);
      && SchemaValid(t) && Ledgered(t)
      && GetOrCreateUser(t, Some(from), env) == (t, u)
  {
    if s.FindByTelegram(from.id).None? {
      AddUserStep(s, GetOrCreateUser(s, Some(from), env).1.value);
    }
  }

  // ------------------------------------------------------------------ isAdmin

  /** What the admin gate does: call `next`, or reply and stop. */
  datatype Gate = Admit | Refuse(message: string)

  /** `isAdmin(ctx, next)`, given `ctx.user`. */
  function IsAdmin(user: Option<User>): (r: Gate)
    ensures r.Admit? <==> user.Some? && user.value.isAdmin
    ensures user.None? ==> r == Refuse("❌ Avval ro'yxatdan o'ting: /start")
    ensures user.Some? && !user.value.isAdmin ==> r == Refuse("❌ Bu funksiya faqat adminlar uchun!")
  {
    if user.None? then Refuse("❌ Avval ro'yxatdan o'ting: /start")
    else if !user.value.isAdmin then Refuse("❌ Bu funksiya faqat adminlar uchun!")
    else Admit
  }

  /** Behind `ensureUser`, the admin gate admits exactly the senders listed in `ADMIN_IDS`. */
  lemma AdminGateFollowsEnv(s: Store, telegramId: int, env: Option<string>)
    requires telegramId != 0 && s.FindByTelegram(telegramId).Some?
    ensures EnsureUser(s, Some(telegramId), env).1.Next?
    ensures IsAdmin(Some(EnsureUser(s, Some(telegramId), env).1.user)).Admit? <==> IsUserAdmin(env, telegramId)
  {
  }

  // ------------------------------------------------------------------ checkChannelSubscription

  /** What `getChatMember(channelId, telegramId)` reports: `Some(status)`, or `None` when it throws. */
  type MemberLookup = (string, int) -> Option<string>

  /** A required channel the middleware holds against the user: a status was read and it is not a member status. */
  predicate Unjoined(c: Registered, telegramId: int, lookup: MemberLookup) {
    var st := lookup(c.channel.channelId, telegramId);
    st.Some? && st.value !in MemberStatuses
  }

  /** The required channels, in order, that the user has not joined. */
  function UnsubscribedChannels(channels: seq<Registered>, telegramId: int, lookup: MemberLookup): (r: seq<Registered>)
    ensures forall c :: c in r <==> c in channels && Unjoined(c, telegramId, lookup)
  {
    var r := Filter(channels, c => Unjoined(c, telegramId, lookup));
    forall c ensures c in r <==> c in channels && Unjoined(c, telegramId, lookup) {
      FilterMembers(channels, c => Unjoined(c, telegramId, lookup), c);
    }
    r
  }

  /** The channel gate's decision: call `next`, or show the channels still to join. */
  datatype ChannelGate = Pass | Block(unsubscribed: seq<Registered>)

  /**
   * `checkChannelSubscription(ctx, next)`. No user, no required channels, or
   * every required channel joined: `next`. Otherwise the list is sent and the
   * update stops there, unless sending it throws (`replySent` false), in which
   * case the catch calls `next`.
   */
  function CheckChannelSubscription(s: Store, user: Option<User>, lookup: MemberLookup,
                                    replySent: bool): (r: ChannelGate)
    ensures user.None? ==> r == Pass
    ensures GetRequiredChannels(s) == [] ==> r == Pass
    ensures r.Block? <==>
      user.Some? && replySent && UnsubscribedChannels(GetRequiredChannels(s), user.value.telegramId, lookup) != []
    ensures r.Block? ==>
      && r.unsubscribed == UnsubscribedChannels(GetRequiredChannels(s), user.value.telegramId, lookup)
      && forall c :: c in r.unsubscribed <==>
           c in Registry(s) && c.channel.isRequired && Unjoined(c, user.value.telegramId, lookup)
  {
    if user.None? then Pass
    else
      var required := GetRequiredChannels(s);
      if required == [] then Pass
      else
        var unsubscribed := UnsubscribedChannels(required, user.value.telegramId, lookup);
        if unsubscribed != [] && replySent then Block(unsubscribed) else Pass
  }

  /**
   * The middleware and `checkUserSubscription` disagree on exactly one case: a
   * lookup that throws. The service reads it as not joined; the middleware
   * lets the user through.
   */
  lemma GateAndServiceDisagreeOnErrors(c: Registered, telegramId: int, lookup: MemberLookup)
    ensures var st := lookup(c.channel.channelId, telegramId);
      && (st.Some? ==> (Unjoined(c, telegramId, lookup) <==> !CheckUserSubscription(st)))
      && (st.None? ==> !Unjoined(c, telegramId, lookup) && !CheckUserSubscription(st))
  {
  }
}

=== FILE: Models.dfy ===
/**
 * The four record collections of the bot (users, rewards, user rewards,
 * points history) and the channel list, with the constraints and defaults the
 * Mongoose schemas put on each record.
 *
 * Document ids (`_id`) are positions: a user's id is its index in `users`,
 * and so on. Users, user rewards and history entries are never deleted;
 * a deleted reward or channel leaves a `None` in its slot so that ids stay
 * stable.
 */
module Models {
  import opened Wrappers
  import opened Strings

  type UserId = nat
  type RewardId = nat
  type ClaimId = nat
  type ChannelKey = nat

  /** A point in time, as the store's clock reports it. */
  type Time = int

  /** `User` (src/models/User.js); `telegramId` is kept as the number Telegram sends. */
  datatype User = User(
    telegramId: int,
    username: Option<string>,
    name: string,
    phone: Option<string>,
    points: int,
    isAdmin: bool
  )

  /** The stock value that means "never runs out". */
  const Unlimited: int := -1

  /** `Reward` (src/models/Reward.js). */
  datatype Reward = Reward(
    title: string,
    description: string,
    costPoints: int,
    stock: int,
    imageFileId: Option<string>,
    isActive: bool
  )

  /** `UserReward.status`: exactly the three values of the schema's enum. */
  datatype Status = Claimed | Delivered | Cancelled

  /** `UserReward` (src/models/UserReward.js). */
  datatype Claim = Claim(
    userId: UserId,
    rewardId: RewardId,
    status: Status,
    claimedAt: Time,
    deliveredAt: Option<Time>
  )

  /**
   * `PointsHistory` (src/models/PointsHistory.js). `adminId` holds whatever
   * actor id the caller passed: a user `_id` from the controllers, a Telegram
   * id from the admin service.
   */
  datatype HistoryEntry = HistoryEntry(
    userId: UserId,
    amount: int,
    reason: string,
    adminId: Option<int>,
    date: Time
  )

  /** `Channel` (src/models/Channel.js). */
  datatype Channel = Channel(
    title: string,
    link: string,
    channelId: string,
    isRequired: bool,
    createdAt: Time
  )

  /** The errors the services throw (or report), one constructor per distinct message. */
  datatype Error =
    | UserNotFound        // 'Foydalanuvchi topilmadi' / 'User not found'
    | NegativeBalance     // 'Ballar manfiy bo'lishi mumkin emas'
    | InsufficientBalance // 'Insufficient balance' (admin service)
    | RewardUnavailable   // 'Mukofot mavjud emas yoki faol emas'
    | OutOfStock          // 'Mukofot tugagan'
    | InsufficientPoints  // 'Yetarli ball yo'q'
    | RewardNotFound      // 'Mukofot topilmadi' / 'Reward not found'
    | ClaimNotFound       // 'Mukofot topilmadi' (user reward)
    | ChannelNotFound     // 'Kanal topilmadi'
    | ValidationFailed    // a schema validator rejected the document
    | DuplicateKey        // a unique index rejected the document
    | CastFailed          // an id string that is not an ObjectId
    | WriteFailed         // a write inside a transaction failed for reasons outside the model

  // ------------------------------------------------------------ schema rules
  // Mongoose's `required` rejects `null`, `undefined` and the empty string.

  /** `User` schema: `name` and `telegramId` required, `points` at least 0. */
  predicate ValidUser(u: User) {
    u.name != [] && u.points >= 0
  }

  /** `Reward` schema: title and description required, `costPoints >= 0`, `stock >= -1`. */
  predicate ValidReward(r: Reward) {
    r.title != [] && r.description != [] && r.costPoints >= 0 && r.stock >= Unlimited
  }

  /** `PointsHistory` schema: `reason` required. */
  predicate ValidEntry(e: HistoryEntry) {
    e.reason != []
  }

  /** `Channel` schema: title, link and channelId required. */
  predicate ValidChannel(c: Channel) {
    c.title != [] && c.link != [] && c.channelId != []
  }

  /** Whether a reward's stock blocks a claim: finite and not positive. */
  predicate SoldOut(r: Reward) {
    r.stock != Unlimited && r.stock <= 0
  }

  // ------------------------------------------------------------ defaults

  /** A user document as `new User({...})` fills it: no phone, 0 points. */
  function NewUser(telegramId: int, username: Option<string>, name: string, isAdmin: bool): (u: User)
    ensures u.points == 0 && u.phone == None
    ensures u.telegramId == telegramId && u.name == name && u.isAdmin == isAdmin
  {
    User(telegramId, username, name, None, 0, isAdmin)
  }

  /** A user reward as the services create it: `claimed`, claimed now, not delivered. */
  function NewClaim(userId: UserId, rewardId: RewardId, now: Time): (c: Claim)
    ensures c.status == Claimed && c.deliveredAt == None && c.claimedAt == now
    ensures c.userId == userId && c.rewardId == rewardId
  {
    Claim(userId, rewardId, Claimed, now, None)
  }

  // ------------------------------------------------------------ the store

  datatype Store = Store(
    users: seq<User>,
    rewards: seq<Option<Reward>>,
    claims: seq<Claim>,
    history: seq<HistoryEntry>,
    channels: seq<Option<Channel>>
  ) {

    predicate HasUser(id: UserId) {
      id < |users|
    }

    predicate HasReward(id: RewardId) {
      id < |rewards| && rewards[id].Some?
    }

    function RewardAt(id: RewardId): Reward
      requires HasReward(id)
    {
      rewards[id].value
    }

    /** `Reward.findById(id)`. */
    function FindReward(id: RewardId): (r: Option<Reward>)
      ensures r.Some? <==> HasReward(id)
    {
      if HasReward(id) then rewards[id] else None
    }

    /** `User.findOne({ telegramId })`: the first user with that Telegram id. */
    function FindByTelegram(telegramId: int): (r: Option<UserId>)
      ensures r.Some? ==> r.value < |users| && users[r.value].telegramId == telegramId
      ensures r.Some? ==> forall j :: 0 <= j < r.value ==> users[j].telegramId != telegramId
      ensures r.None? ==> forall j :: 0 <= j < |users| ==> users[j].telegramId != telegramId
    {
      FindFrom(users, telegramId, 0)
    }

    /** Replace user `id` by `u`. */
    function WithUser(id: UserId, u: User): (s: Store)
      requires HasUser(id)
      ensures s.users == users[id := u]
      ensures s.rewards == rewards && s.claims == claims && s.history == history && s.channels == channels
    {
      this.(users := users[id := u])
    }
  }

  function FindFrom(users: seq<User>, telegramId: int, from: nat): (r: Option<UserId>)
    requires from <= |users|
    requires forall j :: 0 <= j < from ==> users[j].telegramId != telegramId
    ensures r.Some? ==> from <= r.value < |users| && users[r.value].telegramId == telegramId
    ensures r.Some? ==> forall j :: 0 <= j < r.value ==> users[j].telegramId != telegramId
    ensures r.None? ==> forall j :: 0 <= j < |users| ==> users[j].telegramId != telegramId
    decreases |users| - from
  {
    if from == |users| then None
    else if users[from].telegramId == telegramId then Some(from)
    else FindFrom(users, telegramId, from + 1)
  }

  // ------------------------------------------------------------ ObjectId text

  function Pow(b: nat, e: nat): (r: nat)
    ensures r >= 1 || b == 0
  {
    if e == 0 then 1 else b * Pow(b, e - 1)
  }

  /** Ids are 12-byte ObjectIds: every id is below 16^24. */
  const IdSpace: nat := Pow(16, 24)

  predicate IsHexDigit(c: char) {
    IsDigit(c) || 'a' <= c <= 'f' || 'A' <= c <= 'F'
  }

  function HexValue(c: char): (v: nat)
    requires IsHexDigit(c)
    ensures v < 16
  {
    if IsDigit(c) then DigitValue(c)
    else if 'a' <= c <= 'f' then (c as int) - ('a' as int) + 10
    else (c as int) - ('A' as int) + 10
  }

  function HexChar(d: nat): (c: char)
    requires d < 16
    ensures IsHexDigit(c) && HexValue(c) == d
  {
    if d < 10 then '0' + (d as char) else 'a' + ((d - 10) as char)
  }

  /** The value of a string of hexadecimal digits. */
  function HexDigitsValue(t: string): nat
    requires forall i :: 0 <= i < |t| ==> IsHexDigit(t[i])
  {
    if t == [] then 0 else HexDigitsValue(t[..|t| - 1]) * 16 + HexValue(t[|t| - 1])
  }

  /** `n` in exactly `width` lower-case hexadecimal digits. */
  function HexFixed(n: nat, width: nat): (t: string)
    ensures |t| == width
    ensures forall i :: 0 <= i < |t| ==> IsHexDigit(t[i])
  {
    if width == 0 then "" else HexFixed(n / 16, width - 1) + [HexChar(n % 16)]
  }

  lemma {:induction false} HexFixedValue(n: nat, width: nat)
    requires n < Pow(16, width)
    ensures HexDigitsValue(HexFixed(n, width)) == n
    decreases width
  {
    if width > 0 {
      HexFixedValue(n / 16, width - 1);
      var t := HexFixed(n, width);
      assert t[..|t| - 1] == HexFixed(n / 16, width - 1);
    }
  }

  /** `String(id)` for an ObjectId: its 24 hexadecimal digits. */
  function IdText(id: nat): (t: string)
    requires id < IdSpace
    ensures |t| == 24
    ensures forall i :: 0 <= i < |t| ==> IsHexDigit(t[i])
  {
    HexFixed(id, 24)
  }

  /**
   * Casting text to an ObjectId, as a query or a document field does: exactly
   * 24 hexadecimal digits, or a cast error (`None`).
   */
  function CastId(t: string): (r: Option<nat>)
    ensures r.Some? ==> |t| == 24 && r.value < IdSpace
  {
    if |t| == 24 && forall i :: 0 <= i < |t| ==> IsHexDigit(t[i]) then
      HexDigitsBound(t);
      Some(HexDigitsValue(t))
    else None
  }

  lemma {:induction false} HexDigitsBound(t: string)
    requires forall i :: 0 <= i < |t| ==> IsHexDigit(t[i])
    ensures HexDigitsValue(t) < Pow(16, |t|)
    decreases |t|
  {
    if t != [] {
      HexDigitsBound(t[..|t| - 1]);
    }
  }

  /** An id written out casts back to itself. */
  lemma CastIdText(id: nat)
    requires id < IdSpace
    ensures CastId(IdText(id)) == Some(id)
  {
    HexFixedValue(id, 24);
  }

  /**
   * Casting a JavaScript number to an ObjectId goes through `String(n)`, which
   * for a magnitude below 10^21 is the decimal form and otherwise the exponent
   * form ("1e+21"), never 24 hexadecimal digits.
   */
  function NumberToObjectId(n: int): Option<nat>
  {
    if -n < ExponentFrom && n < ExponentFrom then CastId(ShowInt(n)) else None
  }

  /** 10^21, the magnitude from which `String(n)` switches to the exponent form. */
  const ExponentFrom: nat := 1_000_000_000_000_000_000_000

  lemma ExponentFromIsPow()
    ensures ExponentFrom == Pow(10, 21)
  {
    assert Pow(10, 7) == 10_000_000;
    assert Pow(10, 14) == 100_000_000_000_000;
  }

  lemma {:induction false} ShowNatShort(m: nat, k: nat)
    requires 1 <= k && m < Pow(10, k)
    ensures |ShowNat(m)| <= k
    decreases k
  {
    if m >= 10 {
      ShowNatShort(m / 10, k - 1);
    }
  }

  /** No number casts to an ObjectId: its decimal text is at most 22 characters long. */
  lemma NoNumberIsAnObjectId(n: int)
    ensures NumberToObjectId(n) == None
  {
    if -n < ExponentFrom && n < ExponentFrom {
      ExponentFromIsPow();
      if n < 0 {
        ShowNatShort(-n, 21);
      } else {
        ShowNatShort(n, 21);
      }
    }
  }

  const EmptyStore: Store := Store([], [], [], [], [])

  /** Every record in the store satisfies its schema, and Telegram ids are unique. */
  predicate SchemaValid(s: Store) {
    && (forall i :: 0 <= i < |s.users| ==> ValidUser(s.users[i]))
    && (forall i, j :: 0 <= i < j < |s.users| ==> s.users[i].telegramId != s.users[j].telegramId)
    && (forall i :: 0 <= i < |s.rewards| && s.rewards[i].Some? ==> ValidReward(s.rewards[i].value))
    && (forall i :: 0 <= i < |s.history| ==> ValidEntry(s.history[i]))
  }

  // ------------------------------------------------------------ the ledger

  /** The sum of the history amounts recorded for `id`. */
  function Balance(h: seq<HistoryEntry>, id: UserId): int
  {
    if h == [] then 0
    else Balance(h[..|h| - 1], id) + (if h[|h| - 1].userId == id then h[|h| - 1].amount else 0)
  }

  lemma BalanceAppend(h: seq<HistoryEntry>, e: HistoryEntry, id: UserId)
    ensures Balance(h + [e], id) == Balance(h, id) + (if e.userId == id then e.amount else 0)
  {
    assert (h + [e])[..|h|] == h;
  }

  /** A user nobody wrote history for has a zero balance. */
  lemma {:induction false} BalanceUnmentioned(h: seq<HistoryEntry>, id: UserId)
    requires forall k :: 0 <= k < |h| ==> h[k].userId != id
    ensures Balance(h, id) == 0
  {
    if h != [] {
      BalanceUnmentioned(h[..|h| - 1], id);
    }
  }

  /**
   * The ledger invariant: every balance is non-negative and equals the sum of
   * that user's history, and no history entry names a user that does not exist.
   */
  predicate Ledgered(s: Store) {
    && (forall i :: 0 <= i < |s.users| ==> s.users[i].points >= 0)
    && (forall i :: 0 <= i < |s.users| ==> s.users[i].points == Balance(s.history, i))
    && (forall k :: 0 <= k < |s.history| ==> s.history[k].userId < |s.users|)
  }

  /** `User.aggregate([{ $group: { _id: null, total: { $sum: '$points' } } }])`, 0 for no users. */
  function TotalPoints(users: seq<User>): int
  {
    if users == [] then 0 else TotalPoints(users[..|users| - 1]) + users[|users| - 1].points
  }

  /** The sum of every history amount. */
  function HistoryTotal(h: seq<HistoryEntry>): int
  {
    if h == [] then 0 else HistoryTotal(h[..|h| - 1]) + h[|h| - 1].amount
  }

  /** The balances of users `0 .. n-1` added up. */
  function BalancesBelow(h: seq<HistoryEntry>, n: nat): int
  {
    if n == 0 then 0 else BalancesBelow(h, n - 1) + Balance(h, n - 1)
  }

  lemma {:induction false} BalancesBelowAppend(h: seq<HistoryEntry>, e: HistoryEntry, n: nat)
    ensures BalancesBelow(h + [e], n) == BalancesBelow(h, n) + (if e.userId < n then e.amount else 0)
    decreases n
  {
    if n > 0 {
      BalancesBelowAppend(h, e, n - 1);
      BalanceAppend(h, e, n - 1);
    }
  }

  lemma {:induction false} BalancesBelowTotal(h: seq<HistoryEntry>, n: nat)
    requires forall k :: 0 <= k < |h| ==> h[k].userId < n
    ensures BalancesBelow(h, n) == HistoryTotal(h)
    decreases |h|
  {
    if h == [] {
      BalancesBelowEmpty(n);
    } else {
      var h' := h[..|h| - 1];
      BalancesBelowTotal(h', n);
      BalancesBelowAppend(h', h[|h| - 1], n);
      assert h' + [h[|h| - 1]] == h;
    }
  }

  lemma {:induction false} BalancesBelowEmpty(n: nat)
    ensures BalancesBelow([], n) == 0
    decreases n
  {
    if n > 0 {
      BalancesBelowEmpty(n - 1);
    }
  }

  lemma {:induction false} TotalPointsIsBalances(users: seq<User>, h: seq<HistoryEntry>)
    requires forall i :: 0 <= i < |users| ==> users[i].points == Balance(h, i)
    ensures TotalPoints(users) == BalancesBelow(h, |users|)
    decreases |users|
  {
    if users != [] {
      TotalPointsIsBalances(users[..|users| - 1], h);
    }
  }

  /**
   * Under the ledger invariant the points in circulation are exactly what the
   * history has granted minus what it has taken.
   */
  lemma TotalPointsIsHistoryTotal(s: Store)
    requires Ledgered(s)
    ensures TotalPoints(s.users) == HistoryTotal(s.history)
  {
    TotalPointsIsBalances(s.users, s.history);
    BalancesBelowTotal(s.history, |s.users|);
  }

  lemma EmptyStoreIsConsistent()
    ensures SchemaValid(EmptyStore) && Ledgered(EmptyStore)
  {
  }

  /** The store after posting `e`: its user's balance moves by `e.amount` and `e` is appended to the history. */
  function Posted(s: Store, e: HistoryEntry): (t: Store)
    requires s.HasUser(e.userId)
    ensures t.users == s.users[e.userId := s.users[e.userId].(points := s.users[e.userId].points + e.amount)]
    ensures t.history == s.history + [e]
    ensures t.rewards == s.rewards && t.claims == s.claims && t.channels == s.channels
  {
    s.WithUser(e.userId, s.users[e.userId].(points := s.users[e.userId].points + e.amount)).(history := s.history + [e])
  }

  /** Posting an entry whose amount keeps its user's balance non-negative keeps the ledger invariant. */
  lemma LedgerStep(s: Store, e: HistoryEntry)
    requires Ledgered(s) && s.HasUser(e.userId)
    requires s.users[e.userId].points + e.amount >= 0
    ensures Ledgered(Posted(s, e))
  {
    var t := Posted(s, e);
    forall i | 0 <= i < |t.users|
      ensures t.users[i].points == Balance(t.history, i)
    {
      BalanceAppend(s.history, e, i);
    }
  }

  /** The same posting keeps every record valid when the entry is valid. */
  lemma SchemaStep(s: Store, e: HistoryEntry)
    requires SchemaValid(s) && s.HasUser(e.userId) && ValidEntry(e)
    requires s.users[e.userId].points + e.amount >= 0
    ensures SchemaValid(Posted(s, e))
  {
    var t := Posted(s, e);
    forall i | 0 <= i < |t.users| ensures ValidUser(t.users[i]) {
      if i != e.userId { assert t.users[i] == s.users[i]; }
    }
    forall i, j | 0 <= i < j < |t.users| ensures t.users[i].telegramId != t.users[j].telegramId {
      assert t.users[i].telegramId == s.users[i].telegramId;
      assert t.users[j].telegramId == s.users[j].telegramId;
    }
    forall k | 0 <= k < |t.history| ensures ValidEntry(t.history[k]) {
      if k < |s.history| { assert t.history[k] == s.history[k]; }
    }
  }

  /** The invariants read only users, rewards and history. */
  lemma SameRecords(s: Store, t: Store)
    requires t.users == s.users && t.rewards == s.rewards && t.history == s.history
    ensures Ledgered(t) == Ledgered(s) && SchemaValid(t) == SchemaValid(s)
  {
  }

  /** Replacing one stored reward by a valid one keeps both invariants. */
  lemma RewardStep(s: Store, id: RewardId, rw: Reward)
    requires Ledgered(s) && SchemaValid(s)
    requires id < |s.rewards| && ValidReward(rw)
    ensures Ledgered(s.(rewards := s.rewards[id := Some(rw)]))
    ensures SchemaValid(s.(rewards := s.rewards[id := Some(rw)]))
  {
  }

  /** The lookup by Telegram id finds the first user with that id. */
  lemma FindFirst(s: Store, id: UserId, telegramId: int)
    requires id < |s.users| && s.users[id].telegramId == telegramId
    requires forall j :: 0 <= j < id ==> s.users[j].telegramId != telegramId
    ensures s.FindByTelegram(telegramId) == Some(id)
  {
  }

  /** Changing users without touching their Telegram ids leaves every lookup by Telegram id as it was. */
  lemma SameTelegramIds(s: Store, t: Store, telegramId: int)
    requires |s.users| == |t.users|
    requires forall i :: 0 <= i < |s.users| ==> s.users[i].telegramId == t.users[i].telegramId
    ensures t.FindByTelegram(telegramId) == s.FindByTelegram(telegramId)
  {
    match s.FindByTelegram(telegramId)
    case Some(k) => FindFirst(t, k, telegramId);
    case None =>
  }

  /**
   * Registering a newcomer with no points under an unused Telegram id keeps
   * the ledger and the schemas, and the lookup finds the newcomer.
   */
  lemma AddUserStep(s: Store, u: User)
    requires Ledgered(s) && SchemaValid(s)
    requires ValidUser(u) && u.points == 0
    requires s.FindByTelegram(u.telegramId).None?
    ensures Ledgered(s.(users := s.users + [u])) && SchemaValid(s.(users := s.users + [u]))
    ensures s.(users := s.users + [u]).FindByTelegram(u.telegramId) == Some(|s.users|)
  {
    var t := s.(users := s.users + [u]);
    BalanceUnmentioned(s.history, |s.users|);
    assert forall i :: 0 <= i < |s.users| ==> t.users[i] == s.users[i];
    FindFirst(t, |s.users|, u.telegramId);
  }
}

=== FILE: RewardService.dfy ===
/**
 * The reward service (src/services/rewardService.js): the catalogue, the
 * user's claim of a reward, and the administrator's grant and cancellation.
 */
module RewardService {
  import opened Wrappers
  import opened Models
  import opened Collections
  import opened UserService

  /** A reward document together with its `_id`. */
  datatype Listed = Listed(id: RewardId, reward: Reward)

  /** Every reward in the store, in id order. */
  function Catalog(s: Store): (r: seq<Listed>)
    ensures forall i :: 0 <= i < |r| ==> s.HasReward(r[i].id) && r[i].reward == s.RewardAt(r[i].id)
    ensures forall id :: s.HasReward(id) ==> Listed(id, s.RewardAt(id)) in r
    ensures forall i, j :: 0 <= i < j < |r| ==> r[i].id < r[j].id
  {
    CatalogFrom(s, 0)
  }

  function CatalogFrom(s: Store, from: nat): (r: seq<Listed>)
    requires from <= |s.rewards|
    ensures forall i :: 0 <= i < |r| ==> from <= r[i].id && s.HasReward(r[i].id) && r[i].reward == s.RewardAt(r[i].id)
    ensures forall id :: from <= id && s.HasReward(id) ==> Listed(id, s.RewardAt(id)) in r
    ensures forall i, j :: 0 <= i < j < |r| ==> r[i].id < r[j].id
    decreases |s.rewards| - from
  {
    if from == |s.rewards| then []
    else
      var rest := CatalogFrom(s, from + 1);
      match s.rewards[from]
      case None => rest
      case Some(rw) => [Listed(from, rw)] + rest
  }

  function Cost(l: Listed): int {
    l.reward.costPoints
  }

  predicate IsActive(l: Listed) {
    l.reward.isActive
  }

  /**
   * `getActiveRewards()`: `Reward.find({ isActive: true }).sort({ costPoints: 1 })`,
   * every active reward exactly once, cheapest first.
   */
  function GetActiveRewards(s: Store): (r: seq<Listed>)
    ensures SortedBy(r, Cost)
    ensures forall l :: l in r <==> l in Catalog(s) && IsActive(l)
    ensures multiset(r) == multiset(Filter(Catalog(s), IsActive))
    ensures NoDuplicates(r)
  {
    var active := Filter(Catalog(s), IsActive);
    var r := SortBy(active, Cost);
    forall l ensures l in r <==> l in Catalog(s) && IsActive(l) {
      FilterMembers(Catalog(s), IsActive, l);
      assert l in r <==> l in multiset(r);
      assert l in active <==> l in multiset(active);
    }
    CatalogNoDuplicates(s);
    NoDuplicatesMultiset(Catalog(s));
    FilterMultiset(Catalog(s), IsActive);
    NoDuplicatesMultiset(r);
    r
  }

  /** The catalogue lists each stored reward once: its ids rise strictly. */
  lemma CatalogNoDuplicates(s: Store)
    ensures NoDuplicates(Catalog(s))
  {
    var c := Catalog(s);
    forall i, j | 0 <= i < j < |c| ensures c[i] != c[j] {
      assert c[i].id < c[j].id;
    }
  }

  /** The active catalogue is exactly the active rewards, each with its own id. */
  lemma ActiveRewardsAreTheActiveOnes(s: Store, id: RewardId)
    ensures s.HasReward(id) && s.RewardAt(id).isActive ==> Listed(id, s.RewardAt(id)) in GetActiveRewards(s)
    ensures forall l :: l in GetActiveRewards(s) ==>
      s.HasReward(l.id) && l.reward == s.RewardAt(l.id) && l.reward.isActive
  {
  }

  // ------------------------------------------------------------------ claims

  /** What `claimReward` returns: `{ user, reward, userReward }`. */
  datatype ClaimReceipt = ClaimReceipt(user: User, reward: Reward, claimId: ClaimId, claim: Claim)

  /**
   * The store after a call, and what the call returned or threw. A claim can
   * throw after part of its work has committed, so the store travels with the error.
   */
  datatype ClaimOutcome = ClaimOutcome(store: Store, result: Result<ClaimReceipt, Error>)

  /** The history reason of a claim's debit: 'Mukofot olindi: <title>'. */
  function ClaimReason(title: string): (r: string)
    ensures r != []
  {
    "Mukofot olindi: " + title
  }

  /** The reward after a successful claim: one unit fewer unless its stock is unlimited. */
  function TakeOne(r: Reward): (r': Reward)
    ensures r.stock == Unlimited ==> r' == r
    ensures r.stock != Unlimited ==> r' == r.(stock := r.stock - 1)
  {
    if r.stock != Unlimited then r.(stock := r.stock - 1) else r
  }

  /** The checks `claimReward` makes before debiting, in the order it makes them. */
  function ClaimCheck(s: Store, userId: UserId, rewardId: RewardId): (r: Option<Error>)
  {
    if !s.HasReward(rewardId) || !s.RewardAt(rewardId).isActive then Some(RewardUnavailable)
    else if SoldOut(s.RewardAt(rewardId)) then Some(OutOfStock)
    else if !s.HasUser(userId) then Some(UserNotFound)
    else if s.users[userId].points < s.RewardAt(rewardId).costPoints then Some(InsufficientPoints)
    else None
  }

  /**
   * `claimReward(userId, rewardId)`.
   *
   * The checks run inside the claim's transaction, but the debit goes through
   * `updateUserPoints`, which commits in a session of its own. The stock save
   * and the user-reward insert then run in the claim's transaction; when they
   * fail (`writesSucceed == false`, a failure outside the model since the
   * records satisfy their schemas) the claim's transaction aborts and the
   * debit with its history entry stays committed.
   *
   * The returned user is the document read before the debit.
   */
  function ClaimReward(s: Store, userId: UserId, rewardId: RewardId, now: Time, writesSucceed: bool): (o: ClaimOutcome)
    ensures ClaimCheck(s, userId, rewardId).Some? ==>
      o == ClaimOutcome(s, Err(ClaimCheck(s, userId, rewardId).value))
    ensures ClaimCheck(s, userId, rewardId).None? ==>
      var reward := s.RewardAt(rewardId);
      var debited := Posted(s, HistoryEntry(userId, -reward.costPoints, ClaimReason(reward.title), None, now));
      if writesSucceed then
        && o.result == Ok(ClaimReceipt(s.users[userId], TakeOne(reward), |s.claims|, NewClaim(userId, rewardId, now)))
        && o.store == debited.(rewards := s.rewards[rewardId := Some(TakeOne(reward))],
                               claims := s.claims + [NewClaim(userId, rewardId, now)])
      else
        o == ClaimOutcome(debited, Err(WriteFailed))
  {
    match ClaimCheck(s, userId, rewardId)
    case Some(e) => ClaimOutcome(s, Err(e))
    case None =>
      var reward := s.RewardAt(rewardId);
      var user := s.users[userId];
      match UpdateUserPoints(s, userId, -reward.costPoints, ClaimReason(reward.title), now)
      case Err(e) => ClaimOutcome(s, Err(e))
      case Ok((debited, _)) =>
        if !writesSucceed then ClaimOutcome(debited, Err(WriteFailed))
        else
          var claim := NewClaim(userId, rewardId, now);
          var t := debited.(rewards := debited.rewards[rewardId := Some(TakeOne(reward))],
                            claims := debited.claims + [claim]);
          ClaimOutcome(t, Ok(ClaimReceipt(user, TakeOne(reward), |s.claims|, claim)))
  }

  /**
   * What a claim does to the numbers: a success lowers the balance by exactly
   * the cost, lowers finite stock by exactly one, and adds one `claimed`
   * record; a rejection by the checks changes nothing.
   */
  lemma ClaimEffects(s: Store, userId: UserId, rewardId: RewardId, now: Time, writesSucceed: bool)
    ensures var o := ClaimReward(s, userId, rewardId, now, writesSucceed);
      o.result.Ok? ==>
        && s.HasUser(userId) && s.HasReward(rewardId)
        && o.store.users[userId].points == s.users[userId].points - s.RewardAt(rewardId).costPoints
        && o.store.users[userId].points >= 0
        && |o.store.history| == |s.history| + 1
        && o.store.HasReward(rewardId)
        && (s.RewardAt(rewardId).stock == Unlimited ==> o.store.RewardAt(rewardId).stock == Unlimited)
        && (s.RewardAt(rewardId).stock != Unlimited ==>
              o.store.RewardAt(rewardId).stock == s.RewardAt(rewardId).stock - 1 >= 0)
        && o.store.claims == s.claims + [o.result.value.claim]
        && o.result.value.claim.status == Claimed
    ensures var o := ClaimReward(s, userId, rewardId, now, writesSucceed);
      o.result.Err? && o.result.error != WriteFailed ==> o.store == s
  {
  }

  /**
   * The returned user is stale: its balance is the one before the debit,
   * `cost` more than what the store now holds.
   */
  lemma ClaimReturnsStaleUser(s: Store, userId: UserId, rewardId: RewardId, now: Time)
    requires ClaimReward(s, userId, rewardId, now, true).result.Ok?
    ensures var o := ClaimReward(s, userId, rewardId, now, true);
      o.result.value.user.points == o.store.users[userId].points + s.RewardAt(rewardId).costPoints
  {
  }

  /**
   * A claim whose later writes fail still leaves the debit and its history
   * entry committed, with no user reward and no stock change: the balance
   * moves without a claim to show for it.
   */
  lemma AbortedClaimKeepsDebit(s: Store, userId: UserId, rewardId: RewardId, now: Time)
    requires ClaimCheck(s, userId, rewardId).None?
    ensures var o := ClaimReward(s, userId, rewardId, now, false);
      && o.result == Err(WriteFailed)
      && o.store.claims == s.claims
      && o.store.rewards == s.rewards
      && o.store.users[userId].points == s.users[userId].points - s.RewardAt(rewardId).costPoints
      && o.store.history == s.history + [HistoryEntry(userId, -s.RewardAt(rewardId).costPoints,
                                                       ClaimReason(s.RewardAt(rewardId).title), None, now)]
  {
  }

  /** Every path of a claim, the aborted one included, keeps the ledger invariant and the schemas. */
  lemma ClaimPreservesLedger(s: Store, userId: UserId, rewardId: RewardId, now: Time, writesSucceed: bool)
    requires Ledgered(s) && SchemaValid(s)
    ensures Ledgered(ClaimReward(s, userId, rewardId, now, writesSucceed).store)
    ensures SchemaValid(ClaimReward(s, userId, rewardId, now, writesSucceed).store)
  {
    var o := ClaimReward(s, userId, rewardId, now, writesSucceed);
    if ClaimCheck(s, userId, rewardId).None? {
      var reward := s.RewardAt(rewardId);
      var e := HistoryEntry(userId, -reward.costPoints, ClaimReason(reward.title), None, now);
      var d := Posted(s, e);
      LedgerStep(s, e);
      SchemaStep(s, e);
      if writesSucceed {
        var t := d.(rewards := d.rewards[rewardId := Some(TakeOne(reward))]);
        RewardStep(d, rewardId, TakeOne(reward));
        SameRecords(t, o.store);
        assert o.store == t.(claims := s.claims + [NewClaim(userId, rewardId, now)]);
      } else {
        assert o.store == d;
      }
    } else {
      assert o.store == s;
    }
  }

  /**
   * No overselling: with one unit left, the first of two claims succeeds and
   * the second is turned away as out of stock, and the stock ends at 0.
   */
  lemma {:induction false} NoOverselling(s: Store, u1: UserId, u2: UserId, rewardId: RewardId, now: Time)
    requires ClaimCheck(s, u1, rewardId).None?
    requires s.RewardAt(rewardId).stock == 1
    ensures var o1 := ClaimReward(s, u1, rewardId, now, true);
      && o1.result.Ok?
      && o1.store.RewardAt(rewardId).stock == 0
      && ClaimReward(o1.store, u2, rewardId, now, true) == ClaimOutcome(o1.store, Err(OutOfStock))
  {
    var o1 := ClaimReward(s, u1, rewardId, now, true);
    assert o1.store.RewardAt(rewardId) == s.RewardAt(rewardId).(stock := 0);
    assert ClaimCheck(o1.store, u2, rewardId) == Some(OutOfStock);
  }

  // ------------------------------------------------------------------ grants

  /**
   * `grantReward(userId, rewardId, adminId)`: one `claimed` record, nothing
   * else. It checks only that the reward exists: not that it is active, not
   * its stock, not the user.
   */
  function GrantReward(s: Store, userId: UserId, rewardId: RewardId, now: Time): (r: Result<(Store, ClaimId), Error>)
    ensures r.Err? <==> !s.HasReward(rewardId)
    ensures r.Err? ==> r.error == RewardNotFound
    ensures r.Ok? ==>
      && r.value.1 == |s.claims|
      && r.value.0 == s.(claims := s.claims + [NewClaim(userId, rewardId, now)])
  {
    if !s.HasReward(rewardId) then Err(RewardNotFound)
    else Ok((s.(claims := s.claims + [NewClaim(userId, rewardId, now)]), |s.claims|))
  }

  /** A grant leaves balances, history and stock alone, so the ledger invariant holds after it. */
  lemma GrantPreservesLedger(s: Store, userId: UserId, rewardId: RewardId, now: Time)
    requires Ledgered(s) && SchemaValid(s)
    requires GrantReward(s, userId, rewardId, now).Ok?
    ensures var t := GrantReward(s, userId, rewardId, now).value.0;
      Ledgered(t) && SchemaValid(t) && t.users == s.users && t.rewards == s.rewards && t.history == s.history
  {
  }

  /** `removeUserReward(userRewardId, adminId)`: marks the record cancelled; no refund, no stock back. */
  function RemoveUserReward(s: Store, claimId: ClaimId): (r: Result<(Store, Claim), Error>)
    ensures r.Err? <==> claimId >= |s.claims|
    ensures r.Err? ==> r.error == ClaimNotFound
    ensures r.Ok? ==>
      && r.value.1 == s.claims[claimId].(status := Cancelled)
      && r.value.0 == s.(claims := s.claims[claimId := r.value.1])
  {
    if claimId >= |s.claims| then Err(ClaimNotFound)
    else
      var c := s.claims[claimId].(status := Cancelled);
      Ok((s.(claims := s.claims[claimId := c]), c))
  }

  /** Cancelling twice is cancelling once. */
  lemma RemoveUserRewardIdempotent(s: Store, claimId: ClaimId)
    requires RemoveUserReward(s, claimId).Ok?
    ensures var t := RemoveUserReward(s, claimId).value.0;
      RemoveUserReward(t, claimId).Ok? && RemoveUserReward(t, claimId).value.0 == t
  {
  }

  // ------------------------------------------------------------------ catalogue edits

  /** `removeReward(rewardId)`: deletes the document; a missing id is an error. */
  function RemoveReward(s: Store, rewardId: RewardId): (r: Result<Store, Error>)
    ensures r.Err? <==> !s.HasReward(rewardId)
    ensures r.Err? ==> r.error == RewardNotFound
    ensures r.Ok? ==> !r.value.HasReward(rewardId)
    ensures r.Ok? ==> forall id :: id != rewardId ==> r.value.FindReward(id) == s.FindReward(id)
    ensures r.Ok? ==> r.value.users == s.users && r.value.claims == s.claims && r.value.history == s.history
  {
    if !s.HasReward(rewardId) then Err(RewardNotFound)
    else Ok(s.(rewards := s.rewards[rewardId := None]))
  }

  /** `Reward.create(doc)`: stores the document under a fresh id unless the schema rejects it. */
  function InsertReward(s: Store, reward: Reward): (r: Result<(Store, RewardId), Error>)
    ensures r.Err? <==> !ValidReward(reward)
    ensures r.Err? ==> r.error == ValidationFailed
    ensures r.Ok? ==>
      && r.value.1 == |s.rewards|
      && r.value.0.FindReward(r.value.1) == Some(reward)
      && (forall id: RewardId :: id < |s.rewards| ==> r.value.0.FindReward(id) == s.FindReward(id))
      && r.value.0.users == s.users && r.value.0.claims == s.claims && r.value.0.history == s.history
  {
    if !ValidReward(reward) then Err(ValidationFailed)
    else Ok((s.(rewards := s.rewards + [Some(reward)]), |s.rewards|))
  }

  /** `createReward(title, description, costPoints, stock = -1)`: active, no image, unlimited unless told otherwise. */
  function CreateReward(s: Store, title: string, description: string, costPoints: int,
                        stock: int := Unlimited): (r: Result<(Store, RewardId), Error>)
    ensures r.Ok? <==> title != [] && description != [] && costPoints >= 0 && stock >= Unlimited
    ensures r.Ok? ==> r.value.0.FindReward(r.value.1) == Some(Reward(title, description, costPoints, stock, None, true))
    ensures r.Ok? ==> r.value.1 == |s.rewards| && !s.HasReward(r.value.1)
    ensures r.Ok? ==> forall id: RewardId :: id < |s.rewards| ==> r.value.0.FindReward(id) == s.FindReward(id)
    ensures r.Ok? ==> r.value.0.users == s.users && r.value.0.claims == s.claims && r.value.0.history == s.history
  {
    InsertReward(s, Reward(title, description, costPoints, stock, None, true))
  }

  /** Left to its default, the stock of a created reward is unlimited. */
  lemma CreatedRewardIsUnlimited(s: Store, title: string, description: string, costPoints: int)
    requires CreateReward(s, title, description, costPoints).Ok?
    ensures var (t, id) := CreateReward(s, title, description, costPoints).value;
      t.HasReward(id) && t.RewardAt(id).stock == Unlimited && t.RewardAt(id).isActive && !SoldOut(t.RewardAt(id))
  {
  }
}

=== FILE: Sequences.dfy ===
/**
 * Facts about sequence slices and concatenation, stated once, generically,
 * so that the proofs about the bot's data can cite them instead of
 * re-deriving them in a crowded context.
 */
module Sequences {

  /** A sequence is its prefix, the element at `i` and the rest. */
  lemma SeqAround<T>(s: seq<T>, i: nat)
    requires i < |s|
    ensures s == s[..i] + [s[i]] + s[i + 1..]
  {
  }

  /** The slices of a sequence built around one element. */
  lemma AroundParts<T>(a: seq<T>, x: T, b: seq<T>)
    ensures var s := a + [x] + b;
      s[..|a|] == a && s[|a|..] == [x] + b && s[|a| + 1..] == b && s[|a|] == x
  {
  }

  /** A prefix in front of a sequence built around one element comes off whole. */
  lemma PrefixParts<T>(p: seq<T>, a: seq<T>, x: T, b: seq<T>)
    ensures var d := p + a + [x] + b;
      d[..|p|] == p && d[|p|..] == a + [x] + b
  {
    assert p + a + [x] + b == p + (a + [x] + b);
  }

  /** Splitting at any point and gluing back changes nothing. */
  lemma TakeDrop<T>(s: seq<T>, i: nat)
    requires i <= |s|
    ensures s == s[..i] + s[i..]
  {
  }

  /** The head and tail of a sequence with a known first element. */
  lemma ConsParts<T>(x: T, ys: seq<T>)
    ensures ([x] + ys)[0] == x && ([x] + ys)[1..] == ys
  {
  }

  /** A non-empty sequence is its head followed by its tail. */
  lemma HeadTail<T>(s: seq<T>)
    requires s != []
    ensures s == [s[0]] + s[1..]
  {
  }

  /** A non-empty sequence is its initial part followed by its last element. */
  lemma InitLast<T>(s: seq<T>)
    requires s != []
    ensures s == s[..|s| - 1] + [s[|s| - 1]]
  {
  }

  /** The parts of a concatenation are its prefix and its suffix. */
  lemma AppendParts<T>(a: seq<T>, b: seq<T>)
    ensures (a + b)[..|a|] == a && (a + b)[|a|..] == b
  {
  }

  /** Dropping the head of a concatenation with a non-empty first part. */
  lemma AppendTail<T>(a: seq<T>, b: seq<T>)
    requires a != []
    ensures (a + b)[0] == a[0] && (a + b)[1..] == a[1..] + b
  {
  }

  /** Dropping the last element of a concatenation with a non-empty second part. */
  lemma AppendInit<T>(a: seq<T>, b: seq<T>)
    requires b != []
    ensures (a + b)[..|a + b| - 1] == a + b[..|b| - 1] && (a + b)[|a + b| - 1] == b[|b| - 1]
  {
  }

  /** Concatenation is associative. */
  lemma AppendAssoc<T>(a: seq<T>, b: seq<T>, c: seq<T>)
    ensures (a + b) + c == a + (b + c)
  {
  }
}

=== FILE: Sessions.dfy ===
/**
 * `ctx.session`: the per-chat state the multi-step flows of the bot keep
 * between messages. Clearing it (`ctx.session = {}`) gives `Cleared`.
 */
module Sessions {
  import opened Wrappers

  /** The values `session.waitingFor` takes: which admin input the next text message is. */
  datatype Waiting =
    | SearchUser
    | RewardName | RewardDesc | RewardCost | RewardImage
    | AddPoints | RemovePoints
    | BroadcastMessage
    | AddChannelTitle | AddChannelLink | AddChannelId
    | SendMessageToUser

  /** `session.registrationStep`. */
  datatype RegistrationStep = NameStep | PhoneStep

  /** `session.adminAction` of the admin handlers. */
  datatype AdminAction = BroadcastAction | GrantPoints | SelectRewardToGrant

  datatype Session = Session(
    waitingFor: Option<Waiting>,
    registrationStep: Option<RegistrationStep>,
    needsRegistration: bool,
    userName: Option<string>,
    targetUserId: Option<string>,
    broadcastSegment: Option<string>,
    channelTitle: Option<string>,
    channelLink: Option<string>,
    rewardName: Option<string>,
    rewardDesc: Option<string>,
    rewardCost: Option<int>,
    rewardStock: Option<int>,
    adminAction: Option<AdminAction>
  )

  /** `{}`: every field unset. */
  const Cleared: Session :=
    Session(None, None, false, None, None, None, None, None, None, None, None, None, None)
}

=== FILE: StatisticsService.dfy ===
/**
 * Statistics and the leaderboard (src/services/statisticsService.js): counts,
 * the points total, the top users, a user's recent history and the most
 * claimed rewards.
 */
module StatisticsService {
  import opened Wrappers
  import opened Models
  import opened Collections
  import opened RewardService

  datatype GeneralStatistics = GeneralStatistics(
    totalUsers: nat,
    totalAdmins: nat,
    totalRewards: nat,
    claimedRewards: nat,
    totalPoints: int
  )

  predicate IsAdminUser(u: User) {
    u.isAdmin
  }

  predicate IsClaimed(c: Claim) {
    c.status == Claimed
  }

  /** `getGeneralStatistics()`: five counts taken from the same store. */
  function GetGeneralStatistics(s: Store): (r: GeneralStatistics)
    ensures r.totalUsers == |s.users|
    ensures r.totalAdmins == |Filter(s.users, IsAdminUser)| <= r.totalUsers
    ensures r.totalRewards == |GetActiveRewards(s)| == Count(Catalog(s), IsActive)
    ensures r.claimedRewards == |Filter(s.claims, IsClaimed)| <= |s.claims|
    ensures r.totalPoints == TotalPoints(s.users)
  {
    GeneralStatistics(
      |s.users|,
      Count(s.users, IsAdminUser),
      |GetActiveRewards(s)|,
      Count(s.claims, IsClaimed),
      TotalPoints(s.users))
  }

  lemma {:induction false} TotalPointsUpdate(users: seq<User>, id: nat, u: User)
    requires id < |users|
    ensures TotalPoints(users[id := u]) == TotalPoints(users) - users[id].points + u.points
    decreases |users|
  {
    var n := |users| - 1;
    if id < n {
      TotalPointsUpdate(users[..n], id, u);
      assert users[id := u][..n] == users[..n][id := u];
    } else {
      assert users[id := u][..n] == users[..n];
    }
  }

  /**
   * A successful claim moves the general statistics by exactly its effect: one
   * more claimed reward and `cost` fewer points in circulation, with the user
   * and admin counts unchanged.
   */
  lemma ClaimMovesStatistics(s: Store, userId: UserId, rewardId: RewardId, now: Time)
    requires ClaimReward(s, userId, rewardId, now, true).result.Ok?
    ensures var t := ClaimReward(s, userId, rewardId, now, true).store;
      var before := GetGeneralStatistics(s);
      var after := GetGeneralStatistics(t);
      && after.claimedRewards == before.claimedRewards + 1
      && after.totalPoints == before.totalPoints - s.RewardAt(rewardId).costPoints
      && after.totalUsers == before.totalUsers
      && after.totalAdmins == before.totalAdmins
  {
    var o := ClaimReward(s, userId, rewardId, now, true);
    ClaimEffects(s, userId, rewardId, now, true);
    var u := s.users[userId];
    TotalPointsUpdate(s.users, userId, o.store.users[userId]);
    assert o.store.users == s.users[userId := u.(points := u.points - s.RewardAt(rewardId).costPoints)];
    CountAppend(s.claims, o.result.value.claim, IsClaimed);
    CountUpdateSame(s.users, userId, o.store.users[userId], IsAdminUser);
  }

  /** Replacing an element by one the predicate judges the same keeps the count. */
  lemma {:induction false} CountUpdateSame<T(!new)>(xs: seq<T>, i: nat, x: T, p: T -> bool)
    requires i < |xs| && p(x) == p(xs[i])
    ensures Count(xs[i := x], p) == Count(xs, p)
    decreases |xs|
  {
    if i > 0 {
      CountUpdateSame(xs[1..], i - 1, x, p);
      assert xs[i := x][1..] == xs[1..][i - 1 := x];
    } else {
      assert xs[i := x][1..] == xs[1..];
    }
  }

  // ------------------------------------------------------------------ leaderboard

  /** `User.find().select('name username points')`: the `_id` and the three selected fields. */
  datatype LeaderRow = LeaderRow(id: UserId, name: string, username: Option<string>, points: int)

  function LeaderRows(users: seq<User>): (r: seq<LeaderRow>)
    ensures |r| == |users|
    ensures forall i :: 0 <= i < |r| ==> r[i] == LeaderRow(i, users[i].name, users[i].username, users[i].points)
  {
    if users == [] then []
    else
      var n := |users| - 1;
      LeaderRows(users[..n]) + [LeaderRow(n, users[n].name, users[n].username, users[n].points)]
  }

  /** Every row shows the stored user it names. */
  lemma LeaderRowsMember(users: seq<User>, row: LeaderRow)
    requires row in LeaderRows(users)
    ensures row.id < |users| && row.points == users[row.id].points && row.name == users[row.id].name
  {
    var rows := LeaderRows(users);
    var k :| 0 <= k < |rows| && rows[k] == row;
  }

  /** Rows taken from the leaderboard rows each show the stored user they name. */
  lemma LeaderRowsMembers(users: seq<User>, r: seq<LeaderRow>)
    requires forall i :: 0 <= i < |r| ==> r[i] in LeaderRows(users)
    ensures forall i :: 0 <= i < |r| ==>
      r[i].id < |users| && r[i].points == users[r[i].id].points && r[i].name == users[r[i].id].name
  {
    forall i | 0 <= i < |r|
      ensures r[i].id < |users| && r[i].points == users[r[i].id].points && r[i].name == users[r[i].id].name
    {
      LeaderRowsMember(users, r[i]);
    }
  }

  function ByPointsDesc(r: LeaderRow): int {
    -r.points
  }

  /** Ascending `ByPointsDesc` is descending points. */
  lemma MostPointsFirst(r: seq<LeaderRow>)
    requires SortedBy(r, ByPointsDesc)
    ensures forall i, j :: 0 <= i < j < |r| ==> r[i].points >= r[j].points
  {
    forall i, j | 0 <= i < j < |r| ensures r[i].points >= r[j].points {
      assert ByPointsDesc(r[i]) <= ByPointsDesc(r[j]);
    }
  }

  /**
   * The number of documents `.limit(limit)` lets through a query of `size`
   * results: Mongoose reads a limit of 0 as no limit at all.
   */
  function QueryCap(limit: nat, size: nat): nat {
    if limit == 0 then size else limit
  }

  /**
   * `getLeaderboard(limit = 10)`: the users with the most points, most first,
   * at most `limit` of them (all of them for `limit` 0). Equal balances keep
   * store order.
   */
  function GetLeaderboard(s: Store, limit: nat := 10): (r: seq<LeaderRow>)
    ensures |r| == if limit == 0 || |s.users| <= limit then |s.users| else limit
    ensures forall i, j :: 0 <= i < j < |r| ==> r[i].points >= r[j].points
    ensures forall i :: 0 <= i < |r| ==>
      r[i].id < |s.users| && r[i].points == s.users[r[i].id].points && r[i].name == s.users[r[i].id].name
    ensures forall i, j :: 0 <= i < j < |r| ==> r[i].id != r[j].id
  {
    var rows := LeaderRows(s.users);
    var cap := QueryCap(limit, |rows|);
    assert NoDuplicates(rows);
    TopFacts(rows, ByPointsDesc, cap);
    var r := Take(SortBy(rows, ByPointsDesc), cap);
    LeaderRowsMembers(s.users, r);
    MostPointsFirst(r);
    r
  }

  /** Nobody left off the leaderboard has more points than anyone on it. */
  lemma LeaderboardIsTop(s: Store, limit: nat, id: UserId)
    requires id < |s.users|
    requires forall i :: 0 <= i < |GetLeaderboard(s, limit)| ==> GetLeaderboard(s, limit)[i].id != id
    ensures forall i :: 0 <= i < |GetLeaderboard(s, limit)| ==>
      GetLeaderboard(s, limit)[i].points >= s.users[id].points
  {
    var rows := LeaderRows(s.users);
    var sorted := SortBy(rows, ByPointsDesc);
    var cap := QueryCap(limit, |rows|);
    var r := Take(sorted, cap);
    var y := rows[id];
    assert y in multiset(sorted);
    forall i | 0 <= i < |r| ensures r[i] != y {
      assert GetLeaderboard(s, limit)[i] == r[i];
    }
    assert y !in multiset(r);
    TakeOfSortedIsTop(sorted, ByPointsDesc, cap, y);
  }

  // ------------------------------------------------------------------ history

  /** The filter `{ userId }`. */
  function OfUser(userId: UserId): HistoryEntry -> bool {
    (e: HistoryEntry) => e.userId == userId
  }

  function ByDateDesc(e: HistoryEntry): int {
    -e.date
  }

  /** Ascending `ByDateDesc` is descending date. */
  lemma NewestEntriesFirst(r: seq<HistoryEntry>)
    requires SortedBy(r, ByDateDesc)
    ensures forall i, j :: 0 <= i < j < |r| ==> r[i].date >= r[j].date
  {
    forall i, j | 0 <= i < j < |r| ensures r[i].date >= r[j].date {
      assert ByDateDesc(r[i]) <= ByDateDesc(r[j]);
    }
  }

  /**
   * `getUserPointsHistory(userId, limit = 10)`: the user's latest entries,
   * newest first, at most `limit` of them (all of them for `limit` 0).
   */
  function GetUserPointsHistory(s: Store, userId: UserId, limit: nat := 10): (r: seq<HistoryEntry>)
    ensures forall i :: 0 <= i < |r| ==> r[i].userId == userId && r[i] in s.history
    ensures forall i, j :: 0 <= i < j < |r| ==> r[i].date >= r[j].date
    ensures |r| == if limit == 0 || |Filter(s.history, OfUser(userId))| <= limit
                   then |Filter(s.history, OfUser(userId))| else limit
    ensures multiset(r) <= multiset(Filter(s.history, OfUser(userId)))
  {
    var mine := Filter(s.history, OfUser(userId));
    var cap := QueryCap(limit, |mine|);
    TopFacts(mine, ByDateDesc, cap);
    var sorted := SortBy(mine, ByDateDesc);
    var r := Take(sorted, cap);
    TakeSubMultiset(sorted, cap);
    forall i | 0 <= i < |r| ensures r[i].userId == userId && r[i] in s.history {
      FilterMembers(s.history, OfUser(userId), r[i]);
    }
    NewestEntriesFirst(r);
    r
  }

  /** An entry of the user's left out of the recent history is no newer than any shown. */
  lemma HistoryIsLatest(s: Store, userId: UserId, limit: nat, e: HistoryEntry)
    requires e in s.history && e.userId == userId
    requires e !in GetUserPointsHistory(s, userId, limit)
    ensures forall i :: 0 <= i < |GetUserPointsHistory(s, userId, limit)| ==>
      GetUserPointsHistory(s, userId, limit)[i].date >= e.date
  {
    var mine := Filter(s.history, OfUser(userId));
    var sorted := SortBy(mine, ByDateDesc);
    var cap := QueryCap(limit, |mine|);
    FilterMembers(s.history, OfUser(userId), e);
    assert e in multiset(mine);
    assert e !in multiset(Take(sorted, cap));
    TakeOfSortedIsTop(sorted, ByDateDesc, cap, e);
  }

  // ------------------------------------------------------------------ top rewards

  function ClaimedRewardIds(claims: seq<Claim>): (r: seq<RewardId>)
    ensures forall rid :: rid in r <==> exists c :: c in claims && c.status == Claimed && c.rewardId == rid
  {
    if claims == [] then []
    else
      var c := claims[|claims| - 1];
      var rest := ClaimedRewardIds(claims[..|claims| - 1]);
      assert forall x :: x in claims <==> x in claims[..|claims| - 1] || x == c;
      if c.status == Claimed then rest + [c.rewardId] else rest
  }

  /** The user rewards `$match: { status: 'claimed' }` keeps and `$group` puts under `rewardId`. */
  function ClaimOf(rewardId: RewardId): Claim -> bool {
    (c: Claim) => c.status == Claimed && c.rewardId == rewardId
  }

  /** How many `claimed` user rewards name `rewardId`. */
  function TimesClaimed(claims: seq<Claim>, rewardId: RewardId): nat
  {
    Count(claims, ClaimOf(rewardId))
  }

  /** One `$group` row: a reward id and its claim count. */
  datatype Group = Group(rewardId: RewardId, count: nat)

  function Groups(claims: seq<Claim>, ids: seq<RewardId>): (r: seq<Group>)
    ensures |r| == |ids|
    ensures forall i :: 0 <= i < |r| ==> r[i] == Group(ids[i], TimesClaimed(claims, ids[i]))
  {
    if ids == [] then [] else [Group(ids[0], TimesClaimed(claims, ids[0]))] + Groups(claims, ids[1..])
  }

  /** Distinct ids make distinct groups. */
  lemma GroupsNoDuplicates(claims: seq<Claim>, ids: seq<RewardId>)
    requires NoDuplicates(ids)
    ensures NoDuplicates(Groups(claims, ids))
  {
    var gs := Groups(claims, ids);
    forall i, j | 0 <= i < j < |gs| ensures gs[i] != gs[j] {
      assert gs[i].rewardId == ids[i] && gs[j].rewardId == ids[j];
    }
  }

  /** Every group carries one of the ids and that id's claim count. */
  lemma GroupsMember(claims: seq<Claim>, ids: seq<RewardId>, g: Group)
    requires g in Groups(claims, ids)
    ensures g.count == TimesClaimed(claims, g.rewardId) && g.rewardId in ids
  {
    var gs := Groups(claims, ids);
    var k :| 0 <= k < |gs| && gs[k] == g;
  }

  function ByCountDesc(g: Group): int {
    -(g.count as int)
  }

  /** One result row: the reward document, when it still exists, and its count. */
  datatype TopReward = TopReward(rewardId: RewardId, reward: Option<Reward>, count: nat)

  function Attach(s: Store, gs: seq<Group>): (r: seq<TopReward>)
    ensures |r| == |gs|
    ensures forall i :: 0 <= i < |r| ==> r[i] == TopReward(gs[i].rewardId, s.FindReward(gs[i].rewardId), gs[i].count)
  {
    if gs == [] then [] else [TopReward(gs[0].rewardId, s.FindReward(gs[0].rewardId), gs[0].count)] + Attach(s, gs[1..])
  }

  /** The grouped, sorted and limited aggregation, before the reward lookup. */
  function TopGroups(s: Store, limit: nat): seq<Group>
  {
    Take(SortBy(Groups(s.claims, Distinct(ClaimedRewardIds(s.claims))), ByCountDesc), limit)
  }

  /**
   * `getTopRewards(limit = 5)`: the rewards with the most `claimed` user
   * rewards, most first, each once, with its count and its document
   * (`None` when the reward has since been deleted). MongoDB refuses a
   * `$limit` of 0, and the catch then returns the empty list, which is what
   * taking the first 0 rows gives.
   */
  function GetTopRewards(s: Store, limit: nat := 5): (r: seq<TopReward>)
    ensures |r| == if |Distinct(ClaimedRewardIds(s.claims))| <= limit
                   then |Distinct(ClaimedRewardIds(s.claims))| else limit
  {
    Attach(s, TopGroups(s, limit))
  }

  /**
   * What the top list holds: each claimed reward at most once, with its true
   * claim count and its current document, most claimed first.
   */
  lemma TopRewardsRows(s: Store, limit: nat)
    ensures var r := GetTopRewards(s, limit);
      && (forall i :: 0 <= i < |r| ==>
            && r[i].count == TimesClaimed(s.claims, r[i].rewardId)
            && r[i].reward == s.FindReward(r[i].rewardId)
            && r[i].rewardId in ClaimedRewardIds(s.claims))
      && (forall i, j :: 0 <= i < j < |r| ==> r[i].count >= r[j].count && r[i].rewardId != r[j].rewardId)
  {
    var top := TopGroups(s, limit);
    TopGroupsFacts(s, limit);
    assert forall i, j :: 0 <= i < j < |top| ==> top[i] != top[j];
  }

  lemma TopGroupsFacts(s: Store, limit: nat)
    ensures var top := TopGroups(s, limit);
      && NoDuplicates(top)
      && (forall i :: 0 <= i < |top| ==>
            top[i].count == TimesClaimed(s.claims, top[i].rewardId) && top[i].rewardId in ClaimedRewardIds(s.claims))
      && (forall i, j :: 0 <= i < j < |top| ==> top[i].count >= top[j].count)
  {
    var ids := Distinct(ClaimedRewardIds(s.claims));
    TopOfGroups(s.claims, ids, limit);
  }

  /** The sorted, limited groups of distinct ids: distinct, true counts, most first. */
  lemma TopOfGroups(claims: seq<Claim>, ids: seq<RewardId>, limit: nat)
    requires NoDuplicates(ids)
    ensures var top := Take(SortBy(Groups(claims, ids), ByCountDesc), limit);
      && NoDuplicates(top)
      && (forall i :: 0 <= i < |top| ==> top[i].count == TimesClaimed(claims, top[i].rewardId) && top[i].rewardId in ids)
      && (forall i, j :: 0 <= i < j < |top| ==> top[i].count >= top[j].count)
  {
    var groups := Groups(claims, ids);
    GroupsNoDuplicates(claims, ids);
    TopFacts(groups, ByCountDesc, limit);
    var top := Take(SortBy(groups, ByCountDesc), limit);
    forall i | 0 <= i < |top|
      ensures top[i].count == TimesClaimed(claims, top[i].rewardId) && top[i].rewardId in ids
    {
      GroupsMember(claims, ids, top[i]);
    }
    assert forall i, j :: 0 <= i < j < |top| ==> ByCountDesc(top[i]) <= ByCountDesc(top[j]);
  }

  /**
   * A claimed reward missing from the top list was claimed no more often than
   * any reward on it.
   */
  lemma TopRewardsAreTop(s: Store, limit: nat, rewardId: RewardId)
    requires rewardId in ClaimedRewardIds(s.claims)
    requires forall i :: 0 <= i < |GetTopRewards(s, limit)| ==> GetTopRewards(s, limit)[i].rewardId != rewardId
    ensures forall i :: 0 <= i < |GetTopRewards(s, limit)| ==>
      GetTopRewards(s, limit)[i].count >= TimesClaimed(s.claims, rewardId)
  {
    var ids := Distinct(ClaimedRewardIds(s.claims));
    var groups := Groups(s.claims, ids);
    var top := TopGroups(s, limit);
    var k :| 0 <= k < |ids| && ids[k] == rewardId;
    var y := groups[k];
    forall i | 0 <= i < |top| ensures top[i] != y {
      assert GetTopRewards(s, limit)[i].rewardId == top[i].rewardId;
    }
    TopIsTop(groups, ByCountDesc, limit, y);
    assert forall i :: 0 <= i < |top| ==> ByCountDesc(top[i]) <= ByCountDesc(y);
  }
}

=== FILE: Strings.dfy ===
/**
 * The slice of JavaScript's string library the bot relies on: `\s`, `trim`,
 * `split`, and the integer readings of `parseInt` and `Number`.
 *
 * Characters are Dafny characters (Unicode scalar values); JavaScript counts
 * UTF-16 code units, which differs only outside the Basic Multilingual Plane.
 */
module Strings {
  import opened Wrappers
  import opened Sequences

  /**
   * `\s`, and the whitespace `trim`, `parseInt` and `Number` skip: the
   * ECMAScript WhiteSpace characters (tab, vertical tab, form feed, the byte
   * order mark and every space separator of Unicode category Zs) and the
   * LineTerminator characters (line feed, carriage return, U+2028, U+2029).
   */
  predicate IsSpace(c: char) {
    || c == '\t' || c == '\U{0B}' || c == '\U{0C}' || c == '\U{FEFF}'
    || c == ' ' || c == '\U{A0}' || c == '\U{1680}' || '\U{2000}' <= c <= '\U{200A}'
    || c == '\U{202F}' || c == '\U{205F}' || c == '\U{3000}'
    || c == '\n' || c == '\r' || c == '\U{2028}' || c == '\U{2029}'
  }

  /** `\d`: the ASCII digits only, as in JavaScript regular expressions. */
  predicate IsDigit(c: char) {
    '0' <= c <= '9'
  }

  predicate AllDigits(s: string) {
    forall i :: 0 <= i < |s| ==> IsDigit(s[i])
  }

  // ---------------------------------------------------------------- trimming

  /** `s.trimStart()`: the suffix of `s` left after dropping leading whitespace. */
  function TrimStart(s: string): (r: string)
    ensures |r| <= |s|
    ensures r == [] || !IsSpace(r[0])
  {
    if s != [] && IsSpace(s[0]) then TrimStart(s[1..]) else s
  }

  /** `s.trimEnd()`: the prefix of `s` left after dropping trailing whitespace. */
  function TrimEnd(s: string): (r: string)
    ensures |r| <= |s| && r == s[..|r|]
    ensures r == [] || !IsSpace(r[|r| - 1])
  {
    if s != [] && IsSpace(s[|s| - 1]) then TrimEnd(s[..|s| - 1]) else s
  }

  /** `s.trim()`. */
  function Trim(s: string): (r: string)
    ensures |r| <= |s|
    ensures r == [] || (!IsSpace(r[0]) && !IsSpace(r[|r| - 1]))
  {
    TrimEnd(TrimStart(s))
  }

  /** A text that neither starts nor ends with whitespace is left alone by every trim. */
  lemma TrimFixed(t: string)
    requires t == [] || (!IsSpace(t[0]) && !IsSpace(t[|t| - 1]))
    ensures TrimStart(t) == t && TrimEnd(t) == t && Trim(t) == t
  {
  }

  lemma {:induction false} TrimStartAppendSpace(s: string, c: char)
    requires IsSpace(c)
    ensures TrimStart(s) != [] ==> TrimStart(s + [c]) == TrimStart(s) + [c]
    ensures TrimStart(s) == [] ==> TrimStart(s + [c]) == []
    decreases |s|
  {
    if s == [] {
    } else if IsSpace(s[0]) {
      AppendTail(s, [c]);
      TrimStartAppendSpace(s[1..], c);
    } else {
      AppendTail(s, [c]);
    }
  }

  /** A trailing line break never survives `trim`, which is what lets a one-chunk message equal the trimmed text. */
  lemma TrimDropsTrailingNewline(s: string)
    ensures Trim(s + "\n") == Trim(s)
  {
    TrimStartAppendSpace(s, '\n');
    if TrimStart(s) != [] {
      AppendParts(TrimStart(s), "\n");
    }
  }

  // ---------------------------------------------------------------- splitting

  /** Index of the first `c` in `s`, or `|s|` when there is none. */
  function IndexOf(s: string, c: char): (i: nat)
    ensures i <= |s|
    ensures i < |s| ==> s[i] == c
    ensures forall j :: 0 <= j < i ==> s[j] != c
  {
    if s == [] then 0
    else if s[0] == c then 0
    else 1 + IndexOf(s[1..], c)
  }

  /** `s.split(sep)` for a one-character separator: every field, the empty ones included. */
  function Split(s: string, sep: char): (r: seq<string>)
    ensures |r| >= 1
    ensures forall i :: 0 <= i < |r| ==> sep !in r[i]
    decreases |s|
  {
    var i := IndexOf(s, sep);
    if i == |s| then [s] else [s[..i]] + Split(s[i + 1..], sep)
  }

  /** `parts.join(sep)`. */
  function Join(parts: seq<string>, sep: char): string
  {
    if parts == [] then ""
    else if |parts| == 1 then parts[0]
    else parts[0] + [sep] + Join(parts[1..], sep)
  }

  /** Splitting and joining on the same separator give the text back. */
  lemma {:induction false} JoinSplit(s: string, sep: char)
    ensures Join(Split(s, sep), sep) == s
    decreases |s|
  {
    var i := IndexOf(s, sep);
    if i < |s| {
      var tail := s[i + 1..];
      JoinSplit(tail, sep);
      JoinCons(s[..i], Split(tail, sep), sep);
      SeqAround(s, i);
    }
  }

  /** Joining a field in front of a non-empty list puts the separator between them. */
  lemma JoinCons(p: string, rest: seq<string>, sep: char)
    requires rest != []
    ensures Join([p] + rest, sep) == p + [sep] + Join(rest, sep)
  {
    ConsParts(p, rest);
  }

  /** Joining fields that do not contain the separator and splitting again gives the fields back. */
  lemma {:induction false} SplitJoin(parts: seq<string>, sep: char)
    requires |parts| >= 1
    requires forall i :: 0 <= i < |parts| ==> sep !in parts[i]
    ensures Split(Join(parts, sep), sep) == parts
    decreases |parts|
  {
    var s := Join(parts, sep);
    if |parts| == 1 {
      assert IndexOf(s, sep) == |s|;
    } else {
      var rest := Join(parts[1..], sep);
      assert s == parts[0] + [sep] + rest;
      IndexOfPrefix(parts[0], sep, rest);
      assert s[..|parts[0]|] == parts[0];
      assert s[|parts[0]| + 1..] == rest;
      SplitJoin(parts[1..], sep);
    }
  }

  lemma {:induction false} IndexOfPrefix(a: string, c: char, b: string)
    requires c !in a
    ensures IndexOf(a + [c] + b, c) == |a|
    decreases |a|
  {
    if a != [] {
      assert (a + [c] + b)[1..] == a[1..] + [c] + b;
      IndexOfPrefix(a[1..], c, b);
    }
  }

  /** Length of the leading run of characters of `s` that satisfy `p`. */
  function RunLength(s: string, p: char -> bool): (n: nat)
    ensures n <= |s|
    ensures forall i :: 0 <= i < n ==> p(s[i])
    ensures n < |s| ==> !p(s[n])
  {
    if s != [] && p(s[0]) then 1 + RunLength(s[1..], p) else 0
  }

  predicate NotSpace(c: char) {
    !IsSpace(c)
  }

  /**
   * `s.split(/\s+/)`: the fields between maximal runs of whitespace; a leading
   * or trailing run yields an empty first or last field, as in JavaScript.
   */
  function SplitSpaces(s: string): (r: seq<string>)
    ensures |r| >= 1
    ensures forall i, j :: 0 <= i < |r| && 0 <= j < |r[i]| ==> !IsSpace(r[i][j])
    decreases |s|
  {
    var i := RunLength(s, NotSpace);
    if i == |s| then [s]
    else
      var j := i + RunLength(s[i..], IsSpace);
      assert j > i;
      [s[..i]] + SplitSpaces(s[j..])
  }

  /** Two words joined by one space split back into the two words. */
  lemma SplitSpacesTwo(a: string, b: string)
    requires a != [] && b != []
    requires forall i :: 0 <= i < |a| ==> !IsSpace(a[i])
    requires forall i :: 0 <= i < |b| ==> !IsSpace(b[i])
    ensures SplitSpaces(a + " " + b) == [a, b]
  {
    SplitSpacesAt(a, ' ', b);
  }

  /**
   * Two words joined by any one whitespace character split into the two words:
   * a no-break space or an ideographic space separates as a plain space does.
   */
  lemma SplitSpacesAt(a: string, c: char, b: string)
    requires a != [] && b != []
    requires forall i :: 0 <= i < |a| ==> !IsSpace(a[i])
    requires forall i :: 0 <= i < |b| ==> !IsSpace(b[i])
    requires IsSpace(c)
    ensures SplitSpaces(a + [c] + b) == [a, b]
  {
    SplitSpacesStep(a, c, b);
    SplitSpacesOne(b);
  }

  /** A word followed by one whitespace character and a text that starts with a non-space splits off that word. */
  lemma SplitSpacesStep(a: string, c: char, b: string)
    requires forall i :: 0 <= i < |a| ==> !IsSpace(a[i])
    requires IsSpace(c)
    requires b != [] && !IsSpace(b[0])
    ensures SplitSpaces(a + [c] + b) == [a] + SplitSpaces(b)
  {
    var s := a + [c] + b;
    AroundParts(a, c, b);
    RunLengthExact(s, NotSpace, |a|);
    RunLengthExact([c] + b, IsSpace, 1);
  }

  /** A text without whitespace is one word. */
  lemma SplitSpacesOne(b: string)
    requires forall i :: 0 <= i < |b| ==> !IsSpace(b[i])
    ensures SplitSpaces(b) == [b]
  {
    RunLengthExact(b, NotSpace, |b|);
  }

  /** The run is exactly `n` long when the first `n` characters satisfy `p` and the next one does not. */
  lemma RunLengthExact(s: string, p: char -> bool, n: nat)
    requires n <= |s|
    requires forall i :: 0 <= i < n ==> p(s[i])
    requires n < |s| ==> !p(s[n])
    ensures RunLength(s, p) == n
  {
  }

  // ---------------------------------------------------------------- numbers

  function DigitValue(c: char): nat
    requires IsDigit(c)
  {
    (c as int) - ('0' as int)
  }

  /** The value of a string of decimal digits (the empty string reads as 0). */
  function DigitsValue(d: string): nat
    requires AllDigits(d)
  {
    if d == [] then 0 else DigitsValue(d[..|d| - 1]) * 10 + DigitValue(d[|d| - 1])
  }

  /** Decimal rendering of a natural number, `String(n)`. */
  function ShowNat(n: nat): (s: string)
    ensures |s| >= 1 && AllDigits(s)
  {
    if n < 10 then ['0' + (n as char)] else ShowNat(n / 10) + ['0' + ((n % 10) as char)]
  }

  /** Decimal rendering of an integer, `String(n)`. */
  function ShowInt(n: int): (s: string)
    ensures |s| >= 1
    ensures forall i :: 0 <= i < |s| ==> IsDigit(s[i]) || s[i] == '-'
  {
    if n < 0 then "-" + ShowNat(-n) else ShowNat(n)
  }

  lemma {:induction false} ShowNatValue(n: nat)
    ensures DigitsValue(ShowNat(n)) == n
    decreases n
  {
    if n >= 10 {
      ShowNatValue(n / 10);
      var s := ShowNat(n);
      assert s[..|s| - 1] == ShowNat(n / 10);
    }
  }

  /** A `+`/`-` sign at the head of `t`, and the rest. */
  function SignOf(t: string): (bool, string)
  {
    if t != [] && (t[0] == '-' || t[0] == '+') then (t[0] == '-', t[1..]) else (false, t)
  }

  /**
   * `parseInt(s)` (radix 10): leading whitespace, an optional sign, then the
   * longest run of digits; `None` stands for `NaN` (no digit at all).
   */
  function ParseInt(s: string): (r: Option<int>)
    ensures r.None? <==> RunLength(SignOf(TrimStart(s)).1, IsDigit) == 0
  {
    var (neg, body) := SignOf(TrimStart(s));
    var n := RunLength(body, IsDigit);
    if n == 0 then None
    else
      var v: int := DigitsValue(body[..n]);
      Some(if neg then -v else v)
  }

  /** `parseInt` reads back what `String` wrote. */
  lemma ParseIntShowNat(n: nat)
    ensures ParseInt(ShowNat(n)) == Some(n)
  {
    var s := ShowNat(n);
    assert !IsSpace(s[0]) && !IsSpace(s[|s| - 1]);
    TrimFixed(s);
    assert SignOf(s) == (false, s);
    RunLengthAll(s);
    assert s[..|s|] == s;
    ShowNatValue(n);
  }

  /** `parseInt(String(n).trim())` gives `n` back. */
  lemma ParseIntTrimShowNat(n: nat)
    ensures ParseInt(Trim(ShowNat(n))) == Some(n)
  {
    var s := ShowNat(n);
    assert !IsSpace(s[0]) && !IsSpace(s[|s| - 1]);
    TrimFixed(s);
    ParseIntShowNat(n);
  }

  lemma {:induction false} RunLengthAll(s: string)
    requires AllDigits(s)
    ensures RunLength(s, IsDigit) == |s|
    decreases |s|
  {
    if s != [] {
      RunLengthAll(s[1..]);
    }
  }

  /**
   * `Number(s)` for the integer literals the bot is fed: surrounding whitespace
   * is ignored, the blank string reads as 0, otherwise an optional sign followed
   * by digits and nothing else; `None` stands for `NaN`.
   */
  function ParseNumber(s: string): (r: Option<int>)
    ensures Trim(s) == [] ==> r == Some(0)
    ensures r.Some? && Trim(s) != [] ==> AllDigits(SignOf(Trim(s)).1)
  {
    var t := Trim(s);
    if t == [] then Some(0)
    else
      var (neg, body) := SignOf(t);
      if body == [] || !AllDigits(body) then None
      else
        var v: int := DigitsValue(body);
        Some(if neg then -v else v)
  }

  /** `Number(String(n))` gives `n` back. */
  lemma ParseNumberShowInt(n: int)
    ensures ParseNumber(ShowInt(n)) == Some(n)
  {
    if n < 0 {
      ShowNatValue(-n);
      ParseSigned(ShowInt(n), true, ShowNat(-n), n);
    } else {
      ShowNatValue(n);
      ParseSigned(ShowInt(n), false, ShowNat(n), n);
    }
  }

  /** `Number(t)` of an optional minus sign followed by digits. */
  lemma ParseSigned(t: string, neg: bool, body: string, v: int)
    requires body != [] && AllDigits(body)
    requires t == if neg then "-" + body else body
    requires v == if neg then -(DigitsValue(body) as int) else DigitsValue(body)
    ensures ParseNumber(t) == Some(v)
  {
    SignedIsTrimmed(t, neg, body);
  }

  /** An optional minus sign followed by digits has nothing to trim, and its sign reads back. */
  lemma SignedIsTrimmed(t: string, neg: bool, body: string)
    requires body != [] && AllDigits(body)
    requires t == if neg then "-" + body else body
    ensures Trim(t) == t && SignOf(t) == (neg, body)
  {
    assert !IsSpace(t[0]) && !IsSpace(t[|t| - 1]) by {
      if neg { assert t[|t| - 1] == body[|body| - 1]; }
    }
    TrimFixed(t);
    if neg {
      assert t[1..] == body;
    } else {
      assert IsDigit(t[0]);
    }
  }



}

=== FILE: UserController.dfy ===
/**
 * The user controller (src/controllers/userController.js): paging through the
 * active rewards, the menu of rewards the user can afford, the confirmation
 * step, and the claim itself with the reply it shows.
 */
module UserController {
  import opened Wrappers
  import opened Strings
  import opened Models
  import opened Collections
  import opened UserService
  import opened RewardService

  // ------------------------------------------------------------------ showRewards

  /** The stock line of a reward card: the unlimited sign for -1, else `<n> ta`. */
  function StockLabel(stock: int): (r: string)
    ensures r == "♾️ Cheksiz" <==> stock == Unlimited
    ensures stock != Unlimited ==> r == ShowInt(stock) + " ta"
  {
    if stock == Unlimited then "♾️ Cheksiz"
    else
      var r := ShowInt(stock) + " ta";
      assert r[|r| - 1] == 'a' && "♾️ Cheksiz"[|"♾️ Cheksiz"| - 1] == 'z';
      r
  }

  /** One reward card with its navigation row; `previous`/`next` are the `reward_page:<n>` targets. */
  datatype RewardsPage =
    | NoRewards                                 // 'Hozircha mukofotlar mavjud emas.'
    | PageFailed                                // index past the end: the catch's error reply
    | Page(shown: Listed, number: nat, total: nat, previous: Option<nat>, next: Option<nat>, stock: string)

  /**
   * `showRewards(ctx, pageIndex)`: the active rewards one per page, cheapest
   * first. An index past the end reads `undefined` and the card throws, which
   * the catch answers with an error.
   */
  function ShowRewards(s: Store, pageIndex: nat): (r: RewardsPage)
    ensures GetActiveRewards(s) == [] <==> r.NoRewards?
    ensures r.Page? <==> pageIndex < |GetActiveRewards(s)|
    ensures r.Page? ==>
      && r.shown == GetActiveRewards(s)[pageIndex]
      && r.number == pageIndex + 1 && r.total == |GetActiveRewards(s)|
      && r.stock == StockLabel(r.shown.reward.stock)
  {
    var rewards := GetActiveRewards(s);
    if rewards == [] then NoRewards
    else if pageIndex >= |rewards| then PageFailed
    else
      var total := |rewards|;
      Page(rewards[pageIndex], pageIndex + 1, total,
           if pageIndex > 0 then Some(pageIndex - 1) else None,
           if pageIndex < total - 1 then Some(pageIndex + 1) else None,
           StockLabel(rewards[pageIndex].reward.stock))
  }

  /**
   * The navigation buttons never lead off the catalogue: "previous" shows
   * exactly when there is an earlier page and leads to it, "next" exactly when
   * there is a later one, and either target is again a page whose buttons lead
   * back.
   */
  lemma PageButtonsStayInRange(s: Store, pageIndex: nat)
    requires ShowRewards(s, pageIndex).Page?
    ensures var p := ShowRewards(s, pageIndex);
      && (p.previous.Some? <==> pageIndex > 0)
      && (p.next.Some? <==> p.number < p.total)
      && (p.previous.Some? ==>
            && ShowRewards(s, p.previous.value).Page?
            && ShowRewards(s, p.previous.value).number == p.number - 1
            && ShowRewards(s, p.previous.value).next == Some(pageIndex))
      && (p.next.Some? ==>
            && ShowRewards(s, p.next.value).Page?
            && ShowRewards(s, p.next.value).number == p.number + 1
            && ShowRewards(s, p.next.value).previous == Some(pageIndex))
  {
  }

  /** Every active reward has a page of its own. */
  lemma PageForEveryReward(s: Store, id: RewardId)
    requires s.HasReward(id) && s.RewardAt(id).isActive
    ensures exists k :: 0 <= k < |GetActiveRewards(s)| && ShowRewards(s, k).shown == Listed(id, s.RewardAt(id))
  {
    var rewards := GetActiveRewards(s);
    ActiveRewardsAreTheActiveOnes(s, id);
    var k :| 0 <= k < |rewards| && rewards[k] == Listed(id, s.RewardAt(id));
    assert ShowRewards(s, k).shown == Listed(id, s.RewardAt(id));
  }

  /** Every page shows a stored, active reward under its own id. */
  lemma EveryPageIsActive(s: Store, pageIndex: nat)
    requires ShowRewards(s, pageIndex).Page?
    ensures var l := ShowRewards(s, pageIndex).shown;
      s.HasReward(l.id) && s.RewardAt(l.id) == l.reward && l.reward.isActive
  {
    assert ShowRewards(s, pageIndex).shown in GetActiveRewards(s);
    ActiveRewardsAreTheActiveOnes(s, 0);
  }

  // ------------------------------------------------------------------ showClaimReward

  /** The claim menu: nothing to offer, nothing affordable, or the rewards to choose from. */
  datatype ClaimMenu =
    | NothingActive                             // 'Hozircha mukofotlar mavjud emas.'
    | CannotAfford(points: int, cheapest: int)  // 'yetarli ball yo'q' with the cheapest price
    | Choose(options: seq<Listed>)              // one `claim_reward_<id>` button each

  /** Whether a reward's price is within `points`. */
  function Affordable(points: int): Listed -> bool {
    (l: Listed) => l.reward.costPoints <= points
  }

  /**
   * `showClaimReward(ctx)`: the active rewards whose price is within the
   * user's balance, cheapest first; the stock plays no part.
   */
  function ShowClaimReward(s: Store, user: User): (r: ClaimMenu)
    ensures r.NothingActive? <==> GetActiveRewards(s) == []
    ensures r.CannotAfford? ==>
      && r.points == user.points && r.points < r.cheapest
      && forall l :: l in GetActiveRewards(s) ==> r.cheapest <= l.reward.costPoints
    ensures r.Choose? ==>
      && r.options != []
      && SortedBy(r.options, Cost)
      && forall l :: l in r.options <==> l in Catalog(s) && l.reward.isActive && l.reward.costPoints <= user.points
  {
    var rewards := GetActiveRewards(s);
    if rewards == [] then NothingActive
    else
      var available := Filter(rewards, Affordable(user.points));
      FilterSorted(rewards, Affordable(user.points), Cost);
      AffordableMembers(s, user.points);
      if available == [] then
        CheapestFirst(rewards);
        assert rewards[0] !in available;
        CannotAfford(user.points, rewards[0].reward.costPoints)
      else Choose(available)
  }

  /** The affordable part of the active catalogue, member by member. */
  lemma AffordableMembers(s: Store, points: int)
    ensures forall l :: l in Filter(GetActiveRewards(s), Affordable(points)) <==>
      l in Catalog(s) && l.reward.isActive && l.reward.costPoints <= points
  {
    forall l ensures l in Filter(GetActiveRewards(s), Affordable(points)) <==>
      l in Catalog(s) && l.reward.isActive && l.reward.costPoints <= points
    {
      FilterMembers(GetActiveRewards(s), Affordable(points), l);
    }
  }

  /** In a list sorted by price the first entry is the cheapest. */
  lemma CheapestFirst(rewards: seq<Listed>)
    requires rewards != [] && SortedBy(rewards, Cost)
    ensures forall l :: l in rewards ==> rewards[0].reward.costPoints <= l.reward.costPoints
  {
    forall l | l in rewards ensures rewards[0].reward.costPoints <= l.reward.costPoints {
      var k :| 0 <= k < |rewards| && rewards[k] == l;
      if k > 0 { assert Cost(rewards[0]) <= Cost(rewards[k]); }
    }
  }

  /**
   * The menu offers a reward exactly when it is active and affordable, sold
   * out or not; with no such reward the user is told they cannot afford one
   * (when there are active rewards at all).
   */
  lemma ClaimMenuIsTheAffordableOnes(s: Store, user: User, id: RewardId)
    requires s.HasReward(id) && s.RewardAt(id).isActive
    ensures var m := ShowClaimReward(s, user);
      && !m.NothingActive?
      && (s.RewardAt(id).costPoints <= user.points ==> m.Choose? && Listed(id, s.RewardAt(id)) in m.options)
      && (m.Choose? && Listed(id, s.RewardAt(id)) in m.options ==> s.RewardAt(id).costPoints <= user.points)
  {
    ActiveRewardsAreTheActiveOnes(s, id);
    var l := Listed(id, s.RewardAt(id));
    if s.RewardAt(id).costPoints <= user.points {
      FilterMembers(GetActiveRewards(s), Affordable(user.points), l);
    }
  }

  // ------------------------------------------------------------------ confirmClaimReward

  /** The confirmation step's answers. */
  datatype ConfirmReply =
    | ConfirmFailed                             // the id text is not an ObjectId: the catch
    | NotAvailable                              // 'Mukofot mavjud emas.'
    | SoldOutReply                              // 'Bu mukofot tugagan.'
    | NotEnough(needed: int, has: int)          // 'Yetarli ball yo'q!'
    | AskConfirm(rewardId: RewardId)            // the `confirm_claim_<id>` keyboard

  /**
   * `confirmClaimReward(ctx, rewardId)`: the checks of the claim, on the
   * balance the context user was read with.
   */
  function ConfirmClaimReward(s: Store, user: User, idText: string): (r: ConfirmReply)
    ensures CastId(idText).None? <==> r.ConfirmFailed?
    ensures r.AskConfirm? ==> CastId(idText) == Some(r.rewardId)
    ensures r.NotEnough? ==> r.has == user.points && r.has < r.needed
  {
    match CastId(idText)
    case None => ConfirmFailed
    case Some(id) =>
      if !s.HasReward(id) || !s.RewardAt(id).isActive then NotAvailable
      else if SoldOut(s.RewardAt(id)) then SoldOutReply
      else if user.points < s.RewardAt(id).costPoints then NotEnough(s.RewardAt(id).costPoints, user.points)
      else AskConfirm(id)
  }

  /**
   * For a stored user, the confirmation refuses in the same order and for the
   * same reasons as `claimReward`, and asks to confirm exactly when the claim
   * would pass its checks.
   */
  lemma ConfirmFollowsClaimOrder(s: Store, userId: UserId, idText: string)
    requires s.HasUser(userId) && CastId(idText).Some?
    ensures var r := ConfirmClaimReward(s, s.users[userId], idText);
      var c := ClaimCheck(s, userId, CastId(idText).value);
      && (r.NotAvailable? <==> c == Some(RewardUnavailable))
      && (r.SoldOutReply? <==> c == Some(OutOfStock))
      && (r.NotEnough? <==> c == Some(InsufficientPoints))
      && (r.AskConfirm? <==> c.None?)
  {
  }

  // ------------------------------------------------------------------ executeClaimReward

  /** The failure replies of a claim. */
  datatype ClaimFailure =
    | NoBalance                                 // the message names "Yetarli ball yo'q"
    | NoStock                                   // the message names "Mukofot tugagan"
    | ClaimBroke                                // anything else

  /**
   * The reply the catch picks from the thrown message. The two recognised
   * texts are the service's own messages for these two errors; no other
   * message contains either.
   */
  function ClaimFailureOf(e: Error): (f: ClaimFailure)
    ensures f == NoBalance <==> e == InsufficientPoints
    ensures f == NoStock <==> e == OutOfStock
  {
    match e
    case InsufficientPoints => NoBalance
    case OutOfStock => NoStock
    case _ => ClaimBroke
  }

  datatype ClaimReply = Congratulate(title: string, remaining: int) | ClaimRefused(failure: ClaimFailure)

  /**
   * `executeClaimReward(ctx, rewardId)`: `claimReward` with the context user;
   * on success the reply shows `result.user.points` and the context user
   * becomes `result.user`. An id text that is not an ObjectId fails the
   * lookup, which lands in the generic reply.
   */
  function ExecuteClaimReward(s: Store, userId: UserId, idText: string, now: Time,
                              writesSucceed: bool): (r: (Store, ClaimReply, Option<User>))
    ensures CastId(idText).None? ==> r == (s, ClaimRefused(ClaimBroke), None)
    ensures CastId(idText).Some? ==>
      var o := ClaimReward(s, userId, CastId(idText).value, now, writesSucceed);
      && r.0 == o.store
      && (o.result.Err? ==> r.1 == ClaimRefused(ClaimFailureOf(o.result.error)) && r.2.None?)
      && (o.result.Ok? ==> r.1 == Congratulate(o.result.value.reward.title, o.result.value.user.points)
                            && r.2 == Some(o.result.value.user))
  {
    match CastId(idText)
    case None => (s, ClaimRefused(ClaimBroke), None)
    case Some(id) =>
      var o := ClaimReward(s, userId, id, now, writesSucceed);
      match o.result
      case Err(e) => (o.store, ClaimRefused(ClaimFailureOf(e)), None)
      case Ok(receipt) => (o.store, Congratulate(receipt.reward.title, receipt.user.points), Some(receipt.user))
  }

  /**
   * The "remaining points" of the congratulation are the balance before the
   * debit: the store holds `cost` less than what the user is shown.
   */
  lemma CongratulationShowsStaleBalance(s: Store, userId: UserId, idText: string, now: Time)
    requires ExecuteClaimReward(s, userId, idText, now, true).1.Congratulate?
    ensures var (t, reply, _) := ExecuteClaimReward(s, userId, idText, now, true);
      var id := CastId(idText).value;
      && s.HasUser(userId) && s.HasReward(id)
      && reply.remaining == s.users[userId].points
      && t.users[userId].points == reply.remaining - s.RewardAt(id).costPoints
  {
    var id := CastId(idText).value;
    ClaimEffects(s, userId, id, now, true);
    ClaimReturnsStaleUser(s, userId, id, now);
  }

  /**
   * The claim reply tells the two expected refusals apart: "not enough
   * points" exactly when the balance is short, "sold out" exactly when finite
   * stock has run out, and the balance refusal only after the reward itself
   * passed.
   */
  lemma ClaimRefusalsMatchTheChecks(s: Store, userId: UserId, idText: string, now: Time, writesSucceed: bool)
    requires s.HasUser(userId) && CastId(idText).Some?
    ensures var id := CastId(idText).value;
      var reply := ExecuteClaimReward(s, userId, idText, now, writesSucceed).1;
      && (reply == ClaimRefused(NoStock) <==> s.HasReward(id) && s.RewardAt(id).isActive && SoldOut(s.RewardAt(id)))
      && (reply == ClaimRefused(NoBalance) <==>
            s.HasReward(id) && s.RewardAt(id).isActive && !SoldOut(s.RewardAt(id))
            && s.users[userId].points < s.RewardAt(id).costPoints)
  {
  }

  /** A claim from the controller keeps the ledger invariant and the schemas, whatever happens. */
  lemma ExecuteClaimPreservesLedger(s: Store, userId: UserId, idText: string, now: Time, writesSucceed: bool)
    requires Ledgered(s) && SchemaValid(s)
    ensures Ledgered(ExecuteClaimReward(s, userId, idText, now, writesSucceed).0)
    ensures SchemaValid(ExecuteClaimReward(s, userId, idText, now, writesSucceed).0)
  {
    if CastId(idText).Some? {
      ClaimPreservesLedger(s, userId, CastId(idText).value, now, writesSucceed);
    }
  }
}

=== FILE: UserService.dfy ===
/**
 * The user service (src/services/userService.js): the points ledger, the
 * admin flag, and the user listing the broadcasts use.
 */
module UserService {
  import opened Wrappers
  import opened Models
  import opened Collections

  /**
   * `updateUserPoints(userId, amount, reason, adminId = null)`: one transaction
   * that moves the balance by `amount` and records it. It returns the updated
   * user. An unknown user, a balance that would go negative and a history entry
   * the schema rejects all abort the transaction, leaving the store as it was.
   */
  function UpdateUserPoints(s: Store, id: UserId, amount: int, reason: string, now: Time,
                            adminId: Option<int> := None): (r: Result<(Store, User), Error>)
    ensures !s.HasUser(id) ==> r == Err(UserNotFound)
    ensures s.HasUser(id) && s.users[id].points + amount < 0 ==> r == Err(NegativeBalance)
    ensures s.HasUser(id) && s.users[id].points + amount >= 0 && reason == [] ==> r == Err(ValidationFailed)
    ensures r.Ok? <==> s.HasUser(id) && s.users[id].points + amount >= 0 && reason != []
    ensures r.Ok? ==>
      && r.value.0 == Posted(s, HistoryEntry(id, amount, reason, adminId, now))
      && r.value.1 == r.value.0.users[id]
      && r.value.1.points == s.users[id].points + amount
  {
    if !s.HasUser(id) then Err(UserNotFound)
    else
      var u := s.users[id].(points := s.users[id].points + amount);
      if u.points < 0 then Err(NegativeBalance)
      else if reason == [] then Err(ValidationFailed)
      else
        Ok((Posted(s, HistoryEntry(id, amount, reason, adminId, now)), u))
  }

  /** A successful update keeps every balance equal to its history sum, and keeps every record valid. */
  lemma UpdatePreservesLedger(s: Store, id: UserId, amount: int, reason: string, now: Time, adminId: Option<int>)
    requires Ledgered(s) && SchemaValid(s)
    requires UpdateUserPoints(s, id, amount, reason, now, adminId).Ok?
    ensures Ledgered(UpdateUserPoints(s, id, amount, reason, now, adminId).value.0)
    ensures SchemaValid(UpdateUserPoints(s, id, amount, reason, now, adminId).value.0)
  {
    LedgerStep(s, HistoryEntry(id, amount, reason, adminId, now));
    SchemaStep(s, HistoryEntry(id, amount, reason, adminId, now));
  }

  /** A credit and the matching debit give the balance back; the history keeps both entries. */
  lemma UpdateThenUndo(s: Store, id: UserId, amount: int, reason: string, now: Time)
    requires s.HasUser(id) && s.users[id].points >= 0
    requires UpdateUserPoints(s, id, amount, reason, now).Ok?
    ensures var t := UpdateUserPoints(s, id, amount, reason, now).value.0;
      && UpdateUserPoints(t, id, -amount, reason, now).Ok?
      && UpdateUserPoints(t, id, -amount, reason, now).value.0.users == s.users
      && |UpdateUserPoints(t, id, -amount, reason, now).value.0.history| == |s.history| + 2
  {
    var t := UpdateUserPoints(s, id, amount, reason, now).value.0;
    var t2 := UpdateUserPoints(t, id, -amount, reason, now).value.0;
    assert t2.users[id] == s.users[id];
  }

  function Sum(xs: seq<int>): int
  {
    if xs == [] then 0 else Sum(xs[..|xs| - 1]) + xs[|xs| - 1]
  }

  /**
   * A sequence of `updateUserPoints` calls on one user: each delta is tried in
   * turn against the current store, a failed call leaves no trace, and the
   * deltas that committed are collected.
   */
  function Replay(s: Store, id: UserId, deltas: seq<int>, reason: string, now: Time): (Store, seq<int>)
    decreases |deltas|
  {
    if deltas == [] then (s, [])
    else
      var (t, committed) := Replay(s, id, deltas[..|deltas| - 1], reason, now);
      var d := deltas[|deltas| - 1];
      match UpdateUserPoints(t, id, d, reason, now)
      case Ok((t', _)) => (t', committed + [d])
      case Err(_) => (t, committed)
  }

  /**
   * Balance conservation: after any sequence of calls the balance is the
   * starting balance plus the sum of the committed deltas, it never went below
   * zero, the ledger invariant still holds, and nothing but users and history changed.
   */
  lemma {:induction false} ReplayConserves(s: Store, id: UserId, deltas: seq<int>, reason: string, now: Time)
    requires Ledgered(s) && SchemaValid(s) && s.HasUser(id)
    ensures var (t, committed) := Replay(s, id, deltas, reason, now);
      && |t.users| == |s.users|
      && t.users[id].points == s.users[id].points + Sum(committed)
      && t.users[id].points >= 0
      && |t.history| == |s.history| + |committed|
      && Ledgered(t) && SchemaValid(t)
      && t.rewards == s.rewards && t.claims == s.claims
    decreases |deltas|
  {
    if deltas != [] {
      var prefix := deltas[..|deltas| - 1];
      ReplayConserves(s, id, prefix, reason, now);
      var (t, committed) := Replay(s, id, prefix, reason, now);
      var d := deltas[|deltas| - 1];
      var r := UpdateUserPoints(t, id, d, reason, now);
      if r.Ok? {
        UpdatePreservesLedger(t, id, d, reason, now, None);
        assert (committed + [d])[..|committed|] == committed;
      }
    }
  }

  /** `toggleAdminStatus(userId, makeAdmin)`: sets the flag and touches nothing else. */
  function ToggleAdminStatus(s: Store, id: UserId, makeAdmin: bool): (r: Result<(Store, User), Error>)
    ensures r.Err? <==> !s.HasUser(id)
    ensures r.Err? ==> r.error == UserNotFound
    ensures r.Ok? ==>
      && r.value.1.isAdmin == makeAdmin
      && r.value.1 == s.users[id].(isAdmin := makeAdmin)
      && r.value.0 == s.WithUser(id, r.value.1)
  {
    if !s.HasUser(id) then Err(UserNotFound)
    else
      var u := s.users[id].(isAdmin := makeAdmin);
      Ok((s.WithUser(id, u), u))
  }

  /** Setting the admin flag changes no balance, so it keeps the ledger invariant. */
  lemma ToggleAdminPreservesLedger(s: Store, id: UserId, makeAdmin: bool)
    requires Ledgered(s) && SchemaValid(s)
    requires ToggleAdminStatus(s, id, makeAdmin).Ok?
    ensures Ledgered(ToggleAdminStatus(s, id, makeAdmin).value.0)
    ensures SchemaValid(ToggleAdminStatus(s, id, makeAdmin).value.0)
  {
  }

  /** The filters the callers pass to `getAllUsers`: `{}` (None) or `{ isAdmin: b }`. */
  predicate Matches(filter: Option<bool>, u: User) {
    filter.None? || u.isAdmin == filter.value
  }

  /** `getAllUsers(filter)`: the matching users, in store order. */
  function GetAllUsers(s: Store, filter: Option<bool>): (r: seq<User>)
    ensures forall i :: 0 <= i < |r| ==> Matches(filter, r[i])
    ensures forall u :: multiset(r)[u] == (if Matches(filter, u) then multiset(s.users)[u] else 0)
    ensures filter.None? ==> r == s.users
  {
    if filter.None? then s.users
    else
      var keep := u => Matches(filter, u);
      FilterMultiset(s.users, keep);
      Filter(s.users, keep)
  }
}

=== FILE: Wrappers.dfy ===
/** Failure-carrying wrappers shared by every module of the model. */
module Wrappers {

  /** A value that may be absent: JavaScript's `null`/`undefined` on one side, a document on the other. */
  datatype Option<+T> = None | Some(value: T) {

    /** `this` or a fallback, the model of `x ?? d` and `x || d` on documents. */
    function GetOr(default: T): T {
      match this
      case Some(v) => v
      case None => default
    }
  }

  /** The outcome of a call that either returns a value or throws. */
  datatype Result<+T, +E> = Ok(value: T) | Err(error: E) {

    predicate IsFailure() {
      Err?
    }

    function PropagateFailure<U>(): Result<U, E>
      requires Err?
    {
      Err(error)
    }

    function Extract(): T
      requires Ok?
    {
      value
    }
  }
}
